=== FILE: README.md ===
# ClutchMindBot core in Dafny

ClutchMindBot is a Telegram bot that shows the statistics of the CS team BakS
eSports: player cards, maps, tournaments, match pages, per-side tables, charts,
and file exports of every table. This project models the logic behind those
views and proves properties of it:

- the queries of `data_loader.py` over the match list;
- the callback-data protocol: the buttons each view builds (`handlers.py`,
  `callbacks.py`, `keyboards.py`) and how each callback handler takes that text
  apart again;
- the derived view logic of the handlers (averages, ranking, progress arrows,
  chart series, export tables, cancel targets);
- the dispatch tables of `bot.py`.

Each module follows a part of the program:

- **Outcomes**: `Option`, `Result` (a value or a raised Python exception class),
  and `Outcome` (a shown view, an early reply, or a crash).
- **Text**: the string builtins the code relies on, as Python defines them.
  These are `lower`, `capitalize`, `split` with and without `maxsplit`,
  `rsplit(…, 1)`, `replace`, `strip` and `split()` on whitespace.
- **Numbers**: Python's `int()` and `float()` on text, and `str()` of an integer.
- **Groups**: an insertion-ordered dict of lists, the grouping idiom the loader uses.
- **Dataset**: the JSON match records and every function of `data_loader.py`.
- **Tokens**: the callback-data encoders, the decoders of the callback handlers,
  and the export and cancel target chains.
- **Keyboards**: the three keyboards of `keyboards.py`.
- **Handlers**: the message handlers of `handlers.py`.
- **Callbacks**: the callback handlers of `callbacks.py`.
- **Router**: the message and callback tables of `bot.py`.

The data set is a parameter `ds: seq<Match>` in place of the module-level
`STATS`. A handler's result is an `Outcome`. `Reply(text)` is an early answer
such as 'Матч не найден.'. `Crash(e)` is an exception the handler does not
catch, so the user sees nothing.

## Model

| member | source | states |
|---|---|---|
| Outcomes.Lift | callbacks.py:153 | an uncaught exception ends the handler as a crash of the same class, and a value continues unchanged |
| Text.Lower | data_loader.py:54 | `lower()` keeps the length and maps each character by itself |
| Text.LowerChar_Idempotent | data_loader.py:54 | lower-casing a lower-cased character changes nothing |
| Text.Capitalize_Idempotent | data_loader.py:93 | a capitalized map name is a fixed point of `capitalize()` |
| Text.DropPrefix | callbacks.py:86 | `s[n:]` is the tail after `n` characters, and empty past the end |
| Text.Find | callbacks.py:22 | the index found holds the separator, and no earlier index does |
| Text.FindLast | callbacks.py:461 | the index found holds the separator, and no later index does |
| Text.RSplit1 | callbacks.py:461 | `rsplit('_', 1)` gives two parts exactly when there is a separator; the last part has none; joining the parts gives the text back |
| Text.SplitN_Inverse | callbacks.py:22 | joining the parts of `split(sep, n)` with `sep` gives the text back |
| Text.SplitN_Clean | callbacks.py:22 | only the last part of `split(sep, n)` may hold a separator |
| Text.Split_Inverse | callbacks.py:466 | joining the parts of `split(sep)` gives the text back |
| Text.Split_Clean | callbacks.py:466 | no part of `split(sep)` holds the separator |
| Text.SplitN_Join | callbacks.py:225 | splitting joined pieces (none before the last holding a separator) with as many cuts as separators returns the pieces |
| Text.Split_Join | callbacks.py:704 | splitting joined separator-free pieces returns the pieces |
| Text.RSplit1_Snoc | callbacks.py:461 | cutting `a_b` at its last '_' gives `[a, b]` whenever `b` has no '_' |
| Text.Remove | data_loader.py:151 | `replace(c, '')` leaves no `c`, adds no character, and changes nothing when there is no `c` |
| Text.Remove_Append | handlers.py:25 | removing a character distributes over concatenation |
| Text.Strip | data_loader.py:153 | stripping changes nothing on a text without whitespace and adds no character |
| Text.Strip_Shape | data_loader.py:153 | the stripped text is what lies between a whitespace prefix and a whitespace suffix of the text |
| Text.Strip_Ends | data_loader.py:153 | the stripped text neither starts nor ends with whitespace |
| Text.Words | handlers.py:289 | every word of `split()` is non-empty and free of whitespace |
| Text.Words_Empty | handlers.py:289 | `split()` gives no word exactly when the text is all whitespace |
| Text.Words_LeadingSpace | handlers.py:289 | leading whitespace does not change the words |
| Text.Words_ConsAny | handlers.py:289 | a word, any whitespace character and a text split into that word followed by the text's words |
| Text.Words_Single | handlers.py:289 | a whitespace-free text is a single word |
| Text.Words_Cons | handlers.py:289 | a word, a space and a text split into that word followed by the text's words |
| Numbers.IntToString | callbacks.py:61 | `str(i)` is non-empty, has no whitespace or '_', and holds only digits and '-' |
| Numbers.DigitsValue_NatToString | callbacks.py:61 | the digits printed for `n` have the value `n` |
| Numbers.NatToString_Injective | callbacks.py:175 | distinct numbers never print alike |
| Numbers.ParseInt | callbacks.py:28 | `int(s)` fails on a blank text |
| Numbers.ParseInt_Accepted | callbacks.py:28 | an accepted text, once stripped, holds a digit and only digits, '_' and a sign; a negative value needs the '-' |
| Numbers.ParseInt_Unsigned | callbacks.py:28 | a run of ASCII digits with single '_' between digits reads as its value |
| Numbers.ParseInt_Negative | callbacks.py:28 | a '-' before such a run reads as the negated value |
| Numbers.ParseInt_IntToString | callbacks.py:28 | `int(str(i)) == i` for every integer |
| Numbers.ParseInt_Grouped | callbacks.py:28 | for any two non-empty digit strings `x` and `y`, `x_y` reads as the number the digits of `xy` spell |
| Numbers.ParseInt_Letter | callbacks.py:28 | any text starting with an ASCII letter is rejected |
| Numbers.ParseFloat_IntToString | handlers.py:23 | `float(str(i)) == i` for every integer |
| Numbers.Round2 | data_loader.py:186 | `round(x, 2)` is a whole number of hundredths, at most half a hundredth from `x` |
| Numbers.Round2_Monotone | data_loader.py:186 | rounding never reverses an order, though it can turn it into a tie |
| Numbers.Round2_Cents | data_loader.py:186 | a value already in hundredths is kept |
| Numbers.Round2_Ties | data_loader.py:186 | 1.231 and 1.234 both round to 1.23, and 0.004 rounds to 0 |
| Numbers.Round2_Near | data_loader.py:186 | every value strictly within half a hundredth of a whole number of hundredths rounds to it |
| Numbers.ParseFloat_HasDigit | data_loader.py:152-155 | among the decimal literals modelled, every accepted text holds an ASCII digit |
| Groups.IndexIn | data_loader.py:15 | the position of the first occurrence, or the length when the key is absent |
| Groups.Distinct | data_loader.py:41-45 | the distinct keys hold exactly the keys of the input |
| Groups.Distinct_NoDup | data_loader.py:41-45 | no key is listed twice |
| Groups.Distinct_FirstAppearance | data_loader.py:41-45 | keys keep the order of their first appearance, as a dict's keys do |
| Groups.Select_Sound | data_loader.py:17 | every selected value was paired with its key in the input |
| Groups.Select_Present | data_loader.py:15-17 | a key that occurs has at least one value |
| Groups.Insert | data_loader.py:15-17 | a known key keeps the number of groups; a new key appends a one-value group |
| Groups.GroupBy_NonEmpty | data_loader.py:15-17 | no group is empty |
| Groups.GroupBy_Correct | data_loader.py:12-17 | one group per distinct key, keys in first-appearance order, and under each key exactly its values in input order |
| Groups.GroupBy_Partition | data_loader.py:12-17 | the groups laid end to end are a permutation of the input values |
| Groups.GroupBy_Lookup | data_loader.py:93 | `d.get(k, [])` on the grouping is exactly the selection of `k`'s values |
| Groups.Lookup | data_loader.py:93 | a missing key gives `[]`, and a present key gives its own group |
| Groups.Concat_Window | data_loader.py:99-100 | group `t`'s values sit in the concatenation right after those of the groups before it |
| Dataset.OtherTeams | data_loader.py:52 | the non-home teams are teams of the match, none is BAKS, and there are none only when every team is BAKS |
| Dataset.Opponent | data_loader.py:52 | the opponent is a listed team that is not BAKS, and every team before it is BAKS |
| Dataset.MatchList | data_loader.py:106-111 | the tournament-grouped match list is a permutation of the raw list |
| Dataset.Tournaments_Correct | data_loader.py:10-18 | one entry per distinct tournament, in first-seen order, each holding exactly that tournament's matches in raw order |
| Dataset.MatchByIndex | data_loader.py:96-103 | a match exactly for `1 <= idx <= len`, and then position `idx - 1` of the grouped list |
| Dataset.Players_Correct | data_loader.py:39-45 | every `overall` nickname listed once, exact case, in first-appearance order, and nothing else |
| Dataset.PlayerStats_OnePerEntry | data_loader.py:48-72 | one record per `overall` line whose nickname matches case-insensitively, in raw order, each built from its own match and line |
| Dataset.PlayerStats_Empty | data_loader.py:48-72 | the list is empty exactly when no line matches the name in any case |
| Dataset.PlayerStats_CaseInsensitive | data_loader.py:54 | names equal up to case get the same records |
| Dataset.MapItems_Shape | data_loader.py:78-83 | one entry per (match, map) pair, keyed by the map's name and tagged with its own match |
| Dataset.Maps_Correct | data_loader.py:75-87 | grouping by exact map name keeps every entry exactly once, under its own name, and the group sizes sum to the number of maps played |
| Dataset.MapStats_Correct | data_loader.py:90-93 | only the capitalized name is looked up, so a stored name that is not in capitalized form is never returned |
| Dataset.Best | data_loader.py:116-123 | nothing when no rating is above 0; otherwise a candidate of maximal rating, the first such in scan order |
| Dataset.BestMapForPlayer_Correct | data_loader.py:114-124 | the best map is a map where the player played with the highest rating, above 0, the first one found; none when no rating exceeds 0 |
| Dataset.LastPlayed | data_loader.py:129-132 | the last match in which the player appears, with no later match containing the player |
| Dataset.LastMatchForPlayer | data_loader.py:127-133 | None exactly when the player appears in no match, otherwise the last match containing the player |
| Dataset.SafeFloat_Percent | data_loader.py:151-153 | a percentage string such as `73%` reads as its number |
| Dataset.SafeFloat_NoDigit | data_loader.py:154-155 | with floats read as the modelled decimal literals, a string without an ASCII digit reads as 0 |
| Dataset.Tally_GroupBy | data_loader.py:159-181 | the running totals of the first loop are the per-nickname sums and counts of the grouped lines |
| Dataset.RoundFigures | data_loader.py:184-186 | every stored average is a whole number of hundredths |
| Dataset.PlayerAverages_Correct | data_loader.py:141-188 | the averages are keyed by exactly the `get_players()` nicknames in their order, and each is the field-wise mean of that nickname's lines with every figure rounded to two decimals |
| Tokens.At | callbacks.py:496 | indexing past the end raises IndexError |
| Tokens.Int | callbacks.py:497 | `int()` raises ValueError exactly where the literal is malformed |
| Tokens.DecodePlayerMatch | callbacks.py:22-31 | a decoded token has four parts, and the name is the third |
| Tokens.DecodePlayerMatch_Token | callbacks.py:22-31 | an underscore-free name and any index come back exactly |
| Tokens.DecodePlayerMatch_Underscore | callbacks.py:22-28 | a name with an underscore is cut at it, and the index is read from the rest of the name |
| Tokens.DecodePlayerMatch_LetterTail | callbacks.py:27-31 | a name whose piece after the first '_' starts with an ASCII letter never decodes, so its records cannot be opened |
| Tokens.DecodePlayerMatch_DigitTail | callbacks.py:22-28 | for a name `a_b` with `b` all digits, the button for index `i` decodes as player `a` with the index that the digits of `b` and then of `i` spell |
| Tokens.DecodeMatch_Token | callbacks.py:153 | `match_{k}` reads back as `k` |
| Tokens.DecodeMatchMap_Token | callbacks.py:225-226 | `matchmap_{k}_{i}` reads back as `(k, i)` |
| Tokens.DecodeMatchMapSide_Token | callbacks.py:281-282 | every side comes back, underscores and all |
| Tokens.DecodeGraph_Token | callbacks.py:414 | with an underscore-free name every metric comes back, `A_f` and `D_t` included |
| Tokens.DecodeGraph_Underscore | callbacks.py:414 | a name with an underscore loses its tail to the metric |
| Tokens.DecodeExportFormat | callbacks.py:461-465 | a decoded format never holds '_' |
| Tokens.DecodeExportFormat_Token | callbacks.py:461-465 | any callback data and any underscore-free format come back |
| Tokens.DecodeExportCancel | callbacks.py:685 | without the `export_cancel_` prefix the target is empty |
| Tokens.DecodeExportCancel_Token | callbacks.py:685 | the cancel button's target comes back exactly |
| Tokens.DecodeTarget_Encode | callbacks.py:466-656 | every well-formed export target reads back as itself |
| Tokens.DecodeTarget_PlayerNamedMatch | callbacks.py:494-497 | a player named `match` makes the export crash with IndexError |
| Tokens.DecodeTarget_MapUnderscore | callbacks.py:631-632 | a map name with an underscore exports the map named by its first piece |
| Tokens.DecodeCancel_Encode | callbacks.py:681-773 | cancelling an export returns to the view that offered it, for names that do not start with `match_` |
| Tokens.DecodeCancel_PlayerStatShadowed | callbacks.py:687-689 | `playerstat_…` is caught by the earlier `players` prefix and returns to the player list |
| Tokens.DecodeCancel_PlayerNamedMatch | callbacks.py:747-751 | a player named `match_x` cancels to the card of player `x` |
| Keyboards.Flatten | keyboards.py:17-22 | the labels of the menu are exactly the labels of its rows |
| Keyboards.ExportFormatKeyboard | keyboards.py:33-49 | one button per format, in order, then the cancel button |
| Keyboards.ExportFormatKeyboard_RoundTrip | keyboards.py:33-49 | every format button reads back as the same callback data and its format, and the cancel button names it too |
| Keyboards.PlayersChartKeyboard | keyboards.py:52-66 | one button per chart metric, in order, then the cancel button |
| Handlers.PyFloat | handlers.py:23-24 | `float` converts exactly the floatable values; a malformed string raises ValueError and anything else TypeError |
| Handlers.Floats | handlers.py:23-24 | the list converts exactly when every value does, and otherwise raises the first failing value's exception |
| Handlers.KastTexts | handlers.py:25 | only string KAST cells take part, each without '%'; none when no cell is a string |
| Handlers.KastTexts_Floatable | handlers.py:25 | the KAST strings convert exactly when every string KAST cell converts once its '%' are gone |
| Handlers.CardFloats | handlers.py:23-37 | the card's conversions succeed exactly when every figure converts |
| Handlers.FirstMatching | handlers.py:52-57 | the first line of the player, with none before it |
| Handlers.LastLineOf | handlers.py:51-57 | the last-match line is absent exactly when the player is in no match; otherwise the opponent and first matching line of the player's last match |
| Handlers.MatchButtons | handlers.py:65-70 | one button per record, labelled by date and opponent, sending `player_match_{name}_{idx}` |
| Handlers.CardButtons | handlers.py:65-72 | the record buttons, then back to the list, then export of this player |
| Handlers.Floats_Append | handlers.py:23-29 | converting two lists in turn fails exactly when one of them fails, with the front list's exception first |
| Handlers.CardFloats_Error | handlers.py:23-37 | a failed card raises the exception of the first ADR, KAST, K or D value, in that order, that `float` rejects |
| Handlers.RenderPlayerCard | handlers.py:18-73 | no records replies 'not found'; otherwise a crash exactly when a figure does not convert, with the first such value's exception; else ADR is the mean of the ADRs, K and D are sums over the record count, KAST the mean of the string cells or 0 when there are none, with best map, last match and buttons of that player |
| Handlers.CmdPlayer | handlers.py:287-303 | exactly two words give the card of the second, and anything else gives the usage text |
| Handlers.InsertByRating | handlers.py:168 | inserting adds exactly one element |
| Handlers.SortByRating | handlers.py:168 | the sort is a permutation |
| Handlers.SortByRating_Ranked | handlers.py:168 | the result is in descending Rating order |
| Handlers.SortByRating_Stable | handlers.py:168 | among equal Ratings the input order survives |
| Handlers.RankedPlayers | handlers.py:166-168 | the ranking is a permutation of the stored averages, in descending order of their rounded Rating |
| Handlers.RankedPlayers_Stable | handlers.py:166-168 | players whose rounded Ratings are equal keep their `get_player_averages()` order, even when their unrounded means differ |
| Handlers.CmdPlayers | handlers.py:164-200 | the table is the ranking by Rating; one button per ranked player opening its card, then export and chart |
| Handlers.CmdMaps | handlers.py:203-225 | one button per stored map name sending `show_map_{name}`, then export |
| Handlers.AddMatchButtons | handlers.py:241-250 | the buttons already there are kept, and one numbered button per game is appended |
| Handlers.GroupButtons | handlers.py:238-251 | the match buttons are numbered from 1 along the matches of the tournaments in turn |
| Handlers.CmdTournaments | handlers.py:228-255 | the `k`-th match button opens exactly the match `get_match_by_index(k)` returns, and export comes last |
| Handlers.ProgressOf | handlers.py:261-268 | a row exactly for each player with at least two records, each from that player's first and last record |
| Handlers.ProgressOf_Ordered | handlers.py:261-268 | over a list naming nobody twice, the rows follow the list's order, so no player gets two rows |
| Handlers.CmdProgress | handlers.py:258-284 | the rows over `get_players()`, in that order and one per player at most, and a single chart button |
| Handlers.RecordField | handlers.py:374 | a record has exactly the fifteen keys `get_player_stats` builds |
| Handlers.ParseMetric | handlers.py:366-372 | a string ending in '%' must convert (ValueError otherwise); any other value converts or reads as 0 |
| Handlers.ParseMetric_SafeFloat | handlers.py:366-372 | where `parse_metric` and `safe_float` read the same cell, they agree |
| Handlers.MetricAt | handlers.py:374 | a metric that is not a record key reads as 0; only ValueError can escape |
| Handlers.Series | handlers.py:374 | the series exists exactly when every point parses, and has one point per record |
| Handlers.PlotOf | handlers.py:364-385 | dates and values are one per record, in record order |
| Handlers.GraphOf | handlers.py:360-385 | an unknown player replies 'not found'; otherwise the plot of that player's records, or the ValueError of a bad cell |
| Handlers.GraphOf_UnknownMetric | handlers.py:374 | a metric that is not a record key plots a flat line of zeros, one per match |
| Handlers.CmdGraph | handlers.py:355-388 | exactly three words give the graph, and anything else gives the usage text |
| Handlers.OwnEntries | handlers.py:416 | exactly the entries of this user, nothing else |
| Handlers.Reverse | handlers.py:420 | `[::-1]` puts element `i` at the mirrored position |
| Handlers.OwnEntries_Append | handlers.py:416 | the user's entries of two logs in turn are the user's entries of each, in turn |
| Handlers.OwnEntries_Snoc | handlers.py:416 | an empty log has no entries; logging one more action appends it exactly when it is the user's |
| Handlers.CmdHistory | handlers.py:405-420 | never crashes; an unreadable file or no own entries gives 'История пуста.'; otherwise the last ten own entries, newest first |
| Handlers.CmdHistory_Newest | handlers.py:416-420 | after the user logs an action, the history shows it first and at most ten entries |
| Callbacks.PyIndex | callbacks.py:234 | Python indexing: a negative index counts from the end, and IndexError outside |
| Callbacks.RecordButtons | callbacks.py:60-78 | back to the player, export of this record, then one graph button per metric |
| Callbacks.PlayerMatchView | callbacks.py:19-81 | every failure is the same reply; a page exactly for a decoded index within the player's records, and it shows that record |
| Callbacks.PlayerMatchView_FromCard | handlers.py:65-70 | the card's `i`-th button opens the `i`-th record of that same player when the name has no '_' |
| Callbacks.RecordButtons_Graphs | callbacks.py:63-78 | every graph button reads back as that player and metric, and each metric is a record key |
| Callbacks.PlayerStatView | callbacks.py:84-93 | the card of the name after `playerstat_` |
| Callbacks.PlayerStatView_Token | handlers.py:196 | a `/players` button and a record page's back button open the same card `/player <name>` gives |
| Callbacks.ShowMapView | callbacks.py:102-142 | the entries `get_map_stats` returns under the capitalized title, or the not-found text when there are none |
| Callbacks.ShowMapView_FromMaps | handlers.py:222-223 | a `/maps` button opens a page exactly when its capitalized name is stored; a capitalized stored name opens its own group |
| Callbacks.Maps_Groups | data_loader.py:84-86 | every map group holds at least one entry |
| Callbacks.MatchPageButtons | callbacks.py:171-179 | a button per map numbered from 1, back to the tournaments, then export |
| Callbacks.MatchInfoView | callbacks.py:151-179 | a malformed token crashes; a number outside the list replies 'not found'; otherwise that match with its opponent and buttons |
| Callbacks.MatchInfoView_FromTournaments | handlers.py:244-249 | the `k`-th button of `/tournaments` opens the page of the match it names |
| Callbacks.FirstMax | callbacks.py:241 | `max(…, key=Rating)` picks a line of highest Rating, the first one |
| Callbacks.MapOfMatchView | callbacks.py:234-272 | map `i - 1` by Python indexing, IndexError outside and ValueError on an empty table; the MVP is the first line of top Rating, as `max` picks |
| Callbacks.MatchMapView | callbacks.py:223-272 | a malformed token crashes; an unknown match replies; otherwise the map page of that match |
| Callbacks.MatchMapView_FromMatch | callbacks.py:171-177 | the `j`-th map button of a match page opens map `j` of that match |
| Callbacks.MatchMapView_ZeroIsLast | callbacks.py:234 | map number 0 shows the match's last map |
| Callbacks.SideLines | callbacks.py:291 | `t`, `ct` and `both` give their tables, and any other side raises KeyError |
| Callbacks.SideOfMatchView | callbacks.py:284-318 | a reply exactly when the map number is past the end; a crash for a bad index or side; otherwise that side's lines |
| Callbacks.MatchMapSideView | callbacks.py:279-318 | a malformed token crashes; an unknown match replies; otherwise the side page |
| Callbacks.MatchMapSideView_FromMap | callbacks.py:265-268 | the T and CT buttons open that map's T and CT tables, and the back button returns to the map |
| Callbacks.SideOfMatchView_BothIsCT | callbacks.py:310 | the `both` table is titled Counter-Terrorist |
| Callbacks.ChartLabel | callbacks.py:339-359 | a label exactly for the six chart metrics |
| Callbacks.PlayersChartBuild | callbacks.py:333-359 | an unknown metric replies; otherwise one bar per player in the `/players` ranking order, its height the chosen rounded average, and for `kd` 0 when the rounded D is 0 |
| Callbacks.PlayersChartBuild_FromKeyboard | keyboards.py:52-66 | every metric button builds a chart whose bars are the `/players` ranking by rounded Rating, in order |
| Callbacks.ProgressChartView | callbacks.py:381-395 | no rows replies; otherwise one bar per `/progress` row, its height the last Rating minus the first, the bars in `get_players()` order |
| Callbacks.ProgressChartView_Arrows | handlers.py:267 | a bar rises exactly where `/progress` shows the up arrow and falls exactly where it shows the down arrow |
| Callbacks.GraphView | callbacks.py:412-429 | a token that does not split into three parts crashes with ValueError; otherwise the graph of that name and metric |
| Callbacks.GraphView_AgreesCommand | callbacks.py:412-429 | a graph button draws the same graph as typing `/graph <name> <metric>` |
| Callbacks.ExportChooseFormat | callbacks.py:444-447 | the format menu for the text after `export_table_` |
| Callbacks.MapCounts | callbacks.py:487-491 | each stored map name with the number of entries `get_map_stats` gives it |
| Callbacks.MapCounts_Groups | data_loader.py:90-93 | a stored name in capitalized form counts its own non-empty group; a name whose capitalized form is not stored counts 0 |
| Callbacks.TournamentCounts | callbacks.py:647-652 | each tournament with its number of matches |
| Callbacks.TournamentCounts_Total | callbacks.py:647-652 | the tournament counts add up to the number of matches |
| Callbacks.ExportMap | callbacks.py:554-557 | a reply exactly when the map number is past the end, and IndexError for a number below `-len` |
| Callbacks.ExportTable | callbacks.py:466-656 | only IndexError or KeyError can escape the table lookups |
| Callbacks.ExportTable_RecordPage | callbacks.py:494-521 | a record's export holds exactly the record its page shows, and exists exactly when the page does |
| Callbacks.ExportTable_Card | callbacks.py:604-628 | a card's export holds every record of the player, and replies exactly when the card does |
| Callbacks.ExportTable_MapPage | callbacks.py:631-644 | a map page's export lists the same entries, and exists exactly when the page does |
| Callbacks.ExportTable_SidePage | callbacks.py:550-575 | a side page's export lists the same lines the page shows |
| Callbacks.ExportTable_Match | callbacks.py:524-547 | a match's export lists its overall lines, for every match number `/tournaments` shows |
| Callbacks.Deliver | callbacks.py:658-678 | the table's own reply or crash first; an unknown format, or a writer that raises, is caught and replies with the export error and its message; otherwise the file `{filename}.{fmt}` of that table; nothing crashes past the table |
| Callbacks.ExportSend | callbacks.py:453-678 | a malformed token replies; an unguarded lookup crashes; an unknown target replies 'not implemented'; otherwise the table of the target in the format |
| Callbacks.ExportSend_FromMenu | keyboards.py:33-49 | from any view's export button, each format of the menu is accepted and delivers exactly that view's table in that format, whatever the writer does |
| Callbacks.ExportCancel | callbacks.py:685 | data without the `export_cancel_` prefix falls back to the start screen |
| Callbacks.ExportCancel_FromMenu | callbacks.py:681-773 | the cancel button of the format menu returns to the view that offered the export |
| Router.CommandOf | bot.py:22-33 | a command is found only in a first word starting with '/' |
| Router.CommandOf_Word | bot.py:22-33 | a first word `/w` without '@' names the command `w` in lower case |
| Router.RouteText_Plain | bot.py:36-45 | a text not starting with '/' or whitespace goes to the menu labels |
| Router.RouteText_MenuTop | bot.py:36-39 | each label of the first menu row reaches the handler of its command |
| Router.RouteText_MenuHelp | bot.py:40-41 | each label of the second menu row reaches the handler of its command |
| Router.RouteText_MenuLast | bot.py:42-43 | the history and restart labels reach their handlers |
| Router.RouteText_Maps | bot.py:26-30 | `/maps` is registered before the `/map` prefix and reaches the map list |
| Router.RouteText_MapsUpper | bot.py:26 | commands ignore case, so `/MAPS` reaches the map list |
| Router.RouteText_Map | bot.py:30 | `/map <name>` reaches the single-map command |
| Router.AliasRoute_Slash | bot.py:36-45 | no menu label starts with '/', so a slash text is never taken for one |
| Router.RouteText_CapitalMap | bot.py:30-45 | `/Map <name>` matches no handler but the fallback |
| Router.MatchPrefix_ExcludesMatchMap | bot.py:53-55 | a `matchmap_` text never starts with `match_` |
| Router.RouteCallback_PlayerTokens | bot.py:48-51 | the player-match, player-card and map buttons reach their own handlers |
| Router.RouteCallback_MatchTokens | bot.py:53-60 | the match, map and side buttons reach their own handlers |
| Router.RouteCallback_ChartTokens | bot.py:62-67 | chart-metric and graph buttons reach their handlers |
| Router.RouteCallback_Charts | bot.py:61-66 | the chart menu, chart cancel and progress chart buttons reach their handlers |
| Router.RouteCallback_ExportTokens | bot.py:68-70 | the export, cancel and format buttons reach their handlers |
| Router.RouteCallback_ExportKeyboard | bot.py:68-70 | every format button reaches the sender, and the last button the cancel handler |
| Router.RouteCallback_ChartKeyboard | bot.py:62-65 | every metric button reaches the chart builder, and its cancel button the chart-cancel handler |
| Router.RouteCallback_BareCancel | bot.py:69 | the cancel filter tests `export_cancel` without '_', so the bare text is caught too |
| Router.Accepts_Unique | bot.py:48-70 | no callback data passes two filters of the table |
| Router.RouteCallback_Accepts | bot.py:48-70 | a filter accepts the data exactly when the table dispatches it to that handler |
| Router.RouteCallback_AnyOrder | bot.py:48-70 | first-match dispatch over the filters in any order that lists every handler gives the same handler |
| Router.RouteCallback_Registrations | bot.py:48-70 | the dispatch is first-match over the seventeen registrations in their order |

## Left out

- Transport: the Telegram API, message editing and deleting, `call.answer`, photos and documents, and the `as_new_message` switch.
- Rendering: matplotlib figures, `tabulate` tables, HTML markup, number formatting with `:.2f` and friends, and keyboard row layout (`row_width`, `keyboard.row`).
- `export_utils.py`: the CSV/JSON/Excel/PDF writers are not part of this model. The format check that makes `export_data` raise is kept (`ExportAccepts`). Whether a writer raises (no `openpyxl`, no `arialmt.ttf` for PDF, `export_utils.py:100-178`) is the parameter `fault` of `Deliver` and `ExportSend`, holding the exception's message. `log_history` and the history file I/O become a parameter: `CmdHistory` takes the file's parsed entries, or None when it cannot be read.
- Static texts: `cmd_start`, `cmd_help`, `cmd_abbr`, `cmd_alert` and `unknown` only send fixed text; the router reaches them, but their bodies are not modelled.
- The body of `cmd_map` (`handlers.py:306-352`) is not modelled; the `/map` prefix routing is. `get_games` and `get_side_stats` are not modelled because no handler of the core calls them. `config.py` is not part of this model.
- The match page's team stats and top-3 list (`callbacks.py:180-188`), and `render_player_card` with `with_keyboard=False`.
- The bot's own user name, used by the `@mention` test of the command filter, is the parameter `me`.
- Numbers.ParseInt: only the ASCII digits 0-9 count as digits. Python's `int` also accepts other Unicode decimal digits, such as Arabic-Indic ones; the model rejects them.
- Numbers.ParseFloat: decimal literals of ASCII digits only. Exponents, `inf`, `nan`, underscores inside a float literal and non-ASCII Unicode digits are not modelled, so `ParseFloat_HasDigit` and `SafeFloat_NoDigit` hold of this subset only: Python reads `inf` as a float.
- Numbers.Round2: rounds the exact value to hundredths, half to even. Python rounds the binary double it computed, so a decimal half such as 2.675 can round the other way; floating-point arithmetic is not modelled.
- Text.Lower: the case mapping covers ASCII and the basic Cyrillic letters (А–Я, Ё) only, not all of Unicode.
- Text.Capitalize: same restriction as Text.Lower.
- Handlers.GraphOf_UnknownMetric: a metric that is not a key of the record is not looked up; the point is 0 directly (`handlers.py:374`), so the series has one 0 per record.
- Callbacks.ExportTable: the exported rows are kept as the data they are built from. Column titles and `s.get(…, '-')` defaults are not modelled.
- Dataset.ValidMatches: every match must name a team other than BAKS. The code indexes `[…][0]` and would raise IndexError otherwise. This is treated as a property of the loaded data, not an error path.

=== FILE: callbacks.dfy ===
/** The inline-button handlers of `callbacks.py`: each reads its callback data,
    looks the data set up and produces the view it would edit into the chat (or a
    plain reply text, or an uncaught exception). */
module Callbacks {
  import opened Outcomes
  import opened Text
  import opened Numbers
  import opened Groups
  import opened Dataset
  import opened Tokens
  import opened Keyboards
  import opened Handlers

  /** Python's `s[j]`: a negative `j` counts from the end; IndexError outside. */
  function PyIndex<T>(s: seq<T>, j: int): (r: Result<T>)
    ensures r.Ok? <==> -|s| <= j < |s|
    ensures 0 <= j < |s| ==> r == Ok(s[j])
    ensures -|s| <= j < 0 ==> r == Ok(s[|s| + j])
    ensures r.Fail? ==> r.error == IndexError
  {
    if 0 <= j < |s| then Ok(s[j])
    else if -|s| <= j < 0 then Ok(s[|s| + j])
    else Fail(IndexError)
  }

  // ---------------------------------------------------------------- player_match_

  const MatchNotFound: string := "Матч не найден."

  /** The metrics `player_match_callback` offers a graph of, with their labels. */
  const GraphMetrics: seq<(string, string)> := [
    ("Rating", "Рейтинг"), ("ADR", "ADR"), ("KAST", "KAST"), ("K", "K"), ("D", "D"),
    ("OpK-D", "OpK-D"), ("MKs", "MKs"), ("1vsX", "1vsX"), ("HS", "HS"), ("A", "A"),
    ("A_f", "A_f"), ("D_t", "D_t")
  ]

  /** One record of a player, with back, export and graph buttons. */
  datatype RecordPage = RecordPage(name: string, idx: int, record: StatRecord, buttons: seq<Button>)

  function RecordButtons(name: string, idx: int): (bs: seq<Button>)
    ensures |bs| == 2 + |GraphMetrics|
    ensures bs[0] == Button("⬅️ Назад к игроку", PlayerStatToken(name))
    ensures bs[1] == Button(ExportLabel, ExportTableToken(EncodeTarget(PlayerMatchT(name, idx))))
    ensures forall j :: 0 <= j < |GraphMetrics| ==>
      bs[2 + j] == Button(GraphMetrics[j].1, GraphToken(name, GraphMetrics[j].0))
  {
    [Button("⬅️ Назад к игроку", PlayerStatToken(name)),
     Button(ExportLabel, ExportTableToken(EncodeTarget(PlayerMatchT(name, idx))))]
    + seq(|GraphMetrics|, j requires 0 <= j < |GraphMetrics| =>
          Button(GraphMetrics[j].1, GraphToken(name, GraphMetrics[j].0)))
  }

  /** `player_match_callback`: every failure, from a malformed token to an index
      out of range, is the same reply; a negative index is refused too. */
  function PlayerMatchView(ds: seq<Match>, data: string): (r: Outcome<RecordPage>)
    requires ValidMatches(ds)
    ensures !r.Crash?
    ensures r.Reply? ==> r.message == MatchNotFound
    ensures r.Shown? <==>
      DecodePlayerMatch(data).Some? &&
      0 <= DecodePlayerMatch(data).value.1 < |PlayerStats(ds, DecodePlayerMatch(data).value.0)|
    ensures r.Shown? ==>
      var name := DecodePlayerMatch(data).value.0;
      var idx := DecodePlayerMatch(data).value.1;
      r.view == RecordPage(name, idx, PlayerStats(ds, name)[idx], RecordButtons(name, idx))
  {
    match DecodePlayerMatch(data)
    case None => Reply(MatchNotFound)
    case Some((name, idx)) =>
      var stats := PlayerStats(ds, name);
      if stats == [] || idx < 0 || idx >= |stats| then Reply(MatchNotFound)
      else Shown(RecordPage(name, idx, stats[idx], RecordButtons(name, idx)))
  }

  /** The card's `i`-th match button opens the `i`-th record of that same player,
      whenever the name has no '_'. */
  lemma PlayerMatchView_FromCard(ds: seq<Match>, name: string, i: int)
    requires ValidMatches(ds) && '_' !in name
    requires 0 <= i < |PlayerStats(ds, name)|
    ensures PlayerMatchView(ds, MatchButtons(name, PlayerStats(ds, name))[i].data).Shown?
    ensures PlayerMatchView(ds, MatchButtons(name, PlayerStats(ds, name))[i].data).view.record == PlayerStats(ds, name)[i]
  {
    DecodePlayerMatch_Token(name, i);
  }

  /** Every graph button of a record page is read back as that player and metric,
      and every such metric is a key of the record, so the graph plots real values. */
  lemma RecordButtons_Graphs(name: string, idx: int)
    requires '_' !in name
    ensures forall j :: 0 <= j < |GraphMetrics| ==>
      DecodeGraph(RecordButtons(name, idx)[2 + j].data) == Ok((name, GraphMetrics[j].0)) &&
      GraphMetrics[j].0 in RecordKeys
  {
    forall j | 0 <= j < |GraphMetrics|
      ensures DecodeGraph(RecordButtons(name, idx)[2 + j].data) == Ok((name, GraphMetrics[j].0))
    {
      DecodeGraph_Token(name, GraphMetrics[j].0);
    }
  }

  // ---------------------------------------------------------------- playerstat_

  /** `playerstat_callback`: the card of the name after `playerstat_`. */
  function PlayerStatView(ds: seq<Match>, data: string): (r: Outcome<Card>)
    requires ValidMatches(ds)
    ensures var name := DropPrefix(data, |"playerstat_"|);
      r == RenderPlayerCard(ds, name, PlayerStats(ds, name))
  {
    var name := DropPrefix(data, |"playerstat_"|);
    RenderPlayerCard(ds, name, PlayerStats(ds, name))
  }

  /** Each button of the `/players` list opens the same card `/player <name>` gives,
      and so does the back button of a record page. */
  lemma PlayerStatView_Token(ds: seq<Match>, name: string)
    requires ValidMatches(ds)
    ensures PlayerStatView(ds, PlayerStatToken(name)) == RenderPlayerCard(ds, name, PlayerStats(ds, name))
    ensures PlayerStatView(ds, RecordButtons(name, 0)[0].data) == PlayerStatView(ds, PlayerStatToken(name))
  {
    DropPrefix_Concat("playerstat_", name);
  }

  // ---------------------------------------------------------------- show_map_

  const MapNotFound: string := "❌ Карта не найдена. Попробуйте выбрать другую из списка."

  /** One map's history: the capitalized title, the entries shown and the keyboard. */
  datatype MapPage = MapPage(title: string, entries: seq<MapEntry>, buttons: seq<Button>)

  /** `show_map_callback`: the entries `get_map_stats` returns for the name after
      `show_map_`, or the not-found text when there are none. */
  function ShowMapView(ds: seq<Match>, data: string): (r: Outcome<MapPage>)
    requires ValidMatches(ds)
    ensures !r.Crash?
    ensures r.Reply? <==> MapStats(ds, DropPrefix(data, |"show_map_"|)) == []
    ensures r.Reply? ==> r.message == MapNotFound
    ensures r.Shown? ==>
      var name := DropPrefix(data, |"show_map_"|);
      && r.view.title == Capitalize(name)
      && r.view.entries == MapStats(ds, name)
      && (forall e :: e in r.view.entries ==> e.rec.name == Capitalize(name))
      && r.view.buttons == [Button("⬅️ Назад к списку карт", BackMaps),
                            Button(ExportLabel, ExportTableToken(EncodeTarget(MapT(name))))]
  {
    var name := DropPrefix(data, |"show_map_"|);
    var stats := MapStats(ds, name);
    MapStats_Correct(ds, name);
    if stats == [] then Reply(MapNotFound)
    else Shown(MapPage(Capitalize(name), stats,
                       [Button("⬅️ Назад к списку карт", BackMaps),
                        Button(ExportLabel, ExportTableToken(EncodeTarget(MapT(name))))]))
  }

  /** A `/maps` button opens a page exactly when the capitalized form of its stored
      name is itself a stored name; a stored name already capitalized opens its own group. */
  lemma ShowMapView_FromMaps(ds: seq<Match>, i: int)
    requires ValidMatches(ds) && 0 <= i < |Maps(ds)|
    ensures var key := Maps(ds)[i].0;
      ShowMapView(ds, CmdMaps(ds)[i].data).Shown? <==> Capitalize(key) in Keys(Maps(ds))
    ensures var key := Maps(ds)[i].0;
      Capitalize(key) == key ==> (ShowMapView(ds, CmdMaps(ds)[i].data) ==
        Shown(MapPage(key, Maps(ds)[i].1, [Button("⬅️ Назад к списку карт", BackMaps),
                                           Button(ExportLabel, ExportTableToken(EncodeTarget(MapT(key))))])))
  {
    var g := Maps(ds);
    var key := g[i].0;
    DropPrefix_Concat("show_map_", key);
    Maps_Correct(ds);
    Maps_Groups(ds);
    var c := Capitalize(key);
    if c in Keys(g) {
      var j := IndexIn(Keys(g), c);
      assert MapStats(ds, key) == g[j].1;
    }
    if c == key {
      NoDup_IndexIn(Keys(g), i);
    }
  }

  /** Every group of `get_maps()` holds at least one entry. */
  lemma Maps_Groups(ds: seq<Match>)
    requires ValidMatches(ds)
    ensures forall j :: 0 <= j < |Maps(ds)| ==> Maps(ds)[j].1 != []
  {
    var g := Maps(ds);
    var items := MapItems(ds);
    Maps_Correct(ds);
    forall j | 0 <= j < |g|
      ensures g[j].1 != []
    {
      assert Keys(g)[j] == g[j].0;
      assert g[j].0 in Distinct(Keys(items));
      Select_Present(items, g[j].0);
    }
  }

  lemma NoDup_IndexIn<T>(s: seq<T>, i: int)
    requires NoDup(s) && 0 <= i < |s|
    ensures IndexIn(s, s[i]) == i
  {
  }

  // ---------------------------------------------------------------- match_

  const MatchMissing: string := "❌ Матч не найден."

  /** A match's page: its number, the match, its opponent and the keyboard. */
  datatype MatchPage = MatchPage(k: int, m: Match, opponent: string, buttons: seq<Button>)

  /** A button per map numbered from 1, back to the tournaments, export. */
  function MatchPageButtons(k: int, maps: seq<MapRec>): (bs: seq<Button>)
    ensures |bs| == |maps| + 2
    ensures forall j :: 0 <= j < |maps| ==> bs[j] == Button(maps[j].name, MatchMapToken(k, j + 1))
    ensures bs[|maps|] == Button("⬅️ Назад к турнирам", BackTournaments)
    ensures bs[|maps| + 1] == Button(ExportLabel, ExportTableToken(EncodeTarget(MatchT(k))))
  {
    seq(|maps|, j requires 0 <= j < |maps| => Button(maps[j].name, MatchMapToken(k, j + 1)))
    + [Button("⬅️ Назад к турнирам", BackTournaments),
       Button(ExportLabel, ExportTableToken(EncodeTarget(MatchT(k))))]
  }

  /** `match_info_callback`: the second underscore-separated field read as an
      integer, with no guard against a missing or malformed field, then the match
      of that number. */
  function MatchInfoView(ds: seq<Match>, data: string): (r: Outcome<MatchPage>)
    requires ValidMatches(ds)
    ensures r.Crash? <==> DecodeMatch(data).Fail?
    ensures r.Crash? ==> r.error == DecodeMatch(data).error
    ensures r.Reply? <==> DecodeMatch(data).Ok? && !(1 <= DecodeMatch(data).value <= |ds|)
    ensures r.Reply? ==> r.message == MatchMissing
    ensures r.Shown? ==>
      var k := DecodeMatch(data).value;
      && r.view.k == k && Some(r.view.m) == MatchByIndex(ds, k)
      && HasOpponent(r.view.m) && r.view.opponent == Opponent(r.view.m)
      && r.view.buttons == MatchPageButtons(k, r.view.m.maps)
  {
    var k :- Lift(DecodeMatch(data));
    match MatchByIndex(ds, k)
    case None => Reply(MatchMissing)
    case Some(m) => Shown(MatchPage(k, m, Opponent(m), MatchPageButtons(k, m.maps)))
  }

  /** The `k`-th button of `/tournaments` opens the page of the very match it names. */
  lemma MatchInfoView_FromTournaments(ds: seq<Match>, k: int)
    requires ValidMatches(ds) && 1 <= k <= |ds|
    ensures MatchInfoView(ds, MatchToken(k)).Shown?
    ensures MatchInfoView(ds, MatchToken(k)).view.m == MatchByIndex(ds, k).value
    ensures MatchInfoView(ds, MatchToken(k)).view.opponent == Opponent(MatchByIndex(ds, k).value)
  {
    DecodeMatch_Token(k);
  }

  // ---------------------------------------------------------------- matchmap_

  /** The first line of highest Rating, the one Python's `max` keyed on Rating picks. */
  function FirstMax(ps: seq<PlayerLine>): (i: nat)
    requires ps != []
    ensures i < |ps|
    ensures forall j :: 0 <= j < |ps| ==> ps[j].rating <= ps[i].rating
    ensures forall j :: 0 <= j < i ==> ps[j].rating < ps[i].rating
  {
    if |ps| == 1 then 0
    else
      var i := FirstMax(ps[..|ps| - 1]);
      if ps[|ps| - 1].rating > ps[i].rating then |ps| - 1 else i
  }

  /** A map of a match: the map, its best player and the keyboard. */
  datatype MapOfMatch = MapOfMatch(k: int, i: int, rec: MapRec, mvp: PlayerLine, buttons: seq<Button>)

  function MapOfMatchButtons(k: int, i: int): (bs: seq<Button>)
    ensures bs == [Button("🎯 T-сторона", MatchMapSideToken(k, i, "t")),
                   Button("🛡\U{FE0F} CT-сторона", MatchMapSideToken(k, i, "ct")),
                   Button("⬅️ Назад к матчу", MatchToken(k)),
                   Button(ExportLabel, ExportTableToken(EncodeTarget(MatchMapT(k, i))))]
  {
    [Button("🎯 T-сторона", MatchMapSideToken(k, i, "t")),
     Button("🛡\U{FE0F} CT-сторона", MatchMapSideToken(k, i, "ct")),
     Button("⬅️ Назад к матчу", MatchToken(k)),
     Button(ExportLabel, ExportTableToken(EncodeTarget(MatchMapT(k, i))))]
  }

  /** The map page once the match is known: the map at position `i - 1` with
      Python's indexing (so 0 and below count from the end), and its MVP
      (ValueError on an empty table). */
  function MapOfMatchView(k: int, i: int, m: Match): (r: Outcome<MapOfMatch>)
    ensures !r.Reply?
    ensures r.Crash? <==> PyIndex(m.maps, i - 1).Fail? || PyIndex(m.maps, i - 1).value.both == []
    ensures r.Crash? ==> r.error == (if PyIndex(m.maps, i - 1).Fail? then IndexError else ValueError)
    ensures r.Shown? ==>
      && PyIndex(m.maps, i - 1) == Ok(r.view.rec)
      && r.view.mvp in r.view.rec.both
      && (forall p :: p in r.view.rec.both ==> p.rating <= r.view.mvp.rating)
      && r.view.mvp == r.view.rec.both[FirstMax(r.view.rec.both)]
      && r.view.k == k && r.view.i == i && r.view.buttons == MapOfMatchButtons(k, i)
  {
    var mp :- Lift(PyIndex(m.maps, i - 1));
    if mp.both == [] then Crash(ValueError)
    else Shown(MapOfMatch(k, i, mp, mp.both[FirstMax(mp.both)], MapOfMatchButtons(k, i)))
  }

  /** `match_map_callback`: a three-part token, the match, then the map page. */
  function MatchMapView(ds: seq<Match>, data: string): (r: Outcome<MapOfMatch>)
    requires ValidMatches(ds)
    ensures DecodeMatchMap(data).Fail? ==> r == Crash(DecodeMatchMap(data).error)
    ensures r.Reply? <==> DecodeMatchMap(data).Ok? && MatchByIndex(ds, DecodeMatchMap(data).value.0).None?
    ensures r.Reply? ==> r.message == MatchMissing
    ensures DecodeMatchMap(data).Ok? && MatchByIndex(ds, DecodeMatchMap(data).value.0).Some? ==>
      r == MapOfMatchView(DecodeMatchMap(data).value.0, DecodeMatchMap(data).value.1,
                          MatchByIndex(ds, DecodeMatchMap(data).value.0).value)
  {
    var (k, i) :- Lift(DecodeMatchMap(data));
    match MatchByIndex(ds, k)
    case None => Reply(MatchMissing)
    case Some(m) => MapOfMatchView(k, i, m)
  }

  /** The `j`-th map button of a match page opens map `j` of that match. */
  lemma MatchMapView_FromMatch(ds: seq<Match>, k: int, j: int)
    requires ValidMatches(ds) && 1 <= k <= |ds|
    requires 0 <= j < |MatchByIndex(ds, k).value.maps|
    ensures var m := MatchByIndex(ds, k).value;
      MatchMapView(ds, MatchPageButtons(k, m.maps)[j].data) == MapOfMatchView(k, j + 1, m)
    ensures var mp := MatchByIndex(ds, k).value.maps[j];
      mp.both != [] ==> (MatchMapView(ds, MatchPageButtons(k, MatchByIndex(ds, k).value.maps)[j].data).Shown? &&
        MatchMapView(ds, MatchPageButtons(k, MatchByIndex(ds, k).value.maps)[j].data).view.rec == mp)
  {
    DecodeMatchMap_Token(k, j + 1);
  }

  /** Map number 0 is not refused: Python's `maps[-1]` shows the match's last map. */
  lemma MatchMapView_ZeroIsLast(ds: seq<Match>, k: int)
    requires ValidMatches(ds) && 1 <= k <= |ds|
    requires MatchByIndex(ds, k).value.maps != []
    ensures var maps := MatchByIndex(ds, k).value.maps;
      maps[|maps| - 1].both != [] ==>
        MatchMapView(ds, MatchMapToken(k, 0)).Shown? &&
        MatchMapView(ds, MatchMapToken(k, 0)).view.rec == maps[|maps| - 1]
  {
    DecodeMatchMap_Token(k, 0);
  }

  // ---------------------------------------------------------------- matchmap_side_

  const SideNoData: string := "Нет данных для экспорта."

  /** A map's lines for one side: KeyError for any side but `t`, `ct` and `both`. */
  function SideLines(mp: MapRec, side: string): (r: Result<seq<PlayerLine>>)
    ensures r.Ok? <==> side == "t" || side == "ct" || side == "both"
    ensures r.Fail? ==> r.error == KeyError
    ensures side == "t" ==> r == Ok(mp.t)
    ensures side == "ct" ==> r == Ok(mp.ct)
    ensures side == "both" ==> r == Ok(mp.both)
  {
    if side == "t" then Ok(mp.t)
    else if side == "ct" then Ok(mp.ct)
    else if side == "both" then Ok(mp.both)
    else Fail(KeyError)
  }

  /** One side of one map: the side's name, the map, the lines and the keyboard. */
  datatype SidePage = SidePage(sideName: string, rec: MapRec, lines: seq<PlayerLine>, buttons: seq<Button>)

  /** The side page once the match is known: the guard only refuses map numbers
      past the last map, so 0 and negative numbers reach Python's negative indexing. */
  function SideOfMatchView(k: int, i: int, side: string, m: Match): (r: Outcome<SidePage>)
    ensures r.Reply? <==> i > |m.maps|
    ensures r.Reply? ==> r.message == SideNoData
    ensures r.Crash? <==> i <= |m.maps| && (PyIndex(m.maps, i - 1).Fail? || !(side == "t" || side == "ct" || side == "both"))
    ensures r.Shown? ==>
      && PyIndex(m.maps, i - 1) == Ok(r.view.rec)
      && SideLines(r.view.rec, side) == Ok(r.view.lines)
      && r.view.sideName == (if side == "t" then "Terrorist" else "Counter-Terrorist")
      && r.view.buttons == [Button("⬅️ Назад к карте", MatchMapToken(k, i)),
                            Button(ExportLabel, ExportTableToken(EncodeTarget(MatchMapSideT(k, i, side))))]
  {
    if i > |m.maps| then Reply(SideNoData)
    else
      var mp :- Lift(PyIndex(m.maps, i - 1));
      var lines :- Lift(SideLines(mp, side));
      Shown(SidePage(if side == "t" then "Terrorist" else "Counter-Terrorist", mp, lines,
                     [Button("⬅️ Назад к карте", MatchMapToken(k, i)),
                      Button(ExportLabel, ExportTableToken(EncodeTarget(MatchMapSideT(k, i, side))))]))
  }

  /** `match_map_side_callback`: a five-part token, the match, then the side page. */
  function MatchMapSideView(ds: seq<Match>, data: string): (r: Outcome<SidePage>)
    requires ValidMatches(ds)
    ensures DecodeMatchMapSide(data).Fail? ==> r == Crash(DecodeMatchMapSide(data).error)
    ensures DecodeMatchMapSide(data).Ok? && MatchByIndex(ds, DecodeMatchMapSide(data).value.0).None? ==>
      r == Reply(SideNoData)
    ensures DecodeMatchMapSide(data).Ok? && MatchByIndex(ds, DecodeMatchMapSide(data).value.0).Some? ==>
      var (k, i, side) := DecodeMatchMapSide(data).value;
      r == SideOfMatchView(k, i, side, MatchByIndex(ds, k).value)
  {
    var (k, i, side) :- Lift(DecodeMatchMapSide(data));
    match MatchByIndex(ds, k)
    case None => Reply(SideNoData)
    case Some(m) => SideOfMatchView(k, i, side, m)
  }

  /** The two side buttons of a map page open the T table and the CT table of that
      same map, and the side page's back button returns to the map page. */
  lemma MatchMapSideView_FromMap(ds: seq<Match>, k: int, i: int)
    requires ValidMatches(ds) && 1 <= k <= |ds|
    requires 1 <= i <= |MatchByIndex(ds, k).value.maps|
    ensures var mp := MatchByIndex(ds, k).value.maps[i - 1];
      MatchMapSideView(ds, MapOfMatchButtons(k, i)[0].data).Shown? &&
      MatchMapSideView(ds, MapOfMatchButtons(k, i)[0].data).view.lines == mp.t &&
      MatchMapSideView(ds, MapOfMatchButtons(k, i)[0].data).view.sideName == "Terrorist"
    ensures var mp := MatchByIndex(ds, k).value.maps[i - 1];
      MatchMapSideView(ds, MapOfMatchButtons(k, i)[1].data).Shown? &&
      MatchMapSideView(ds, MapOfMatchButtons(k, i)[1].data).view.lines == mp.ct &&
      MatchMapSideView(ds, MapOfMatchButtons(k, i)[1].data).view.sideName == "Counter-Terrorist"
    ensures MatchMapSideView(ds, MapOfMatchButtons(k, i)[0].data).view.buttons[0].data == MatchMapToken(k, i)
  {
    DecodeMatchMapSide_Token(k, i, "t");
    DecodeMatchMapSide_Token(k, i, "ct");
  }

  /** The side name tests only for `t`: the `both` table is titled Counter-Terrorist. */
  lemma SideOfMatchView_BothIsCT(k: int, m: Match)
    requires m.maps != []
    ensures SideOfMatchView(k, 1, "both", m).Shown?
    ensures SideOfMatchView(k, 1, "both", m).view.sideName == "Counter-Terrorist"
    ensures SideOfMatchView(k, 1, "both", m).view.lines == m.maps[0].both
  {
  }

  // ---------------------------------------------------------------- players_chart_

  /** A bar chart: the axis label, the bar names and their heights, left to right. */
  datatype Chart = Chart(axis: string, names: seq<string>, values: seq<real>)

  const UnknownMetric: string := "Неизвестная метрика."

  /** The axis label of a chart metric; None for any other text. */
  function ChartLabel(metric: string): (l: Option<string>)
    ensures l.Some? <==> metric in Keys(ChartMetrics)
  {
    assert Keys(ChartMetrics) == ["rating", "adr", "kast", "kd", "hs", "opkd"];
    if metric == "rating" then Some("Рейтинг")
    else if metric == "adr" then Some("ADR")
    else if metric == "kast" then Some("KAST (%)")
    else if metric == "kd" then Some("K/D")
    else if metric == "hs" then Some("HS%")
    else if metric == "opkd" then Some("OpK-D")
    else None
  }

  /** The height of one bar: the stored, rounded average, and for `kd` the ratio
      K/D, 0 when the rounded average D is 0. */
  function ChartValue(metric: string, f: Figures): real {
    if metric == "rating" then f.rating
    else if metric == "adr" then f.adr
    else if metric == "kast" then f.kast
    else if metric == "kd" then (if f.d != 0.0 then f.k / f.d else 0.0)
    else if metric == "hs" then f.hs
    else f.opkd
  }

  /** `players_chart_build`: the players in the order of the `/players` ranking,
      each with the chosen figure of its averages. */
  function PlayersChartBuild(ds: seq<Match>, data: string): (r: Outcome<Chart>)
    ensures !r.Crash?
    ensures r.Reply? <==> DropPrefix(data, |"players_chart_"|) !in Keys(ChartMetrics)
    ensures r.Reply? ==> r.message == UnknownMetric
    ensures r.Shown? ==>
      var metric := DropPrefix(data, |"players_chart_"|);
      var ranking := CmdPlayers(ds).ranking;
      && Some(r.view.axis) == ChartLabel(metric)
      && |r.view.names| == |ranking| == |r.view.values|
      && forall i :: 0 <= i < |ranking| ==>
           r.view.names[i] == ranking[i].0 && r.view.values[i] == ChartValue(metric, ranking[i].1)
  {
    var metric := DropPrefix(data, |"players_chart_"|);
    var ranking := RankedPlayers(ds);
    match ChartLabel(metric)
    case None => Reply(UnknownMetric)
    case Some(axis) =>
      Shown(Chart(axis, seq(|ranking|, i requires 0 <= i < |ranking| => ranking[i].0),
                  seq(|ranking|, i requires 0 <= i < |ranking| => ChartValue(metric, ranking[i].1))))
  }

  /** Every metric button of the chart keyboard builds a chart, and the chart's
      bars are the `/players` ranking in order. */
  lemma PlayersChartBuild_FromKeyboard(ds: seq<Match>, j: int)
    requires 0 <= j < |ChartMetrics|
    ensures PlayersChartBuild(ds, PlayersChartKeyboard()[j].data).Shown?
    ensures PlayersChartBuild(ds, PlayersChartKeyboard()[j].data).view.names == Keys(CmdPlayers(ds).ranking)
  {
    DropPrefix_Concat("players_chart_", ChartMetrics[j].0);
    assert ChartMetrics[j].0 == Keys(ChartMetrics)[j];
  }

  // ---------------------------------------------------------------- progress_chart

  const NoChartData: string := "Нет данных для построения графика."

  /** `progress_chart_callback`: one bar per `/progress` row, its height the last
      Rating minus the first. */
  function ProgressChartView(ds: seq<Match>): (r: Outcome<seq<(string, real)>>)
    requires ValidMatches(ds)
    ensures !r.Crash?
    ensures r.Reply? <==> CmdProgress(ds).0 == []
    ensures r.Reply? ==> r.message == NoChartData
    ensures r.Shown? ==>
      var rows := CmdProgress(ds).0;
      && |r.view| == |rows|
      && forall i :: 0 <= i < |rows| ==>
           r.view[i].0 == rows[i].player && r.view[i].1 == rows[i].last - rows[i].first
    ensures r.Shown? ==> forall i, j :: 0 <= i < j < |r.view| ==>
      IndexIn(Players(ds), r.view[i].0) < IndexIn(Players(ds), r.view[j].0)
  {
    var rows := CmdProgress(ds).0;
    if rows == [] then Reply(NoChartData)
    else Shown(seq(|rows|, i requires 0 <= i < |rows| => (rows[i].player, rows[i].last - rows[i].first)))
  }

  /** A bar rises exactly where `/progress` shows the up arrow and falls exactly
      where it shows the down arrow. */
  lemma ProgressChartView_Arrows(ds: seq<Match>, i: int)
    requires ValidMatches(ds) && ProgressChartView(ds).Shown?
    requires 0 <= i < |ProgressChartView(ds).view|
    ensures ProgressChartView(ds).view[i].1 > 0.0 <==> CmdProgress(ds).0[i].arrow == Up
    ensures ProgressChartView(ds).view[i].1 < 0.0 <==> CmdProgress(ds).0[i].arrow == Down
    ensures ProgressChartView(ds).view[i].1 == 0.0 <==> CmdProgress(ds).0[i].arrow == Level
  {
    var row := CmdProgress(ds).0[i];
    assert RowOf(ds, row);
  }

  // ---------------------------------------------------------------- graph_

  /** `graph_callback`: a three-part token (ValueError otherwise), then the graph. */
  function GraphView(ds: seq<Match>, data: string): (r: Outcome<Plot>)
    requires ValidMatches(ds)
    ensures DecodeGraph(data).Fail? ==> r == Crash(ValueError)
    ensures DecodeGraph(data).Ok? ==> r == GraphOf(ds, DecodeGraph(data).value.0, DecodeGraph(data).value.1)
  {
    var (name, metric) :- Lift(DecodeGraph(data));
    GraphOf(ds, name, metric)
  }

  /** A graph button draws the same graph as typing `/graph <name> <metric>`,
      for a name without '_' and a name and metric without whitespace. */
  lemma GraphView_AgreesCommand(ds: seq<Match>, name: string, metric: string)
    requires ValidMatches(ds)
    requires '_' !in name && name != [] && NoSpace(name) && metric != [] && NoSpace(metric)
    ensures GraphView(ds, GraphToken(name, metric)) == CmdGraph(ds, "/graph " + name + " " + metric)
  {
    DecodeGraph_Token(name, metric);
    GraphCommand_Words(name, metric);
  }

  /** `/graph <name> <metric>` splits into exactly those three words. */
  lemma GraphCommand_Words(name: string, metric: string)
    requires name != [] && NoSpace(name) && metric != [] && NoSpace(metric)
    ensures Words("/graph " + name + " " + metric) == ["/graph", name, metric]
  {
    Words_Single(metric);
    Words_Cons(name, metric);
    assert "/graph " + name + " " + metric == "/graph" + " " + (name + " " + metric);
    Words_Cons("/graph", name + " " + metric);
  }

  // ---------------------------------------------------------------- export_table_

  /** `export_table_choose_format`: the format menu for the text after `export_table_`. */
  function ExportChooseFormat(data: string): (kb: seq<Button>)
    ensures kb == ExportFormatKeyboard(DropPrefix(data, |"export_table_"|))
  {
    ExportFormatKeyboard(DropPrefix(data, |"export_table_"|))
  }

  /** The rows of an exported table, by what they list. */
  datatype Rows =
    | AverageRows(averages: seq<(string, Figures)>)
    | CountRows(counts: seq<(string, nat)>)
    | RecordRows(records: seq<StatRecord>)
    | LineRows(lines: seq<PlayerLine>)
    | EntryRows(entries: seq<MapEntry>)

  /** A table to export: the file name without extension, and its rows. */
  datatype Table = Table(filename: string, rows: Rows)

  const NoExportData: string := "Нет данных для экспорта."
  const NoData: string := "Данные не найдены."

  /** `maps_list`: each stored map name with the length of `get_map_stats` of it. */
  function MapCounts(ds: seq<Match>): (cs: seq<(string, nat)>)
    requires ValidMatches(ds)
    ensures |cs| == |Maps(ds)|
    ensures forall i :: 0 <= i < |cs| ==> cs[i] == (Maps(ds)[i].0, |MapStats(ds, Maps(ds)[i].0)|)
  {
    var g := Maps(ds);
    seq(|g|, i requires 0 <= i < |g| => (g[i].0, |MapStats(ds, g[i].0)|))
  }

  /** The count listed for a stored name: a name already in capitalized form counts
      its own group, which is never empty; a name whose capitalized form is not
      stored counts 0, since only the capitalized name is looked up. */
  lemma MapCounts_Groups(ds: seq<Match>, i: int)
    requires ValidMatches(ds) && 0 <= i < |Maps(ds)|
    ensures Capitalize(Maps(ds)[i].0) == Maps(ds)[i].0 ==>
      MapCounts(ds)[i].1 == |Maps(ds)[i].1| > 0
    ensures Capitalize(Maps(ds)[i].0) !in Keys(Maps(ds)) ==> MapCounts(ds)[i].1 == 0
  {
    var g := Maps(ds);
    var key := g[i].0;
    Maps_Correct(ds);
    Maps_Groups(ds);
    if Capitalize(key) == key {
      NoDup_IndexIn(Keys(g), i);
      assert MapStats(ds, key) == g[i].1;
    }
  }

  /** `tournaments_list`: each tournament with its number of matches. */
  function TournamentCounts(ds: seq<Match>): (cs: seq<(string, nat)>)
    ensures |cs| == |Tournaments(ds)|
    ensures forall i :: 0 <= i < |cs| ==> cs[i] == (Tournaments(ds)[i].0, |Tournaments(ds)[i].1|)
  {
    var g := Tournaments(ds);
    seq(|g|, i requires 0 <= i < |g| => (g[i].0, |g[i].1|))
  }

  function CountSum(cs: seq<(string, nat)>): nat {
    if cs == [] then 0 else cs[0].1 + CountSum(cs[1..])
  }

  /** The tournament counts add up to the number of matches. */
  lemma TournamentCounts_Total(ds: seq<Match>)
    ensures CountSum(TournamentCounts(ds)) == |ds|
  {
    CountSum_Groups(Tournaments(ds));
    assert Concat(Tournaments(ds)) == MatchList(ds);
  }

  lemma {:induction false} CountSum_Groups<V>(g: seq<(string, seq<V>)>)
    ensures CountSum(seq(|g|, i requires 0 <= i < |g| => (g[i].0, |g[i].1|))) == |Concat(g)|
  {
    if g != [] {
      var cs := seq(|g|, i requires 0 <= i < |g| => (g[i].0, |g[i].1|));
      var g' := g[1..];
      assert cs[1..] == seq(|g'|, i requires 0 <= i < |g'| => (g'[i].0, |g'[i].1|));
      CountSum_Groups(g');
    }
  }

  /** One map of a found match for export: map numbers past the last map are
      refused, the others index position `i - 1` with Python's indexing. */
  function ExportMap(m: Match, i: int): (r: Outcome<MapRec>)
    ensures !r.Crash? <==> i > |m.maps| || PyIndex(m.maps, i - 1).Ok?
    ensures r.Crash? ==> r.error == IndexError
    ensures r.Reply? <==> i > |m.maps|
    ensures r.Reply? ==> r.message == NoData
    ensures r.Shown? ==> PyIndex(m.maps, i - 1) == Ok(r.view)
  {
    if i > |m.maps| then Reply(NoData) else Lift(PyIndex(m.maps, i - 1))
  }

  /** The branch of `export_table_send` for one target: the data it looks up, the
      file name it builds, and the replies that stop it. */
  function ExportTable(ds: seq<Match>, t: Target): (r: Outcome<Table>)
    requires ValidMatches(ds)
    ensures r.Crash? ==> r.error in {IndexError, KeyError}
  {
    match t
    case AllPlayers =>
      var avg := PlayerAverages(ds);
      if avg == [] then Reply(NoExportData) else Shown(Table("players_average_stats", AverageRows(avg)))
    case AllMaps => Shown(Table("maps_list", CountRows(MapCounts(ds))))
    case PlayerMatchT(name, idx) =>
      var stats := PlayerStats(ds, name);
      if stats == [] || idx < 0 || idx >= |stats| then Reply(NoExportData)
      else Shown(Table("player_" + name + "_match_" + IntToString(idx) + "_stats", RecordRows([stats[idx]])))
    case MatchT(k) =>
      (match MatchByIndex(ds, k)
       case None => Reply(MatchNotFound)
       case Some(m) => Shown(Table("match_" + IntToString(k) + "_stats", LineRows(m.overall))))
    case MatchMapSideT(k, i, side) =>
      (match MatchByIndex(ds, k)
       case None => Reply(NoData)
       case Some(m) =>
         var mp :- ExportMap(m, i);
         var lines :- Lift(SideLines(mp, side));
         var sideName := if side == "t" then "T" else "CT";
         Shown(Table("match_" + IntToString(k) + "_map_" + mp.name + "_" + sideName + "_stats", LineRows(lines))))
    case MatchMapT(k, i) =>
      (match MatchByIndex(ds, k)
       case None => Reply(NoData)
       case Some(m) =>
         var mp :- ExportMap(m, i);
         Shown(Table("match_" + IntToString(k) + "_map_" + mp.name + "_stats", LineRows(mp.both))))
    case PlayerT(name) =>
      var stats := PlayerStats(ds, name);
      if stats == [] then Reply(NoExportData)
      else Shown(Table("player_" + name + "_all_matches_stats", RecordRows(stats)))
    case MapT(name) =>
      var entries := MapStats(ds, name);
      if entries == [] then Reply(NoExportData)
      else Shown(Table("map_" + name + "_stats", EntryRows(entries)))
    case AllTournaments => Shown(Table("tournaments_list", CountRows(TournamentCounts(ds))))
  }

  /** The export of a record page holds exactly the record that page shows, and
      exists exactly when the page does. */
  lemma ExportTable_RecordPage(ds: seq<Match>, name: string, idx: int)
    requires ValidMatches(ds) && '_' !in name
    ensures ExportTable(ds, PlayerMatchT(name, idx)).Shown? <==> PlayerMatchView(ds, PlayerMatchToken(name, idx)).Shown?
    ensures ExportTable(ds, PlayerMatchT(name, idx)).Shown? ==>
      ExportTable(ds, PlayerMatchT(name, idx)).view.rows == RecordRows([PlayerMatchView(ds, PlayerMatchToken(name, idx)).view.record])
  {
    DecodePlayerMatch_Token(name, idx);
  }

  /** The export of a card holds every record of the player, and exists exactly
      when the card is shown or crashes. */
  lemma ExportTable_Card(ds: seq<Match>, name: string)
    requires ValidMatches(ds)
    ensures ExportTable(ds, PlayerT(name)).Reply? <==> RenderPlayerCard(ds, name, PlayerStats(ds, name)).Reply?
    ensures ExportTable(ds, PlayerT(name)).Shown? ==>
      ExportTable(ds, PlayerT(name)).view.rows == RecordRows(PlayerStats(ds, name))
  {
    var stats := PlayerStats(ds, name);
    assert ExportTable(ds, PlayerT(name)) ==
      if stats == [] then Reply(NoExportData)
      else Shown(Table("player_" + name + "_all_matches_stats", RecordRows(stats)));
  }

  /** The export of a map page lists the same entries the page shows, and exists
      exactly when the page does. */
  lemma ExportTable_MapPage(ds: seq<Match>, name: string)
    requires ValidMatches(ds)
    ensures ExportTable(ds, MapT(name)).Shown? <==> ShowMapView(ds, ShowMapToken(name)).Shown?
    ensures ExportTable(ds, MapT(name)).Shown? ==>
      ExportTable(ds, MapT(name)).view.rows == EntryRows(ShowMapView(ds, ShowMapToken(name)).view.entries)
  {
    DropPrefix_Concat("show_map_", name);
  }

  /** The export of a side page lists the same lines the page shows. */
  lemma ExportTable_SidePage(ds: seq<Match>, k: int, i: int, side: string)
    requires ValidMatches(ds) && 1 <= k <= |ds|
    requires SideOfMatchView(k, i, side, MatchByIndex(ds, k).value).Shown?
    ensures ExportTable(ds, MatchMapSideT(k, i, side)).Shown?
    ensures ExportTable(ds, MatchMapSideT(k, i, side)).view.rows ==
      LineRows(SideOfMatchView(k, i, side, MatchByIndex(ds, k).value).view.lines)
  {
  }

  /** The export of a match lists the match's overall lines, for every match number
      `/tournaments` shows. */
  lemma ExportTable_Match(ds: seq<Match>, k: int)
    requires ValidMatches(ds)
    ensures ExportTable(ds, MatchT(k)).Shown? <==> 1 <= k <= |ds|
    ensures ExportTable(ds, MatchT(k)).Shown? ==>
      ExportTable(ds, MatchT(k)).view.rows == LineRows(MatchByIndex(ds, k).value.overall)
  {
  }

  // ---------------------------------------------------------------- export_tablefmt_

  /** The formats `export_data` writes; any other raises its ValueError. */
  predicate ExportAccepts(fmt: string) {
    fmt == "csv" || fmt == "json" || fmt == "xlsx" || fmt == "pdf"
  }

  /** A file sent: its name with extension, its format and its table. */
  datatype ExportFile = ExportFile(filename: string, format: string, table: Table)

  const CallbackFormatError: string := "Ошибка формата callback."
  const ExportNotImplemented: string := "Экспорт для этого типа данных не реализован."
  const ExportFailed: string := "❌ Ошибка при экспорте: "
  const UnknownFormat: string := "Неизвестный формат экспорта"

  /** The tail of `export_table_send` once the table is known: the table's own reply
      or crash first, then, inside the `try`, the writer. `fault` is the message of
      the exception the writer of an accepted format raises in this environment
      (for instance the PDF writer without its font file), `None` when it succeeds.
      Every exception of the writer is answered with the export error reply. */
  function Deliver(table: Outcome<Table>, fmt: string, fault: Option<string>): (r: Outcome<ExportFile>)
    ensures !table.Shown? ==> r == table.PropagateFailure()
    ensures table.Shown? && !ExportAccepts(fmt) ==> r == Reply(ExportFailed + UnknownFormat)
    ensures table.Shown? && ExportAccepts(fmt) && fault.Some? ==> r == Reply(ExportFailed + fault.value)
    ensures table.Shown? && ExportAccepts(fmt) && fault.None? ==>
      r.Shown? && r.view.table == table.view && r.view.format == fmt && r.view.filename == table.view.filename + "." + fmt
    ensures !r.Crash? || table.Crash?
  {
    var tb :- table;
    if !ExportAccepts(fmt) then Reply(ExportFailed + UnknownFormat)
    else if fault.Some? then Reply(ExportFailed + fault.value)
    else Shown(ExportFile(tb.filename + "." + fmt, fmt, tb))
  }

  /** `export_table_send`; `fault` is the writer's outcome, as for `Deliver`. */
  function ExportSend(ds: seq<Match>, data: string, fault: Option<string>): (r: Outcome<ExportFile>)
    requires ValidMatches(ds)
    ensures DecodeExportFormat(data).None? ==> r == Reply(CallbackFormatError)
    ensures DecodeExportFormat(data).Some? && DecodeTarget(DecodeExportFormat(data).value.0).Fail? ==>
      r == Crash(DecodeTarget(DecodeExportFormat(data).value.0).error)
    ensures DecodeExportFormat(data).Some? && DecodeTarget(DecodeExportFormat(data).value.0) == Ok(None) ==>
      r == Reply(ExportNotImplemented)
    ensures DecodeExportFormat(data).Some? && DecodeTarget(DecodeExportFormat(data).value.0).Ok? &&
            DecodeTarget(DecodeExportFormat(data).value.0).value.Some? ==>
      r == Deliver(ExportTable(ds, DecodeTarget(DecodeExportFormat(data).value.0).value.value),
                   DecodeExportFormat(data).value.1, fault)
  {
    match DecodeExportFormat(data)
    case None => Reply(CallbackFormatError)
    case Some((cb, fmt)) =>
      var target :- Lift(DecodeTarget(cb));
      match target
      case None => Reply(ExportNotImplemented)
      case Some(t) => Deliver(ExportTable(ds, t), fmt, fault)
  }

  /** From any view's export button, each format of the menu is one the writers
      accept: it exports exactly that view's table in that format unless the
      writer itself fails, and then it replies with the writer's message. */
  lemma ExportSend_FromMenu(ds: seq<Match>, t: Target, j: int, fault: Option<string>)
    requires ValidMatches(ds) && WellFormed(t)
    requires 0 <= j < |ExportFormats|
    ensures ExportAccepts(ExportFormats[j].0)
    ensures ExportSend(ds, ExportChooseFormat(ExportTableToken(EncodeTarget(t)))[j].data, fault) ==
      Deliver(ExportTable(ds, t), ExportFormats[j].0, fault)
  {
    var cb := EncodeTarget(t);
    var fmt := ExportFormats[j].0;
    ExportFormats_Accepted(j);
    DropPrefix_Concat("export_table_", cb);
    var data := ExportChooseFormat(ExportTableToken(cb))[j].data;
    assert data == ExportFormatKeyboard(cb)[j].data;
    ExportFormatKeyboard_RoundTrip(cb);
    assert DecodeExportFormat(data) == Some((cb, fmt));
    DecodeTarget_Encode(t);
    ExportSend_Target(ds, data, cb, fmt, t, fault);
  }

  lemma ExportFormats_Accepted(j: int)
    requires 0 <= j < |ExportFormats|
    ensures ExportAccepts(ExportFormats[j].0)
  {
  }

  lemma ExportSend_Target(ds: seq<Match>, data: string, cb: string, fmt: string, t: Target, fault: Option<string>)
    requires ValidMatches(ds)
    requires DecodeExportFormat(data) == Some((cb, fmt)) && DecodeTarget(cb) == Ok(Some(t))
    ensures ExportSend(ds, data, fault) == Deliver(ExportTable(ds, t), fmt, fault)
  {
  }

  // ---------------------------------------------------------------- export_cancel

  /** `export_cancel_callback`: where the cancel button goes back to. */
  function ExportCancel(data: string): (r: Result<CancelAction>)
    ensures !StartsWith(data, "export_cancel_") ==> r == Ok(ToStart)
  {
    DecodeCancel(DecodeExportCancel(data))
  }

  /** The cancel button of the format menu returns to the view that offered the export. */
  lemma ExportCancel_FromMenu(t: Target)
    requires t.PlayerMatchT? ==> '_' !in t.name
    requires t.MatchMapSideT? ==> '_' !in t.side
    requires t.PlayerT? ==> !StartsWith(t.name, "match_")
    ensures ExportCancel(ExportChooseFormat(ExportTableToken(EncodeTarget(t)))[|ExportFormats|].data) == Ok(CancelOf(t))
  {
    var cb := EncodeTarget(t);
    DropPrefix_Concat("export_table_", cb);
    ExportFormatKeyboard_RoundTrip(cb);
    DecodeCancel_Encode(t);
  }
}

=== FILE: dataset.dfy ===
/** The statistics repository: queries over the immutable list of matches
    (`match_info`) loaded once at start-up. Every query is recomputed from the
    raw list; nothing is cached. */
module Dataset {
  import opened Outcomes
  import opened Text
  import opened Numbers
  import opened Groups

  /** A stat cell as stored in the JSON: a number, a string (KAST and HS are
      often stored as "73.2%"), or some other JSON value. */
  datatype Value = Num(x: real) | Str(s: string) | Null

  /** One player's line in a match or map table. `Rating` is always numeric in the
      data (the code compares it with 0 and with other ratings); `1vsX` may be missing. */
  datatype PlayerLine = PlayerLine(
    nickname: string,
    k: Value, d: Value, adr: Value, rating: real, kast: Value, opkd: Value,
    mks: Value, clutches: Option<Value>, hs: Value, a: Value, af: Value, dt: Value)

  /** One map of a match: its player tables for both halves, the T side and the CT side. */
  datatype MapRec = MapRec(
    name: string, score: string, halves: seq<string>,
    both: seq<PlayerLine>, t: seq<PlayerLine>, ct: seq<PlayerLine>)

  /** One played match; `overall` is the player table summed over all its maps. */
  datatype Match = Match(
    tournament: string, date: string, teams: seq<string>, score: string,
    maps: seq<MapRec>, overall: seq<PlayerLine>)

  /** The fixed home team. */
  const Home: string := "BAKS"

  // ---------------------------------------------------------------- opponent

  function OtherTeams(teams: seq<string>): (r: seq<string>)
    ensures forall i :: 0 <= i < |r| ==> r[i] != Home && r[i] in teams
    ensures r == [] <==> forall i :: 0 <= i < |teams| ==> teams[i] == Home
  {
    if teams == [] then []
    else (if teams[0] != Home then [teams[0]] else []) + OtherTeams(teams[1..])
  }

  predicate HasOpponent(m: Match) {
    OtherTeams(m.teams) != []
  }

  /** Every match names a team other than the home team: the code takes the
      first such team as the opponent and would raise IndexError without one. */
  predicate ValidMatches(ds: seq<Match>) {
    forall i :: 0 <= i < |ds| ==> HasOpponent(ds[i])
  }

  /** The opponent is the first listed team that is not the home team. */
  function Opponent(m: Match): (o: string)
    requires HasOpponent(m)
    ensures o != Home && o in m.teams
    ensures forall j :: 0 <= j < IndexIn(m.teams, o) ==> m.teams[j] == Home
  {
    Opponent_First(m.teams);
    OtherTeams(m.teams)[0]
  }

  lemma {:induction false} Opponent_First(teams: seq<string>)
    requires OtherTeams(teams) != []
    ensures forall j :: 0 <= j < IndexIn(teams, OtherTeams(teams)[0]) ==> teams[j] == Home
  {
    if teams[0] == Home {
      Opponent_First(teams[1..]);
      var o := OtherTeams(teams)[0];
      assert OtherTeams(teams) == OtherTeams(teams[1..]);
      assert o != teams[0];
      assert IndexIn(teams, o) == 1 + IndexIn(teams[1..], o);
    }
  }

  // ---------------------------------------------------------------- tournaments

  function TournamentItems(ds: seq<Match>): (items: seq<(string, Match)>)
    ensures Vals(items) == ds
  {
    seq(|ds|, i requires 0 <= i < |ds| => (ds[i].tournament, ds[i]))
  }

  /** `get_tournaments()`: tournament name -> its matches, in insertion order. */
  function Tournaments(ds: seq<Match>): seq<(string, seq<Match>)> {
    GroupBy(TournamentItems(ds))
  }

  /** `get_match_list()`: the matches tournament by tournament. */
  function MatchList(ds: seq<Match>): (r: seq<Match>)
    ensures |r| == |ds|
    ensures multiset(r) == multiset(ds)
  {
    GroupBy_Partition(TournamentItems(ds));
    Concat(Tournaments(ds))
  }

  /** Each match sits in exactly one group; groups appear in the order their
      tournament first appears and keep the raw order of their matches; the
      grouped list is a permutation of the raw list. */
  lemma Tournaments_Correct(ds: seq<Match>)
    ensures Keys(Tournaments(ds)) == Distinct(Keys(TournamentItems(ds)))
    ensures forall i :: 0 <= i < |Tournaments(ds)| ==>
      Tournaments(ds)[i].1 == Select(TournamentItems(ds), Tournaments(ds)[i].0)
    ensures NoDup(Keys(Tournaments(ds)))
  {
    GroupBy_Correct(TournamentItems(ds));
    Distinct_NoDup(Keys(TournamentItems(ds)));
  }

  /** `get_match_by_index(idx)`: 1-based position in the tournament-grouped list. */
  function MatchByIndex(ds: seq<Match>, idx: int): (r: Option<Match>)
    ensures r.Some? <==> 1 <= idx <= |ds|
    ensures r.Some? ==> r.value in ds && r.value == MatchList(ds)[idx - 1]
  {
    var matches := MatchList(ds);
    if 1 <= idx <= |matches| then
      assert matches[idx - 1] in multiset(ds);
      Some(matches[idx - 1])
    else None
  }

  // ---------------------------------------------------------------- players

  /** All `overall` player lines, match after match. */
  function OverallLines(ds: seq<Match>): seq<PlayerLine> {
    if ds == [] then [] else OverallLines(ds[..|ds| - 1]) + ds[|ds| - 1].overall
  }

  function LineItems(lines: seq<PlayerLine>): (items: seq<(string, PlayerLine)>)
    ensures |items| == |lines|
    ensures forall i :: 0 <= i < |lines| ==> items[i] == (lines[i].nickname, lines[i])
    ensures Vals(items) == lines
  {
    seq(|lines|, i requires 0 <= i < |lines| => (lines[i].nickname, lines[i]))
  }

  /** The nickname column of a list of lines. */
  function Nicknames(lines: seq<PlayerLine>): (ns: seq<string>)
    ensures |ns| == |lines|
    ensures forall i :: 0 <= i < |lines| ==> ns[i] == lines[i].nickname
  {
    seq(|lines|, i requires 0 <= i < |lines| => lines[i].nickname)
  }

  /** `get_players()`: the nicknames, exact case, each once, in first-appearance order. */
  function Players(ds: seq<Match>): seq<string> {
    Distinct(Nicknames(OverallLines(ds)))
  }

  /** Every nickname of an `overall` line is listed, nothing else is, none twice,
      and in the order of first appearance. */
  lemma Players_Correct(ds: seq<Match>)
    ensures NoDup(Players(ds))
    ensures forall n :: n in Players(ds) ==> n in Nicknames(OverallLines(ds))
    ensures forall n :: n in Nicknames(OverallLines(ds)) ==> n in Players(ds)
    ensures forall i, j :: 0 <= i < j < |Players(ds)| ==>
      IndexIn(Nicknames(OverallLines(ds)), Players(ds)[i]) <
      IndexIn(Nicknames(OverallLines(ds)), Players(ds)[j])
  {
    var ns := Nicknames(OverallLines(ds));
    Distinct_NoDup(ns);
    Distinct_FirstAppearance(ns);
  }

  // ---------------------------------------------------------------- player stats

  /** Nicknames are compared case-insensitively. */
  predicate SameNick(a: string, b: string) {
    Lower(a) == Lower(b)
  }

  /** The per-match record `get_player_stats` builds. */
  datatype StatRecord = StatRecord(
    tournament: string, date: string, opponent: string,
    k: Value, d: Value, adr: Value, rating: real, kast: Value, opkd: Value,
    mks: Value, clutches: Value, hs: Value, a: Value, af: Value, dt: Value)

  /** One record: the match's tournament, date and opponent, the line's figures,
      and `1vsX` defaulting to 0 when the line has none. */
  function ToRecord(m: Match, p: PlayerLine): StatRecord
    requires HasOpponent(m)
  {
    StatRecord(m.tournament, m.date, Opponent(m), p.k, p.d, p.adr, p.rating, p.kast, p.opkd,
               p.mks, p.clutches.GetOr(Num(0.0)), p.hs, p.a, p.af, p.dt)
  }

  /** The inner loop: the records of the lines of one match that match `n`. */
  function MatchRecords(m: Match, lines: seq<PlayerLine>, n: string): seq<StatRecord>
    requires HasOpponent(m)
  {
    if lines == [] then []
    else
      var prev := MatchRecords(m, lines[..|lines| - 1], n);
      var p := lines[|lines| - 1];
      if SameNick(p.nickname, n) then prev + [ToRecord(m, p)] else prev
  }

  /** `get_player_stats(n)` */
  function PlayerStats(ds: seq<Match>, n: string): seq<StatRecord>
    requires ValidMatches(ds)
  {
    if ds == [] then []
    else
      var m := ds[|ds| - 1];
      PlayerStats(ds[..|ds| - 1], n) + MatchRecords(m, m.overall, n)
  }

  /** Every (match, line) pair of the `overall` tables, in raw order. */
  function Entries(ds: seq<Match>): seq<(Match, PlayerLine)> {
    if ds == [] then []
    else
      var m := ds[|ds| - 1];
      Entries(ds[..|ds| - 1]) + MatchEntries(m, m.overall)
  }

  /** The entries whose nickname matches `n` case-insensitively, in order. */
  function MatchingEntries(es: seq<(Match, PlayerLine)>, n: string): (r: seq<(Match, PlayerLine)>)
    ensures forall e :: e in r ==> e in es && SameNick(e.1.nickname, n)
  {
    if es == [] then []
    else
      var prev := MatchingEntries(es[..|es| - 1], n);
      var e := es[|es| - 1];
      if SameNick(e.1.nickname, n) then prev + [e] else prev
  }

  lemma {:induction false} MatchingEntries_Append(a: seq<(Match, PlayerLine)>, b: seq<(Match, PlayerLine)>, n: string)
    ensures MatchingEntries(a + b, n) == MatchingEntries(a, n) + MatchingEntries(b, n)
  {
    if b == [] {
      assert a + b == a;
    } else {
      assert (a + b)[..|a + b| - 1] == a + b[..|b| - 1];
      MatchingEntries_Append(a, b[..|b| - 1], n);
    }
  }

  /** `rs[i]` is the record built from entry `es[i]`, for every `i`. */
  ghost predicate RecordsOf(rs: seq<StatRecord>, es: seq<(Match, PlayerLine)>) {
    && |rs| == |es|
    && forall i :: 0 <= i < |es| ==> HasOpponent(es[i].0) && rs[i] == ToRecord(es[i].0, es[i].1)
  }

  lemma RecordsOf_Append(rs1: seq<StatRecord>, es1: seq<(Match, PlayerLine)>,
                         rs2: seq<StatRecord>, es2: seq<(Match, PlayerLine)>)
    requires RecordsOf(rs1, es1) && RecordsOf(rs2, es2)
    ensures RecordsOf(rs1 + rs2, es1 + es2)
  {
    forall i | 0 <= i < |es1 + es2|
      ensures HasOpponent((es1 + es2)[i].0) && (rs1 + rs2)[i] == ToRecord((es1 + es2)[i].0, (es1 + es2)[i].1)
    {
      if i >= |es1| {
        assert (es1 + es2)[i] == es2[i - |es1|];
      }
    }
  }

  function MatchEntries(m: Match, lines: seq<PlayerLine>): (es: seq<(Match, PlayerLine)>)
    ensures |es| == |lines|
    ensures forall j :: 0 <= j < |lines| ==> es[j] == (m, lines[j])
  {
    seq(|lines|, j requires 0 <= j < |lines| => (m, lines[j]))
  }

  lemma {:induction false} MatchRecords_Entries(m: Match, lines: seq<PlayerLine>, n: string)
    requires HasOpponent(m)
    ensures RecordsOf(MatchRecords(m, lines, n), MatchingEntries(MatchEntries(m, lines), n))
  {
    if lines != [] {
      var p := lines[..|lines| - 1];
      MatchRecords_Entries(m, p, n);
      var all := MatchEntries(m, lines);
      assert all[..|all| - 1] == MatchEntries(m, p);
      var q := lines[|lines| - 1];
      if SameNick(q.nickname, n) {
        RecordsOf_Append(MatchRecords(m, p, n), MatchingEntries(MatchEntries(m, p), n), [ToRecord(m, q)], [(m, q)]);
      }
    }
  }

  /** One record per `overall` line whose nickname equals `n` case-insensitively,
      in raw match order, each built from its own match and line. */
  lemma {:induction false} PlayerStats_OnePerEntry(ds: seq<Match>, n: string)
    requires ValidMatches(ds)
    ensures RecordsOf(PlayerStats(ds, n), MatchingEntries(Entries(ds), n))
  {
    if ds != [] {
      var p := ds[..|ds| - 1];
      var m := ds[|ds| - 1];
      assert ValidMatches(p);
      PlayerStats_OnePerEntry(p, n);
      assert Entries(ds) == Entries(p) + MatchEntries(m, m.overall);
      MatchingEntries_Append(Entries(p), MatchEntries(m, m.overall), n);
      MatchRecords_Entries(m, m.overall, n);
      RecordsOf_Append(PlayerStats(p, n), MatchingEntries(Entries(p), n),
                       MatchRecords(m, m.overall, n), MatchingEntries(MatchEntries(m, m.overall), n));
    }
  }

  /** An unknown name (no line matches it in any case) gives an empty list, and only then. */
  lemma PlayerStats_Empty(ds: seq<Match>, n: string)
    requires ValidMatches(ds)
    ensures PlayerStats(ds, n) == [] <==> forall e :: e in Entries(ds) ==> !SameNick(e.1.nickname, n)
  {
    PlayerStats_OnePerEntry(ds, n);
    MatchingEntries_Complete(Entries(ds), n);
  }

  lemma {:induction false} MatchingEntries_Complete(es: seq<(Match, PlayerLine)>, n: string)
    ensures MatchingEntries(es, n) == [] <==> forall e :: e in es ==> !SameNick(e.1.nickname, n)
  {
    if es != [] {
      MatchingEntries_Complete(es[..|es| - 1], n);
      assert forall e :: e in es ==> e in es[..|es| - 1] || e == es[|es| - 1] by {
        assert es == es[..|es| - 1] + [es[|es| - 1]];
      }
    }
  }

  /** The lookup ignores case: names equal up to case get the same records. */
  lemma {:induction false} PlayerStats_CaseInsensitive(ds: seq<Match>, n1: string, n2: string)
    requires ValidMatches(ds)
    requires SameNick(n1, n2)
    ensures PlayerStats(ds, n1) == PlayerStats(ds, n2)
  {
    if ds != [] {
      var m := ds[|ds| - 1];
      PlayerStats_CaseInsensitive(ds[..|ds| - 1], n1, n2);
      MatchRecords_CaseInsensitive(m, m.overall, n1, n2);
    }
  }

  lemma {:induction false} MatchRecords_CaseInsensitive(m: Match, lines: seq<PlayerLine>, n1: string, n2: string)
    requires HasOpponent(m)
    requires SameNick(n1, n2)
    ensures MatchRecords(m, lines, n1) == MatchRecords(m, lines, n2)
  {
    if lines != [] {
      MatchRecords_CaseInsensitive(m, lines[..|lines| - 1], n1, n2);
    }
  }

  // ---------------------------------------------------------------- maps

  /** `get_maps()` stores a copy of each map record tagged with its match's
      date, tournament and opponent. */
  datatype MapEntry = MapEntry(rec: MapRec, date: string, tournament: string, opponent: string)

  function EntryOf(m: Match, mp: MapRec): MapEntry
    requires HasOpponent(m)
  {
    MapEntry(mp, m.date, m.tournament, Opponent(m))
  }

  function MatchMapItems(m: Match): (items: seq<(string, MapEntry)>)
    requires HasOpponent(m)
    ensures |items| == |m.maps|
    ensures forall j :: 0 <= j < |m.maps| ==> items[j] == (m.maps[j].name, EntryOf(m, m.maps[j]))
  {
    seq(|m.maps|, j requires 0 <= j < |m.maps| => (m.maps[j].name, EntryOf(m, m.maps[j])))
  }

  /** The (name, entry) pairs of all maps, match after match, map after map. */
  function MapItems(ds: seq<Match>): seq<(string, MapEntry)>
    requires ValidMatches(ds)
  {
    if ds == [] then []
    else MapItems(ds[..|ds| - 1]) + MatchMapItems(ds[|ds| - 1])
  }

  /** The number of maps played over all matches. */
  function TotalMaps(ds: seq<Match>): nat {
    if ds == [] then 0 else TotalMaps(ds[..|ds| - 1]) + |ds[|ds| - 1].maps|
  }

  /** `get_maps()`: exact map name -> its entries, in first-seen order. */
  function Maps(ds: seq<Match>): seq<(string, seq<MapEntry>)>
    requires ValidMatches(ds)
  {
    GroupBy(MapItems(ds))
  }

  /** One entry per (match, map) pair, keyed by the map's own name and tagged by its own match. */
  lemma {:induction false} MapItems_Shape(ds: seq<Match>)
    requires ValidMatches(ds)
    ensures |MapItems(ds)| == TotalMaps(ds)
    ensures forall e :: e in MapItems(ds) ==> e.0 == e.1.rec.name
    ensures forall e :: e in MapItems(ds) ==>
      exists m, mp :: m in ds && HasOpponent(m) && mp in m.maps && e.1 == EntryOf(m, mp)
    ensures forall m, mp :: m in ds && mp in m.maps ==>
      HasOpponent(m) && (mp.name, EntryOf(m, mp)) in MapItems(ds)
  {
    if ds != [] {
      var p := ds[..|ds| - 1];
      var last := ds[|ds| - 1];
      assert ValidMatches(p);
      MapItems_Shape(p);
      assert ds == p + [last];
      var items := MapItems(ds);
      var tail := MatchMapItems(last);
      assert items == MapItems(p) + tail;
      forall e | e in items
        ensures e.0 == e.1.rec.name
        ensures exists m, mp :: m in ds && HasOpponent(m) && mp in m.maps && e.1 == EntryOf(m, mp)
      {
        if e !in MapItems(p) {
          assert e in tail;
          var j :| 0 <= j < |tail| && tail[j] == e;
          assert last.maps[j] in last.maps;
        }
      }
      forall m, mp | m in ds && mp in m.maps
        ensures HasOpponent(m) && (mp.name, EntryOf(m, mp)) in items
      {
        if m !in p {
          assert m == last;
          var j :| 0 <= j < |last.maps| && last.maps[j] == mp;
          assert tail[j] in items;
        }
      }
    }
  }

  /** Grouping by exact name keeps every entry exactly once: the group sizes sum to
      the total number of maps, and every entry of a group carries that group's name. */
  lemma Maps_Correct(ds: seq<Match>)
    requires ValidMatches(ds)
    ensures GroupsOf(Maps(ds), MapItems(ds))
    ensures NoDup(Keys(Maps(ds)))
    ensures |Concat(Maps(ds))| == TotalMaps(ds)
    ensures multiset(Concat(Maps(ds))) == multiset(Vals(MapItems(ds)))
    ensures forall i, e :: 0 <= i < |Maps(ds)| && e in Maps(ds)[i].1 ==> e.rec.name == Maps(ds)[i].0
  {
    var items := MapItems(ds);
    GroupBy_Correct(items);
    GroupBy_Partition(items);
    Distinct_NoDup(Keys(items));
    MapItems_Shape(ds);
    var g := Maps(ds);
    forall i, e | 0 <= i < |g| && e in g[i].1
      ensures e.rec.name == g[i].0
    {
      Select_Sound(items, g[i].0);
      assert (g[i].0, e) in items;
    }
  }

  /** `get_map_stats(x)`: only the key `x.capitalize()` is looked up. */
  function MapStats(ds: seq<Match>, x: string): seq<MapEntry>
    requires ValidMatches(ds)
  {
    Lookup(Maps(ds), Capitalize(x))
  }

  /** The lookup returns exactly the entries of maps named `x.capitalize()`, in
      first-seen order (so none when no map has that name); a map whose stored name
      is not in capitalized form can never be returned. */
  lemma MapStats_Correct(ds: seq<Match>, x: string)
    requires ValidMatches(ds)
    ensures MapStats(ds, x) == Select(MapItems(ds), Capitalize(x))
    ensures Capitalize(x) !in Keys(MapItems(ds)) ==> MapStats(ds, x) == []
    ensures forall e :: e in MapStats(ds, x) ==> e.rec.name == Capitalize(x)
    ensures forall e :: e in MapStats(ds, x) ==> Capitalize(e.rec.name) == e.rec.name
  {
    var items := MapItems(ds);
    GroupBy_Lookup(items, Capitalize(x));
    Select_Sound(items, Capitalize(x));
    MapItems_Shape(ds);
    if Capitalize(x) !in Keys(items) {
      Select_Absent(items, Capitalize(x));
    }
    Capitalize_Idempotent(x);
  }

  // ---------------------------------------------------------------- best map, last match

  /** The scan for the best map: the running best Rating starts at 0, and a
      candidate replaces the best only when its Rating is strictly larger. */
  function Best(rs: seq<(string, real)>): (r: Option<(string, real)>)
    ensures r.None? <==> forall x :: x in rs ==> x.1 <= 0.0
    ensures r.Some? ==> r.value in rs && r.value.1 > 0.0
    ensures r.Some? ==> forall x :: x in rs ==> x.1 <= r.value.1
    ensures r.Some? ==> exists i :: 0 <= i < |rs| && rs[i] == r.value &&
                                   forall j :: 0 <= j < i ==> rs[j].1 < r.value.1
  {
    if rs == [] then None
    else
      var p := rs[..|rs| - 1];
      var last := rs[|rs| - 1];
      assert rs == p + [last];
      var prev := Best(p);
      var bestRating := if prev.Some? then prev.value.1 else 0.0;
      if last.1 > bestRating then
        assert forall j :: 0 <= j < |p| ==> rs[j] == p[j] && p[j] in p;
        Some(last)
      else
        assert forall j :: 0 <= j < |p| ==> rs[j] == p[j];
        prev
  }

  /** (map name, Rating) of each line of a map's `both` table whose nickname matches `n`. */
  function LineRatings(name: string, lines: seq<PlayerLine>, n: string): (rs: seq<(string, real)>)
    ensures forall x :: x in rs ==> exists p :: p in lines && SameNick(p.nickname, n) && x == (name, p.rating)
    ensures forall p :: p in lines && SameNick(p.nickname, n) ==> (name, p.rating) in rs
  {
    if lines == [] then []
    else
      var p := lines[..|lines| - 1];
      var last := lines[|lines| - 1];
      assert lines == p + [last];
      LineRatings(name, p, n) + (if SameNick(last.nickname, n) then [(name, last.rating)] else [])
  }

  function MapsRatings(maps: seq<MapRec>, n: string): (rs: seq<(string, real)>)
    ensures forall x :: x in rs ==> exists mp, p :: mp in maps && p in mp.both && SameNick(p.nickname, n) && x == (mp.name, p.rating)
    ensures forall mp, p :: mp in maps && p in mp.both && SameNick(p.nickname, n) ==> (mp.name, p.rating) in rs
  {
    if maps == [] then []
    else
      var p := maps[..|maps| - 1];
      var last := maps[|maps| - 1];
      assert maps == p + [last];
      MapsRatings(p, n) + LineRatings(last.name, last.both, n)
  }

  /** The candidates of `get_best_map_for_player(n)` in match -> map -> player scan order. */
  function MapRatings(ds: seq<Match>, n: string): (rs: seq<(string, real)>)
    ensures forall x :: x in rs ==>
      exists m, mp, p :: m in ds && mp in m.maps && p in mp.both && SameNick(p.nickname, n) && x == (mp.name, p.rating)
    ensures forall m, mp, p :: m in ds && mp in m.maps && p in mp.both && SameNick(p.nickname, n) ==>
      (mp.name, p.rating) in rs
  {
    if ds == [] then []
    else
      var p := ds[..|ds| - 1];
      var last := ds[|ds| - 1];
      assert ds == p + [last];
      MapRatings(p, n) + MapsRatings(last.maps, n)
  }

  /** `get_best_map_for_player(n)` */
  function BestMapForPlayer(ds: seq<Match>, n: string): Option<(string, real)> {
    Best(MapRatings(ds, n))
  }

  /** None exactly when no matching per-map Rating exceeds 0; otherwise a (map, Rating)
      taken from a matching line, at least every matching Rating, and the first such
      maximum in scan order. */
  lemma BestMapForPlayer_Correct(ds: seq<Match>, n: string)
    ensures BestMapForPlayer(ds, n).None? <==>
      forall m, mp, p :: m in ds && mp in m.maps && p in mp.both && SameNick(p.nickname, n) ==> p.rating <= 0.0
    ensures BestMapForPlayer(ds, n).Some? ==>
      exists m, mp, p :: m in ds && mp in m.maps && p in mp.both && SameNick(p.nickname, n) &&
        BestMapForPlayer(ds, n).value == (mp.name, p.rating)
    ensures BestMapForPlayer(ds, n).Some? ==> BestMapForPlayer(ds, n).value.1 > 0.0
    ensures BestMapForPlayer(ds, n).Some? ==>
      forall m, mp, p :: m in ds && mp in m.maps && p in mp.both && SameNick(p.nickname, n) ==>
        p.rating <= BestMapForPlayer(ds, n).value.1
    ensures BestMapForPlayer(ds, n).Some? ==>
      exists i :: (0 <= i < |MapRatings(ds, n)| &&
                   MapRatings(ds, n)[i] == BestMapForPlayer(ds, n).value &&
                   forall j :: 0 <= j < i ==> MapRatings(ds, n)[j].1 < BestMapForPlayer(ds, n).value.1)
  {
    var rs := MapRatings(ds, n);
    var r := Best(rs);
    if r.None? {
      forall m, mp, p | m in ds && mp in m.maps && p in mp.both && SameNick(p.nickname, n)
        ensures p.rating <= 0.0
      {
        assert (mp.name, p.rating) in rs;
      }
    }
  }

  /** Some line of the match's `overall` table has nickname `n`, in any case. */
  predicate Plays(m: Match, n: string) {
    exists p :: p in m.overall && SameNick(p.nickname, n)
  }

  /** Position of the last match in which `n` plays, or -1. */
  function LastPlayed(ds: seq<Match>, n: string): (i: int)
    ensures -1 <= i < |ds|
    ensures i >= 0 ==> Plays(ds[i], n)
    ensures forall j :: i < j < |ds| ==> !Plays(ds[j], n)
  {
    if ds == [] then -1
    else if Plays(ds[|ds| - 1], n) then |ds| - 1
    else LastPlayed(ds[..|ds| - 1], n)
  }

  /** `get_last_match_for_player(n)`: the raw list scanned from its end. */
  function LastMatchForPlayer(ds: seq<Match>, n: string): (r: Option<Match>)
    ensures r.None? <==> forall i :: 0 <= i < |ds| ==> !Plays(ds[i], n)
    ensures r.Some? ==> 0 <= LastPlayed(ds, n) && r.value == ds[LastPlayed(ds, n)]
  {
    var i := LastPlayed(ds, n);
    if i < 0 then None else Some(ds[i])
  }

  // ---------------------------------------------------------------- averages

  /** `safe_float`: a number passes through; a string loses every '%' and ' ' and is
      parsed, 0 when that fails; any other value is 0. */
  function SafeFloat(v: Value): real {
    match v
    case Num(x) => x
    case Str(s) => ParseFloat(Remove(Remove(s, '%'), ' ')).GetOr(0.0)
    case Null => 0.0
  }

  /** A percentage string such as "73%" reads as its number. */
  lemma SafeFloat_Percent(i: int)
    ensures SafeFloat(Str(IntToString(i) + "%")) == i as real
  {
    var d := IntToString(i);
    Remove_Append(d, "%", '%');
    assert '%' !in d;
    assert Remove("%", '%') == [];
    assert Remove(d + "%", '%') == d;
    assert ' ' !in d;
    ParseFloat_IntToString(i);
  }

  /** Within the modelled decimal literals, a string without an ASCII digit reads as 0. */
  lemma SafeFloat_NoDigit(s: string)
    requires !HasDigit(s)
    ensures SafeFloat(Str(s)) == 0.0
  {
    var t := Remove(Remove(s, '%'), ' ');
    if ParseFloat(t).Some? {
      ParseFloat_HasDigit(t);
    }
  }

  /** The twelve averaged figures of a line, in the order the code sums them. */
  datatype Figures = Figures(
    k: real, d: real, adr: real, rating: real, kast: real, opkd: real,
    mks: real, clutches: real, hs: real, a: real, af: real, dt: real)

  const Zero: Figures := Figures(0.0, 0.0, 0.0, 0.0, 0.0, 0.0, 0.0, 0.0, 0.0, 0.0, 0.0, 0.0)

  function Plus(x: Figures, y: Figures): Figures {
    Figures(x.k + y.k, x.d + y.d, x.adr + y.adr, x.rating + y.rating, x.kast + y.kast, x.opkd + y.opkd,
            x.mks + y.mks, x.clutches + y.clutches, x.hs + y.hs, x.a + y.a, x.af + y.af, x.dt + y.dt)
  }

  function Over(x: Figures, c: nat): Figures
    requires c > 0
  {
    var r := c as real;
    Figures(x.k / r, x.d / r, x.adr / r, x.rating / r, x.kast / r, x.opkd / r,
            x.mks / r, x.clutches / r, x.hs / r, x.a / r, x.af / r, x.dt / r)
  }

  /** Every figure rounded to two decimals, as the averages are stored. */
  function RoundFigures(x: Figures): (y: Figures)
    ensures IsCents(y.k) && IsCents(y.d) && IsCents(y.adr) && IsCents(y.rating) && IsCents(y.kast)
    ensures IsCents(y.opkd) && IsCents(y.mks) && IsCents(y.clutches) && IsCents(y.hs)
    ensures IsCents(y.a) && IsCents(y.af) && IsCents(y.dt)
  {
    Figures(Round2(x.k), Round2(x.d), Round2(x.adr), Round2(x.rating), Round2(x.kast), Round2(x.opkd),
            Round2(x.mks), Round2(x.clutches), Round2(x.hs), Round2(x.a), Round2(x.af), Round2(x.dt))
  }

  /** Each figure of a line through `safe_float`; a missing `1vsX` counts as 0. */
  function LineFigures(p: PlayerLine): Figures {
    Figures(SafeFloat(p.k), SafeFloat(p.d), SafeFloat(p.adr), SafeFloat(Num(p.rating)), SafeFloat(p.kast),
            SafeFloat(p.opkd), SafeFloat(p.mks), SafeFloat(p.clutches.GetOr(Num(0.0))), SafeFloat(p.hs),
            SafeFloat(p.a), SafeFloat(p.af), SafeFloat(p.dt))
  }

  /** The reference meaning: field-wise sum and mean over a list of lines. */
  function Sum(lines: seq<PlayerLine>): Figures {
    if lines == [] then Zero else Plus(Sum(lines[..|lines| - 1]), LineFigures(lines[|lines| - 1]))
  }

  function Mean(lines: seq<PlayerLine>): Figures
    requires lines != []
  {
    Over(Sum(lines), |lines|)
  }

  /** One pass of the first loop of `get_player_averages`: open a zero total for a
      new nickname, then add the line's figures and count it. */
  function TallyStep(acc: seq<(string, (Figures, nat))>, p: PlayerLine): seq<(string, (Figures, nat))> {
    var i := IndexIn(Keys(acc), p.nickname);
    if i < |acc| then acc[i := (p.nickname, (Plus(acc[i].1.0, LineFigures(p)), acc[i].1.1 + 1))]
    else acc + [(p.nickname, (Plus(Zero, LineFigures(p)), 1))]
  }

  /** The whole loop: per nickname (exact case), the figure totals and the
      appearance count, nicknames in first-appearance order. */
  function Tally(lines: seq<PlayerLine>): seq<(string, (Figures, nat))> {
    if lines == [] then []
    else TallyStep(Tally(lines[..|lines| - 1]), lines[|lines| - 1])
  }

  /** What the tally should hold: for each group, its key, the sum of its lines and their number. */
  function Summarize(g: seq<(string, seq<PlayerLine>)>): (acc: seq<(string, (Figures, nat))>)
    ensures |acc| == |g|
    ensures forall i :: 0 <= i < |g| ==> acc[i] == (g[i].0, (Sum(g[i].1), |g[i].1|))
  {
    seq(|g|, i requires 0 <= i < |g| => (g[i].0, (Sum(g[i].1), |g[i].1|)))
  }

  lemma Sum_Snoc(vs: seq<PlayerLine>, q: PlayerLine)
    ensures Sum(vs + [q]) == Plus(Sum(vs), LineFigures(q))
  {
    assert (vs + [q])[..|vs|] == vs;
  }

  /** One loop pass on the totals mirrors one insertion into the grouping. */
  lemma Summarize_Insert(g: seq<(string, seq<PlayerLine>)>, q: PlayerLine)
    ensures TallyStep(Summarize(g), q) == Summarize(Insert(g, q.nickname, q))
  {
    assert Keys(Summarize(g)) == Keys(g);
    if IndexIn(Keys(g), q.nickname) < |g| {
      Summarize_InsertSeen(g, q, IndexIn(Keys(g), q.nickname));
    } else {
      Summarize_InsertNew(g, q);
    }
  }

  lemma Summarize_InsertSeen(g: seq<(string, seq<PlayerLine>)>, q: PlayerLine, i: nat)
    requires i < |g| && g[i].0 == q.nickname
    ensures Summarize(g)[i := (q.nickname, (Plus(Summarize(g)[i].1.0, LineFigures(q)), Summarize(g)[i].1.1 + 1))]
      == Summarize(g[i := (q.nickname, g[i].1 + [q])])
  {
    Sum_Snoc(g[i].1, q);
  }

  lemma Summarize_InsertNew(g: seq<(string, seq<PlayerLine>)>, q: PlayerLine)
    ensures Summarize(g) + [(q.nickname, (Plus(Zero, LineFigures(q)), 1))] == Summarize(g + [(q.nickname, [q])])
  {
    Sum_Snoc([], q);
    assert [] + [q] == [q];
  }

  /** The running totals are the totals of the grouping. */
  lemma {:induction false} Tally_GroupBy(lines: seq<PlayerLine>)
    ensures Tally(lines) == Summarize(GroupBy(LineItems(lines)))
  {
    if lines != [] {
      var p := lines[..|lines| - 1];
      var q := lines[|lines| - 1];
      Tally_GroupBy(p);
      GroupBy_LineItemsLast(lines);
      Summarize_Insert(GroupBy(LineItems(p)), q);
    }
  }

  /** Grouping the lines is grouping all but the last, then inserting the last. */
  lemma GroupBy_LineItemsLast(lines: seq<PlayerLine>)
    requires lines != []
    ensures GroupBy(LineItems(lines))
      == Insert(GroupBy(LineItems(lines[..|lines| - 1])), lines[|lines| - 1].nickname, lines[|lines| - 1])
  {
    var items := LineItems(lines);
    assert items[..|items| - 1] == LineItems(lines[..|lines| - 1]);
    assert items[|items| - 1] == (lines[|lines| - 1].nickname, lines[|lines| - 1]);
  }

  /** `get_player_averages()`: every total divided by its nickname's count and
      rounded to two decimals. */
  function PlayerAverages(ds: seq<Match>): seq<(string, Figures)> {
    var L := OverallLines(ds);
    Tally_GroupBy(L);
    var acc := Tally(L);
    GroupBy_NonEmpty(LineItems(L));
    seq(|acc|, i requires 0 <= i < |acc| => (acc[i].0, RoundFigures(Over(acc[i].1.0, acc[i].1.1))))
  }

  /** The averages are keyed by exactly the `get_players()` nicknames, in the same
      order, and each entry is the field-wise mean of that nickname's lines, every
      figure rounded to two decimals. */
  lemma PlayerAverages_Correct(ds: seq<Match>)
    ensures Keys(PlayerAverages(ds)) == Players(ds)
    ensures forall i :: 0 <= i < |PlayerAverages(ds)| ==>
      Select(LineItems(OverallLines(ds)), PlayerAverages(ds)[i].0) != [] &&
      PlayerAverages(ds)[i].1 == RoundFigures(Mean(Select(LineItems(OverallLines(ds)), PlayerAverages(ds)[i].0)))
  {
    var L := OverallLines(ds);
    var items := LineItems(L);
    Tally_GroupBy(L);
    GroupBy_Correct(items);
    GroupBy_NonEmpty(items);
    assert Keys(items) == Nicknames(L);
    var g := GroupBy(items);
    assert Keys(PlayerAverages(ds)) == Keys(g);
  }
}

=== FILE: groups.dfy ===
/** Insertion-ordered grouping, the Python idiom
        d = {}
        for item in items:
            if key not in d: d[key] = []
            d[key].append(value)
    used by the repository for tournaments, maps, players and averages.
    A dictionary is a sequence of (key, values) pairs in insertion order. */
module Groups {

  /** Index of the first `x` in `s`, or `|s|` when absent. */
  function IndexIn<T(==)>(s: seq<T>, x: T): (i: nat)
    ensures i <= |s|
    ensures i < |s| ==> s[i] == x
    ensures i == |s| <==> x !in s
    ensures forall j :: 0 <= j < i ==> s[j] != x
  {
    if s == [] then 0
    else if s[0] == x then 0
    else 1 + IndexIn(s[1..], x)
  }

  predicate NoDup<T(==)>(s: seq<T>) {
    forall i, j :: 0 <= i < j < |s| ==> s[i] != s[j]
  }

  /** The distinct elements of `s`, each at the position of its first appearance. */
  function Distinct<T(==)>(s: seq<T>): (d: seq<T>)
    ensures forall x :: x in d ==> x in s
    ensures forall x :: x in s ==> x in d
  {
    if s == [] then []
    else
      var prev := Distinct(s[..|s| - 1]);
      var x := s[|s| - 1];
      assert s == s[..|s| - 1] + [x];
      if x in prev then prev else prev + [x]
  }

  lemma {:induction false} Distinct_NoDup<T>(s: seq<T>)
    ensures NoDup(Distinct(s))
  {
    if s != [] {
      Distinct_NoDup(s[..|s| - 1]);
    }
  }

  lemma {:induction false} IndexIn_Snoc<T>(s: seq<T>, x: T, y: T)
    requires y in s
    ensures IndexIn(s + [x], y) == IndexIn(s, y)
  {
    if s[0] != y {
      assert (s + [x])[1..] == s[1..] + [x];
      IndexIn_Snoc(s[1..], x, y);
    }
  }

  lemma {:induction false} IndexIn_SnocNew<T>(s: seq<T>, x: T)
    requires x !in s
    ensures IndexIn(s + [x], x) == |s|
  {
    var t := s + [x];
    assert t[|s|] == x;
    assert forall j :: 0 <= j < |s| ==> t[j] == s[j];
  }

  lemma NoDup_Tail<T>(s: seq<T>)
    requires s != [] && NoDup(s)
    ensures NoDup(s[1..]) && s[0] !in s[1..]
  {
    forall i, j | 0 <= i < j < |s| - 1 ensures s[1..][i] != s[1..][j] {
      assert s[1..][i] == s[i + 1] && s[1..][j] == s[j + 1];
    }
  }

  /** `names` lists elements of `s` in the order in which `s` lists them. */
  predicate OrderedIn<T(==)>(s: seq<T>, names: seq<T>) {
    forall i, j :: 0 <= i < j < |names| ==> IndexIn(s, names[i]) < IndexIn(s, names[j])
  }

  /** Putting the head of a duplicate-free `s` in front of names listed in the
      order of the tail keeps them in the order of `s`. */
  lemma IndexIn_OrderedCons<T>(s: seq<T>, names: seq<T>, later: seq<T>)
    requires s != [] && NoDup(s)
    requires forall k :: 0 <= k < |later| ==> later[k] in s[1..]
    requires names == later || names == [s[0]] + later
    requires OrderedIn(s[1..], later)
    ensures OrderedIn(s, names)
  {
    NoDup_Tail(s);
    forall k | 0 <= k < |later| ensures IndexIn(s, later[k]) == 1 + IndexIn(s[1..], later[k]) {
    }
    if names != later {
      forall i, j | 0 <= i < j < |names| ensures IndexIn(s, names[i]) < IndexIn(s, names[j]) {
        assert names[j] == later[j - 1];
        if i > 0 {
          assert names[i] == later[i - 1];
        }
      }
    }
  }

  /** Keys are listed in the order in which they first appear. */
  lemma {:induction false} Distinct_FirstAppearance<T>(s: seq<T>)
    ensures forall i, j :: 0 <= i < j < |Distinct(s)| ==>
      IndexIn(s, Distinct(s)[i]) < IndexIn(s, Distinct(s)[j])
  {
    if s != [] {
      var p := s[..|s| - 1];
      var x := s[|s| - 1];
      assert s == p + [x];
      Distinct_FirstAppearance(p);
      var d := Distinct(p);
      forall y | y in p
        ensures IndexIn(s, y) == IndexIn(p, y)
      {
        IndexIn_Snoc(p, x, y);
      }
      if x !in d {
        IndexIn_SnocNew(p, x);
        forall i | 0 <= i < |d|
          ensures IndexIn(s, d[i]) < IndexIn(s, x)
        {
          assert d[i] in p;
        }
      }
    }
  }

  /** The key column of a list of (key, value) items. */
  function Keys<K, V>(items: seq<(K, V)>): (ks: seq<K>)
    ensures |ks| == |items|
    ensures forall i :: 0 <= i < |items| ==> ks[i] == items[i].0
  {
    seq(|items|, i requires 0 <= i < |items| => items[i].0)
  }

  /** The values of `items` carrying key `k`, in their original order. */
  function Select<K(==), V>(items: seq<(K, V)>, k: K): (vs: seq<V>)
    ensures |vs| <= |items|
  {
    if items == [] then []
    else
      var prev := Select(items[..|items| - 1], k);
      if items[|items| - 1].0 == k then prev + [items[|items| - 1].1] else prev
  }

  lemma {:induction false} Select_Absent<K, V>(items: seq<(K, V)>, k: K)
    requires k !in Keys(items)
    ensures Select(items, k) == []
  {
    if items != [] {
      var p := items[..|items| - 1];
      assert forall i :: 0 <= i < |p| ==> Keys(p)[i] == Keys(items)[i];
      Select_Absent(p, k);
      assert Keys(items)[|items| - 1] == items[|items| - 1].0;
    }
  }

  /** Every selected value was paired with the key in the input. */
  lemma {:induction false} Select_Sound<K, V>(items: seq<(K, V)>, k: K)
    ensures forall v :: v in Select(items, k) ==> (k, v) in items
  {
    if items != [] {
      var p := items[..|items| - 1];
      Select_Sound(p, k);
      assert items == p + [items[|items| - 1]];
    }
  }

  /** A key that occurs has at least one value. */
  lemma {:induction false} Select_Present<K, V>(items: seq<(K, V)>, k: K)
    requires k in Keys(items)
    ensures Select(items, k) != []
  {
    var p := items[..|items| - 1];
    if items[|items| - 1].0 != k {
      assert forall i :: 0 <= i < |p| ==> Keys(p)[i] == Keys(items)[i];
      assert k in Keys(p);
      Select_Present(p, k);
    }
  }

  /** All grouped values, group after group. */
  function Concat<K, V>(g: seq<(K, seq<V>)>): seq<V> {
    if g == [] then [] else g[0].1 + Concat(g[1..])
  }

  /** One step of the loop: append `v` to the list under `k`, opening a new list at the end when `k` is new. */
  function Insert<K(==), V>(g: seq<(K, seq<V>)>, k: K, v: V): (r: seq<(K, seq<V>)>)
    ensures k in Keys(g) ==> |r| == |g|
    ensures k !in Keys(g) ==> r == g + [(k, [v])]
  {
    var i := IndexIn(Keys(g), k);
    if i < |g| then g[i := (k, g[i].1 + [v])] else g + [(k, [v])]
  }

  /** The whole loop over `items`. */
  function GroupBy<K(==), V>(items: seq<(K, V)>): seq<(K, seq<V>)> {
    if items == [] then []
    else
      var last := items[|items| - 1];
      Insert(GroupBy(items[..|items| - 1]), last.0, last.1)
  }

  /** No group is empty. */
  lemma {:induction false} GroupBy_NonEmpty<K, V>(items: seq<(K, V)>)
    ensures forall i :: 0 <= i < |GroupBy(items)| ==> GroupBy(items)[i].1 != []
  {
    if items != [] {
      GroupBy_NonEmpty(items[..|items| - 1]);
    }
  }

  /** The grouping's meaning: one group per distinct key, keys in first-appearance
      order, and under each key exactly the values carrying it, in input order. */
  ghost predicate GroupsOf<K, V>(g: seq<(K, seq<V>)>, items: seq<(K, V)>) {
    && Keys(g) == Distinct(Keys(items))
    && forall i :: 0 <= i < |g| ==> g[i].1 == Select(items, g[i].0)
  }

  lemma {:induction false} GroupBy_Correct<K, V>(items: seq<(K, V)>)
    ensures GroupsOf(GroupBy(items), items)
  {
    if items != [] {
      var p := items[..|items| - 1];
      var (k, v) := items[|items| - 1];
      GroupBy_Correct(p);
      var g := GroupBy(p);
      var g' := GroupBy(items);
      assert Keys(items) == Keys(p) + [k];
      assert Keys(items)[..|items| - 1] == Keys(p);
      assert g' == Insert(g, k, v);
      Distinct_NoDup(Keys(p));
      var i := IndexIn(Keys(g), k);
      if i < |g| {
        assert g' == g[i := (k, g[i].1 + [v])];
        assert Keys(g') == Keys(g);
        forall j | 0 <= j < |g'|
          ensures g'[j].1 == Select(items, g'[j].0)
        {
          if j != i {
            assert Keys(g)[j] != Keys(g)[i];
          }
        }
      } else {
        assert k !in Keys(p);
        Select_Absent(p, k);
        assert Keys(g') == Keys(g) + [k];
      }
    }
  }

  lemma {:induction false} Concat_Snoc<K, V>(g: seq<(K, seq<V>)>, x: (K, seq<V>))
    ensures Concat(g + [x]) == Concat(g) + x.1
  {
    if g != [] {
      assert (g + [x])[1..] == g[1..] + [x];
      Concat_Snoc(g[1..], x);
    }
  }

  lemma {:induction false} Concat_Concat<K, V>(a: seq<(K, seq<V>)>, b: seq<(K, seq<V>)>)
    ensures Concat(a + b) == Concat(a) + Concat(b)
  {
    if a != [] {
      assert (a + b)[1..] == a[1..] + b;
      Concat_Concat(a[1..], b);
    } else {
      assert a + b == b;
    }
  }

  /** The values of the first `t + 1` groups: those of the first `t`, then group `t`'s;
      and the rest of the groups follow them. */
  lemma {:induction false} Concat_Split<K, V>(g: seq<(K, seq<V>)>, t: nat)
    requires t < |g|
    ensures Concat(g[..t + 1]) == Concat(g[..t]) + g[t].1
    ensures Concat(g) == Concat(g[..t + 1]) + Concat(g[t + 1..])
  {
    assert Concat(g[..t + 1]) == Concat(g[..t]) + g[t].1 by {
      assert g[..t + 1] == g[..t] + [g[t]];
      Concat_Snoc(g[..t], g[t]);
    }
    assert Concat(g) == Concat(g[..t + 1]) + Concat(g[t + 1..]) by {
      assert g == g[..t + 1] + g[t + 1..];
      Concat_Concat(g[..t + 1], g[t + 1..]);
    }
  }

  /** Group `t`'s values sit in the concatenation right after those of the groups before it. */
  lemma {:induction false} Concat_Window<K, V>(g: seq<(K, seq<V>)>, t: nat)
    requires t < |g|
    ensures |Concat(g[..t])| + |g[t].1| <= |Concat(g)|
    ensures Concat(g[..t + 1]) == Concat(g)[..|Concat(g[..t])| + |g[t].1|]
    ensures forall j :: 0 <= j < |g[t].1| ==> Concat(g)[|Concat(g[..t])| + j] == g[t].1[j]
  {
    Concat_Split(g, t);
    var a := Concat(g[..t]);
    var b := g[t].1;
    assert Concat(g) == (a + b) + Concat(g[t + 1..]);
    assert Concat(g)[..|a| + |b|] == a + b;
    forall j | 0 <= j < |b|
      ensures Concat(g)[|a| + j] == b[j]
    {
      assert (a + b)[|a| + j] == b[j];
    }
  }

  lemma {:induction false} Concat_Append<K, V>(g: seq<(K, seq<V>)>, i: nat, k: K, v: V)
    requires i < |g|
    ensures multiset(Concat(g[i := (k, g[i].1 + [v])])) == multiset(Concat(g)) + multiset{v}
  {
    if i == 0 {
      assert g[i := (k, g[i].1 + [v])][1..] == g[1..];
    } else {
      assert g[i := (k, g[i].1 + [v])][1..] == g[1..][i - 1 := (k, g[i].1 + [v])];
      Concat_Append(g[1..], i - 1, k, v);
    }
  }

  /** The value column of a list of (key, value) items. */
  function Vals<K, V>(items: seq<(K, V)>): (vs: seq<V>)
    ensures |vs| == |items|
    ensures forall i :: 0 <= i < |items| ==> vs[i] == items[i].1
  {
    seq(|items|, i requires 0 <= i < |items| => items[i].1)
  }

  /** Every value lands in exactly one group: the groups, laid end to end, are a
      permutation of the input values, so the group sizes sum to the input length. */
  lemma {:induction false} GroupBy_Partition<K, V>(items: seq<(K, V)>)
    ensures multiset(Concat(GroupBy(items))) == multiset(Vals(items))
    ensures |Concat(GroupBy(items))| == |items|
  {
    if items != [] {
      var p := items[..|items| - 1];
      var (k, v) := items[|items| - 1];
      GroupBy_Partition(p);
      var g := GroupBy(p);
      assert Vals(items) == Vals(p) + [v];
      var i := IndexIn(Keys(g), k);
      if i < |g| {
        Concat_Append(g, i, k, v);
      } else {
        Concat_Snoc(g, (k, [v]));
      }
      assert |multiset(Concat(GroupBy(items)))| == |multiset(Vals(items))|;
    }
  }

  /** `d.get(k, [])` on a grouping is exactly the selection of `k`'s values. */
  lemma GroupBy_Lookup<K, V>(items: seq<(K, V)>, k: K)
    ensures Lookup(GroupBy(items), k) == Select(items, k)
  {
    GroupBy_Correct(items);
    var g := GroupBy(items);
    if k !in Keys(g) {
      assert k !in Keys(items);
      Select_Absent(items, k);
    }
  }

  /** Dictionary lookup `d.get(k)`. */
  function Lookup<K(==), V>(g: seq<(K, seq<V>)>, k: K): (r: seq<V>)
    ensures k !in Keys(g) ==> r == []
    ensures k in Keys(g) ==> r == g[IndexIn(Keys(g), k)].1
  {
    var i := IndexIn(Keys(g), k);
    if i < |g| then g[i].1 else []
  }
}

=== FILE: handlers.dfy ===
/** The command handlers of `handlers.py`: what each command computes from the
    statistics and the message text. Table layout, number formatting and the
    static help texts are not part of the model; the values, their order, the
    replies and the buttons are. */
module Handlers {
  import opened Outcomes
  import opened Text
  import opened Numbers
  import opened Groups
  import opened Dataset
  import opened Tokens
  import opened Keyboards

  // ---------------------------------------------------------------- float()

  /** Whether Python's `float(v)` succeeds. */
  predicate Floatable(v: Value) {
    v.Num? || (v.Str? && ParseFloat(v.s).Some?)
  }

  /** `float(v)`: a number as is, a string parsed (ValueError when malformed),
      anything else (null, a list) TypeError. */
  function PyFloat(v: Value): (r: Result<real>)
    ensures r.Ok? <==> Floatable(v)
    ensures v.Num? ==> r == Ok(v.x)
    ensures r.Fail? ==> r.error == (if v.Str? then ValueError else TypeError)
  {
    match v
    case Num(x) => Ok(x)
    case Str(s) => (match ParseFloat(s) case Some(x) => Ok(x) case None => Fail(ValueError))
    case Null => Fail(TypeError)
  }

  /** Position of the first value `float` rejects, or `|vs|`. */
  function FirstUnfloatable(vs: seq<Value>): (i: nat)
    ensures i <= |vs|
    ensures i < |vs| ==> !Floatable(vs[i])
    ensures forall j :: 0 <= j < i ==> Floatable(vs[j])
  {
    if vs == [] then 0
    else if !Floatable(vs[0]) then 0
    else 1 + FirstUnfloatable(vs[1..])
  }

  /** The first rejected value of a concatenation is the first of its front part,
      or else the first of its back part. */
  lemma FirstUnfloatable_Append(a: seq<Value>, b: seq<Value>)
    ensures FirstUnfloatable(a + b) ==
      if FirstUnfloatable(a) < |a| then FirstUnfloatable(a) else |a| + FirstUnfloatable(b)
  {
    var j := FirstUnfloatable(a);
    forall m | 0 <= m < j ensures Floatable((a + b)[m]) {
      assert (a + b)[m] == a[m];
    }
    if j < |a| {
      assert (a + b)[j] == a[j];
    } else {
      var k := FirstUnfloatable(b);
      if k < |b| {
        assert (a + b)[|a| + k] == b[k];
      }
      forall m | |a| <= m < |a| + k ensures Floatable((a + b)[m]) {
        assert (a + b)[m] == b[m - |a|];
      }
    }
  }

  /** `float` applied to each value in turn: every value converted, or the
      exception of the first one that does not convert. */
  function Floats(vs: seq<Value>): (r: Result<seq<real>>)
    ensures r.Ok? <==> forall i :: 0 <= i < |vs| ==> Floatable(vs[i])
    ensures r.Ok? ==> |r.value| == |vs| && forall i :: 0 <= i < |vs| ==> PyFloat(vs[i]) == Ok(r.value[i])
    ensures r.Fail? ==> FirstUnfloatable(vs) < |vs| && r.error == PyFloat(vs[FirstUnfloatable(vs)]).error
  {
    if vs == [] then Ok([])
    else
      var x :- PyFloat(vs[0]);
      var rest :- Floats(vs[1..]);
      Ok([x] + rest)
  }

  function SumReals(xs: seq<real>): real {
    if xs == [] then 0.0 else xs[0] + SumReals(xs[1..])
  }

  /** The arithmetic mean of a non-empty list. */
  function Average(xs: seq<real>): real
    requires xs != []
  {
    SumReals(xs) / |xs| as real
  }

  // ---------------------------------------------------------------- player card

  function AdrColumn(stats: seq<StatRecord>): (vs: seq<Value>)
    ensures |vs| == |stats| && forall i :: 0 <= i < |stats| ==> vs[i] == stats[i].adr
  {
    seq(|stats|, i requires 0 <= i < |stats| => stats[i].adr)
  }

  function KColumn(stats: seq<StatRecord>): (vs: seq<Value>)
    ensures |vs| == |stats| && forall i :: 0 <= i < |stats| ==> vs[i] == stats[i].k
  {
    seq(|stats|, i requires 0 <= i < |stats| => stats[i].k)
  }

  function DColumn(stats: seq<StatRecord>): (vs: seq<Value>)
    ensures |vs| == |stats| && forall i :: 0 <= i < |stats| ==> vs[i] == stats[i].d
  {
    seq(|stats|, i requires 0 <= i < |stats| => stats[i].d)
  }

  function RatingColumn(stats: seq<StatRecord>): (xs: seq<real>)
    ensures |xs| == |stats| && forall i :: 0 <= i < |stats| ==> xs[i] == stats[i].rating
  {
    seq(|stats|, i requires 0 <= i < |stats| => stats[i].rating)
  }

  /** The KAST cells that hold text, with every '%' removed, in record order:
      only the string cells take part; a numeric KAST is skipped. */
  function KastTexts(stats: seq<StatRecord>): (vs: seq<Value>)
    ensures forall v :: v in vs ==> v.Str? && '%' !in v.s
    ensures vs == [] <==> forall i :: 0 <= i < |stats| ==> !stats[i].kast.Str?
  {
    if stats == [] then []
    else
      var rest := KastTexts(stats[1..]);
      assert forall i :: 1 <= i < |stats| ==> stats[1..][i - 1] == stats[i];
      (if stats[0].kast.Str? then [Str(Remove(stats[0].kast.s, '%'))] else []) + rest
  }

  predicate AllFloatable(vs: seq<Value>) {
    forall i :: 0 <= i < |vs| ==> Floatable(vs[i])
  }

  /** Every string KAST cell converts once its '%' are gone. */
  predicate KastConvertible(stats: seq<StatRecord>) {
    forall i :: 0 <= i < |stats| && stats[i].kast.Str? ==> Floatable(Str(Remove(stats[i].kast.s, '%')))
  }

  lemma AllFloatable_Cons(h: seq<Value>, t: seq<Value>)
    ensures AllFloatable(h + t) <==> AllFloatable(h) && AllFloatable(t)
  {
    if AllFloatable(h) && AllFloatable(t) {
      forall i | 0 <= i < |h + t| ensures Floatable((h + t)[i]) {
        if i >= |h| {
          assert (h + t)[i] == t[i - |h|];
        }
      }
    }
    if AllFloatable(h + t) {
      forall i | 0 <= i < |h| ensures Floatable(h[i]) {
        assert (h + t)[i] == h[i];
      }
      forall i | 0 <= i < |t| ensures Floatable(t[i]) {
        assert (h + t)[|h| + i] == t[i];
      }
    }
  }

  lemma KastConvertible_Cons(stats: seq<StatRecord>)
    requires stats != []
    ensures KastConvertible(stats) <==>
      (stats[0].kast.Str? ==> Floatable(Str(Remove(stats[0].kast.s, '%')))) && KastConvertible(stats[1..])
  {
    if (stats[0].kast.Str? ==> Floatable(Str(Remove(stats[0].kast.s, '%')))) && KastConvertible(stats[1..]) {
      forall i | 0 <= i < |stats| && stats[i].kast.Str? ensures Floatable(Str(Remove(stats[i].kast.s, '%'))) {
        if i > 0 {
          assert stats[i] == stats[1..][i - 1];
        }
      }
    }
  }

  /** The KAST strings convert exactly when every string KAST cell converts once its '%' are gone. */
  lemma {:induction false} KastTexts_Floatable(stats: seq<StatRecord>)
    ensures AllFloatable(KastTexts(stats)) <==> KastConvertible(stats)
  {
    if stats != [] {
      var head: seq<Value> := if stats[0].kast.Str? then [Str(Remove(stats[0].kast.s, '%'))] else [];
      var tail := KastTexts(stats[1..]);
      assert KastTexts(stats) == head + tail;
      assert AllFloatable(tail) <==> KastConvertible(stats[1..]) by {
        KastTexts_Floatable(stats[1..]);
      }
      assert AllFloatable(head) <==> (stats[0].kast.Str? ==> Floatable(Str(Remove(stats[0].kast.s, '%'))));
      AllFloatable_Cons(head, tail);
      KastConvertible_Cons(stats);
    }
  }

  /** Every figure the card converts with `float` does convert: each ADR, each K,
      each D, and each string KAST once stripped of '%'. */
  predicate CardConvertible(stats: seq<StatRecord>) {
    && (forall i :: 0 <= i < |stats| ==> Floatable(stats[i].adr))
    && KastConvertible(stats)
    && (forall i :: 0 <= i < |stats| ==> Floatable(stats[i].k))
    && (forall i :: 0 <= i < |stats| ==> Floatable(stats[i].d))
  }

  /** The "last match" part of the card: the opponent of the player's last match
      and the player's first line in its `overall` table. */
  datatype LastLine = LastLine(opponent: string, line: PlayerLine)

  /** What the card shows; the text around these values is formatting. */
  datatype Card = Card(
    name: string, rating: real, adr: real, kast: real, k: real, d: real,
    best: Option<(string, real)>, last: Option<LastLine>, buttons: seq<Button>)

  const PlayerNotFound: string := "❌ Игрок не найден."
  const BackToPlayersLabel: string := "⬅️ Назад к списку игроков"
  const ExportLabel: string := "📤 Экспорт"

  /** Position of the first line whose nickname matches `n`, or `|lines|`. */
  function FirstMatching(lines: seq<PlayerLine>, n: string): (i: nat)
    ensures i <= |lines|
    ensures i < |lines| ==> SameNick(lines[i].nickname, n)
    ensures forall j :: 0 <= j < i ==> !SameNick(lines[j].nickname, n)
  {
    if lines == [] then 0
    else if SameNick(lines[0].nickname, n) then 0
    else 1 + FirstMatching(lines[1..], n)
  }

  /** The last-match lines: absent exactly when the player is in no `overall` table;
      otherwise taken from the last such match, from its first matching line. */
  function LastLineOf(ds: seq<Match>, n: string): (r: Option<LastLine>)
    requires ValidMatches(ds)
    ensures r.None? <==> forall i :: 0 <= i < |ds| ==> !Plays(ds[i], n)
    ensures r.Some? ==>
      && 0 <= LastPlayed(ds, n)
      && r.value.opponent == Opponent(ds[LastPlayed(ds, n)])
      && r.value.line == ds[LastPlayed(ds, n)].overall[FirstMatching(ds[LastPlayed(ds, n)].overall, n)]
      && SameNick(r.value.line.nickname, n)
  {
    match LastMatchForPlayer(ds, n)
    case None => None
    case Some(m) =>
      var i := FirstMatching(m.overall, n);
      if i < |m.overall| then Some(LastLine(Opponent(m), m.overall[i])) else None
  }

  /** One button per record, `"{date} vs {opponent}"`, sending `player_match_{name}_{idx}`. */
  function MatchButtons(name: string, stats: seq<StatRecord>): (bs: seq<Button>)
    ensures |bs| == |stats|
    ensures forall i :: 0 <= i < |stats| ==>
      bs[i] == Button(stats[i].date + " vs " + stats[i].opponent, PlayerMatchToken(name, i))
  {
    seq(|stats|, i requires 0 <= i < |stats| =>
          Button(stats[i].date + " vs " + stats[i].opponent, PlayerMatchToken(name, i)))
  }

  /** The card's four conversions in the order the code runs them: ADR, the KAST
      strings, K, D. */
  function CardFloats(stats: seq<StatRecord>): (r: Result<(seq<real>, seq<real>, seq<real>, seq<real>)>)
    ensures r.Ok? <==> CardConvertible(stats)
    ensures r.Ok? ==> |r.value.0| == |stats| && |r.value.2| == |stats| && |r.value.3| == |stats|
    ensures r.Ok? ==> (r.value.1 == [] <==> forall i :: 0 <= i < |stats| ==> !stats[i].kast.Str?)
  {
    KastTexts_Floatable(stats);
    var adrs :- Floats(AdrColumn(stats));
    var kasts :- Floats(KastTexts(stats));
    var ks :- Floats(KColumn(stats));
    var dvs :- Floats(DColumn(stats));
    Ok((adrs, kasts, ks, dvs))
  }

  /** Every value the card converts, in the order it converts them. */
  function CardValues(stats: seq<StatRecord>): seq<Value> {
    AdrColumn(stats) + KastTexts(stats) + KColumn(stats) + DColumn(stats)
  }

  /** Converting two lists one after the other fails like converting their
      concatenation: with the front list's exception if it fails, else the back's. */
  lemma Floats_Append(a: seq<Value>, b: seq<Value>)
    ensures Floats(a + b).Fail? <==> Floats(a).Fail? || Floats(b).Fail?
    ensures Floats(a).Fail? ==> Floats(a + b).error == Floats(a).error
    ensures Floats(a).Ok? && Floats(b).Fail? ==> Floats(a + b).error == Floats(b).error
  {
    FirstUnfloatable_Append(a, b);
    var j := FirstUnfloatable(a);
    if j < |a| {
      assert (a + b)[j] == a[j];
    } else if FirstUnfloatable(b) < |b| {
      assert (a + b)[|a| + FirstUnfloatable(b)] == b[FirstUnfloatable(b)];
    }
  }

  /** A failed conversion raises what converting every card value in order raises:
      the exception of the first value `float` rejects. */
  lemma CardFloats_Error(stats: seq<StatRecord>)
    requires CardFloats(stats).Fail?
    ensures Floats(CardValues(stats)).Fail?
    ensures CardFloats(stats).error == Floats(CardValues(stats)).error
  {
    var A, K, Ks, D := AdrColumn(stats), KastTexts(stats), KColumn(stats), DColumn(stats);
    Floats_Append(A, K);
    Floats_Append(A + K, Ks);
    Floats_Append(A + K + Ks, D);
  }

  /** `render_player_card(name, stats)` with its keyboard: the mean Rating and ADR
      over every record, the mean KAST over the string cells only (0 without any),
      and the K and D totals over the number of records. */
  function RenderPlayerCard(ds: seq<Match>, name: string, stats: seq<StatRecord>): (r: Outcome<Card>)
    requires ValidMatches(ds)
    ensures r.Reply? <==> stats == []
    ensures r.Reply? ==> r.message == PlayerNotFound
    ensures r.Crash? <==> stats != [] && !CardConvertible(stats)
    ensures r.Crash? ==>
      && FirstUnfloatable(CardValues(stats)) < |CardValues(stats)|
      && r.error == PyFloat(CardValues(stats)[FirstUnfloatable(CardValues(stats))]).error
    ensures r.Shown? ==> r.view.name == name && r.view.rating == Average(RatingColumn(stats))
    ensures r.Shown? ==>
      && Floats(AdrColumn(stats)).Ok? && Floats(KColumn(stats)).Ok? && Floats(DColumn(stats)).Ok?
      && r.view.adr == Average(Floats(AdrColumn(stats)).value)
      && r.view.k == SumReals(Floats(KColumn(stats)).value) / |stats| as real
      && r.view.d == SumReals(Floats(DColumn(stats)).value) / |stats| as real
    ensures r.Shown? && KastTexts(stats) != [] ==>
      Floats(KastTexts(stats)).Ok? && r.view.kast == Average(Floats(KastTexts(stats)).value)
    ensures r.Shown? && KastTexts(stats) == [] ==> r.view.kast == 0.0
    ensures r.Shown? ==> r.view.best == BestMapForPlayer(ds, name) && r.view.last == LastLineOf(ds, name)
    ensures r.Shown? ==> r.view.buttons == CardButtons(name, stats)
  {
    if stats == [] then Reply(PlayerNotFound)
    else
      var f := CardFloats(stats);
      if f.Fail? then
        CardFloats_Error(stats);
        Crash(f.error)
      else
        var (adrs, kasts, ks, dvs) := f.value;
        var n := |stats| as real;
        Shown(Card(name, Average(RatingColumn(stats)), Average(adrs),
                   if kasts == [] then 0.0 else Average(kasts),
                   SumReals(ks) / n, SumReals(dvs) / n,
                   BestMapForPlayer(ds, name), LastLineOf(ds, name), CardButtons(name, stats)))
  }

  /** The card's keyboard: a button per record, then back to the list, then export. */
  function CardButtons(name: string, stats: seq<StatRecord>): (bs: seq<Button>)
    ensures |bs| == |stats| + 2 && bs[..|stats|] == MatchButtons(name, stats)
    ensures bs[|stats|] == Button(BackToPlayersLabel, BackPlayers)
    ensures bs[|stats| + 1] == Button(ExportLabel, ExportTableToken(EncodeTarget(PlayerT(name))))
  {
    MatchButtons(name, stats) +
    [Button(BackToPlayersLabel, BackPlayers), Button(ExportLabel, ExportTableToken(EncodeTarget(PlayerT(name))))]
  }

  // ---------------------------------------------------------------- /player

  const PlayerUsage: string := "❓ <b>Как использовать команду:</b>\n\n📝 <code>/player [ник игрока]</code>\n\n🎯 <b>Примеры:</b>\n• <code>/player swetsi</code>\n• <code>/player player123</code>\n\n💡 <b>Совет:</b> Используйте кнопку \"👥 Игроки\" в меню для просмотра всех игроков команды."

  /** `cmd_player`: exactly two words give the card of the second; anything else the usage text. */
  function CmdPlayer(ds: seq<Match>, text: string): (r: Outcome<Card>)
    requires ValidMatches(ds)
    ensures |Words(text)| != 2 ==> r == Reply(PlayerUsage)
    ensures |Words(text)| == 2 ==> r == RenderPlayerCard(ds, Words(text)[1], PlayerStats(ds, Words(text)[1]))
  {
    var args := Words(text);
    if |args| == 2 then RenderPlayerCard(ds, args[1], PlayerStats(ds, args[1]))
    else Reply(PlayerUsage)
  }

  // ---------------------------------------------------------------- ranking

  /** Entries ordered by descending Rating. */
  predicate RankedDesc(xs: seq<(string, Figures)>) {
    forall i, j :: 0 <= i < j < |xs| ==> xs[i].1.rating >= xs[j].1.rating
  }

  /** The entries whose Rating is exactly `v`, in their order. */
  function WithRating(xs: seq<(string, Figures)>, v: real): seq<(string, Figures)> {
    if xs == [] then []
    else (if xs[0].1.rating == v then [xs[0]] else []) + WithRating(xs[1..], v)
  }

  /** `x` goes before the first entry whose Rating is not above its own. */
  function InsertByRating(x: (string, Figures), xs: seq<(string, Figures)>): (r: seq<(string, Figures)>)
    ensures multiset(r) == multiset(xs) + multiset{x}
  {
    if xs == [] || xs[0].1.rating <= x.1.rating then [x] + xs
    else
      assert xs == [xs[0]] + xs[1..];
      [xs[0]] + InsertByRating(x, xs[1..])
  }

  /** Python's stable sort on Rating, highest first. */
  function SortByRating(xs: seq<(string, Figures)>): (r: seq<(string, Figures)>)
    ensures multiset(r) == multiset(xs)
    ensures |r| == |xs|
  {
    if xs == [] then []
    else
      assert xs == [xs[0]] + xs[1..];
      InsertByRating(xs[0], SortByRating(xs[1..]))
  }

  /** Inserting under a bound keeps every Rating under it. */
  lemma {:induction false} InsertByRating_Bound(x: (string, Figures), xs: seq<(string, Figures)>, b: real)
    requires x.1.rating <= b && forall j :: 0 <= j < |xs| ==> xs[j].1.rating <= b
    ensures forall j :: 0 <= j < |InsertByRating(x, xs)| ==> InsertByRating(x, xs)[j].1.rating <= b
  {
    if xs != [] && xs[0].1.rating > x.1.rating {
      InsertByRating_Bound(x, xs[1..], b);
    }
  }

  lemma {:induction false} InsertByRating_Ranked(x: (string, Figures), xs: seq<(string, Figures)>)
    requires RankedDesc(xs)
    ensures RankedDesc(InsertByRating(x, xs))
  {
    if xs != [] && xs[0].1.rating > x.1.rating {
      var rest := xs[1..];
      InsertByRating_Ranked(x, rest);
      InsertByRating_Bound(x, rest, xs[0].1.rating);
      var ins := InsertByRating(x, rest);
      assert InsertByRating(x, xs) == [xs[0]] + ins;
    }
  }

  lemma {:induction false} SortByRating_Ranked(xs: seq<(string, Figures)>)
    ensures RankedDesc(SortByRating(xs))
  {
    if xs != [] {
      SortByRating_Ranked(xs[1..]);
      InsertByRating_Ranked(xs[0], SortByRating(xs[1..]));
    }
  }

  lemma WithRating_Cons(x: (string, Figures), xs: seq<(string, Figures)>, v: real)
    ensures WithRating([x] + xs, v) == (if x.1.rating == v then [x] else []) + WithRating(xs, v)
  {
    assert ([x] + xs)[1..] == xs;
  }

  /** Inserting keeps every Rating class in order, `x` first within its own. */
  lemma {:induction false} InsertByRating_Stable(x: (string, Figures), xs: seq<(string, Figures)>, v: real)
    ensures WithRating(InsertByRating(x, xs), v) == WithRating([x] + xs, v)
  {
    if xs != [] && xs[0].1.rating > x.1.rating {
      var y := xs[0];
      var rest := xs[1..];
      InsertByRating_Stable(x, rest, v);
      assert InsertByRating(x, xs) == [y] + InsertByRating(x, rest);
      assert xs == [y] + rest;
      WithRating_Cons(y, InsertByRating(x, rest), v);
      WithRating_Cons(x, rest, v);
      WithRating_Cons(y, rest, v);
      WithRating_Cons(x, xs, v);
      Concat_Swap(if y.1.rating == v then [y] else [], if x.1.rating == v then [x] else [], WithRating(rest, v));
    } else {
      assert InsertByRating(x, xs) == [x] + xs;
    }
  }

  lemma Concat_Swap<T>(a: seq<T>, b: seq<T>, w: seq<T>)
    requires a == [] || b == []
    ensures a + (b + w) == b + (a + w)
  {
    if a == [] {
      assert a + (b + w) == b + w == b + (a + w);
    } else {
      assert a + (b + w) == a + w == b + (a + w);
    }
  }

  /** The sort is stable: among equal Ratings the input order survives. */
  lemma {:induction false} SortByRating_Stable(xs: seq<(string, Figures)>, v: real)
    ensures WithRating(SortByRating(xs), v) == WithRating(xs, v)
  {
    if xs != [] {
      SortByRating_Stable(xs[1..], v);
      InsertByRating_Stable(xs[0], SortByRating(xs[1..]), v);
      WithRating_Cons(xs[0], SortByRating(xs[1..]), v);
      WithRating_Cons(xs[0], xs[1..], v);
      assert xs == [xs[0]] + xs[1..];
    }
  }

  /** The players' averages by descending average Rating: a permutation of the
      averages, ranked, and stable among equal Ratings. */
  function RankedPlayers(ds: seq<Match>): (r: seq<(string, Figures)>)
    ensures multiset(r) == multiset(PlayerAverages(ds))
    ensures RankedDesc(r)
  {
    SortByRating_Ranked(PlayerAverages(ds));
    SortByRating(PlayerAverages(ds))
  }

  lemma RankedPlayers_Stable(ds: seq<Match>, v: real)
    ensures WithRating(RankedPlayers(ds), v) == WithRating(PlayerAverages(ds), v)
  {
    SortByRating_Stable(PlayerAverages(ds), v);
  }

  // ---------------------------------------------------------------- /players

  /** The ranking table (place `i + 1` is `ranking[i]`) and its keyboard. */
  datatype PlayersView = PlayersView(ranking: seq<(string, Figures)>, buttons: seq<Button>)

  /** `cmd_players`: one button per ranked player opening its card, then export and chart. */
  function CmdPlayers(ds: seq<Match>): (v: PlayersView)
    ensures multiset(v.ranking) == multiset(PlayerAverages(ds)) && RankedDesc(v.ranking)
    ensures v.ranking == RankedPlayers(ds)
    ensures |v.buttons| == |v.ranking| + 2
    ensures forall i :: 0 <= i < |v.ranking| ==>
      v.buttons[i] == Button(v.ranking[i].0, PlayerStatToken(v.ranking[i].0))
    ensures v.buttons[|v.ranking|] == Button(ExportLabel, ExportTableToken(EncodeTarget(AllPlayers)))
    ensures v.buttons[|v.ranking| + 1] == Button("📊 Диаграмма", PlayersChart)
  {
    var ranking := RankedPlayers(ds);
    PlayersView(ranking,
      seq(|ranking|, i requires 0 <= i < |ranking| => Button(ranking[i].0, PlayerStatToken(ranking[i].0)))
      + [Button(ExportLabel, ExportTableToken(EncodeTarget(AllPlayers))), Button("📊 Диаграмма", PlayersChart)])
  }

  // ---------------------------------------------------------------- /maps

  /** `cmd_maps`: one button per stored map name sending `show_map_{name}`, then export. */
  function CmdMaps(ds: seq<Match>): (bs: seq<Button>)
    requires ValidMatches(ds)
    ensures |bs| == |Maps(ds)| + 1
    ensures forall i :: 0 <= i < |Maps(ds)| ==> bs[i] == Button(Maps(ds)[i].0, ShowMapToken(Maps(ds)[i].0))
    ensures bs[|Maps(ds)|] == Button(ExportLabel, ExportTableToken(EncodeTarget(AllMaps)))
  {
    var g := Maps(ds);
    seq(|g|, i requires 0 <= i < |g| => Button(g[i].0, ShowMapToken(g[i].0)))
    + [Button(ExportLabel, ExportTableToken(EncodeTarget(AllMaps)))]
  }

  // ---------------------------------------------------------------- /tournaments

  /** The button of one match: `"{date} vs {opponent}"` sending `match_{k}`. */
  function MatchButton(m: Match, k: int): Button
    requires HasOpponent(m)
  {
    Button(m.date + " vs " + Opponent(m), MatchToken(k))
  }

  /** The inner loop of `cmd_tournaments`: one button per game, numbered on from `first`. */
  method AddMatchButtons(buttons: seq<Button>, games: seq<Match>, first: int) returns (out: seq<Button>, next: int)
    requires forall j :: 0 <= j < |games| ==> HasOpponent(games[j])
    ensures next == first + |games|
    ensures |out| == |buttons| + |games| && out[..|buttons|] == buttons
    ensures forall j :: 0 <= j < |games| ==> out[|buttons| + j] == MatchButton(games[j], first + j)
  {
    var added: seq<Button> := [];
    next := first;
    var j := 0;
    while j < |games|
      invariant 0 <= j <= |games|
      invariant next == first + j
      invariant |added| == j
      invariant forall i :: 0 <= i < j ==> added[i] == MatchButton(games[i], first + i)
    {
      added := added + [MatchButton(games[j], next)];
      next := next + 1;
      j := j + 1;
    }
    out := buttons + added;
    assert forall i :: 0 <= i < |added| ==> out[|buttons| + i] == added[i];
  }

  /** Buttons numbered along `all` stay so when the next stretch of `all` is appended. */
  lemma NumberedButtons_Extend(all: seq<Match>, before: seq<Button>, games: seq<Match>, after: seq<Button>)
    requires forall i :: 0 <= i < |all| ==> HasOpponent(all[i])
    requires |before| + |games| <= |all|
    requires forall i :: 0 <= i < |before| ==> before[i] == MatchButton(all[i], i + 1)
    requires forall j :: 0 <= j < |games| ==> all[|before| + j] == games[j]
    requires |after| == |before| + |games| && after[..|before|] == before
    requires forall j :: 0 <= j < |games| ==> after[|before| + j] == MatchButton(games[j], |before| + 1 + j)
    ensures forall i :: 0 <= i < |after| ==> after[i] == MatchButton(all[i], i + 1)
  {
    forall i | 0 <= i < |after|
      ensures after[i] == MatchButton(all[i], i + 1)
    {
      if i < |before| {
        assert after[i] == after[..|before|][i];
      } else {
        var j := i - |before|;
        assert after[|before| + j] == MatchButton(games[j], |before| + 1 + j);
      }
    }
  }

  /** One pass of the outer loop keeps the buttons numbered along the groups' matches. */
  lemma GroupButtons_Step(groups: seq<(string, seq<Match>)>, t: nat, before: seq<Button>, after: seq<Button>)
    requires t < |groups|
    requires forall i :: 0 <= i < |Concat(groups)| ==> HasOpponent(Concat(groups)[i])
    requires |before| <= |Concat(groups)| && Concat(groups[..t]) == Concat(groups)[..|before|]
    requires forall i :: 0 <= i < |before| ==> before[i] == MatchButton(Concat(groups)[i], i + 1)
    requires forall j :: 0 <= j < |groups[t].1| ==> HasOpponent(groups[t].1[j])
    requires |after| == |before| + |groups[t].1| && after[..|before|] == before
    requires forall j :: 0 <= j < |groups[t].1| ==> after[|before| + j] == MatchButton(groups[t].1[j], |before| + 1 + j)
    ensures |after| <= |Concat(groups)| && Concat(groups[..t + 1]) == Concat(groups)[..|after|]
    ensures forall i :: 0 <= i < |after| ==> after[i] == MatchButton(Concat(groups)[i], i + 1)
  {
    Concat_Window(groups, t);
    NumberedButtons_Extend(Concat(groups), before, groups[t].1, after);
  }

  /** The outer loop of `cmd_tournaments`: the games of each group in turn,
      numbered from 1 across the groups. */
  method GroupButtons(groups: seq<(string, seq<Match>)>) returns (buttons: seq<Button>)
    requires forall i :: 0 <= i < |Concat(groups)| ==> HasOpponent(Concat(groups)[i])
    ensures |buttons| == |Concat(groups)|
    ensures forall i :: 0 <= i < |buttons| ==> buttons[i] == MatchButton(Concat(groups)[i], i + 1)
  {
    ghost var all := Concat(groups);
    buttons := [];
    var matchIdx := 1;
    var t := 0;
    while t < |groups|
      invariant 0 <= t <= |groups|
      invariant matchIdx == |buttons| + 1
      invariant |buttons| <= |all| && Concat(groups[..t]) == all[..|buttons|]
      invariant forall i :: 0 <= i < |buttons| ==> buttons[i] == MatchButton(all[i], i + 1)
    {
      var games := groups[t].1;
      ghost var before := buttons;
      Concat_Window(groups, t);
      buttons, matchIdx := AddMatchButtons(buttons, games, matchIdx);
      GroupButtons_Step(groups, t, before, buttons);
      t := t + 1;
    }
    assert groups[..t] == groups;
  }

  /** `cmd_tournaments`: the `k`-th match button opens exactly the match that
      `get_match_by_index(k)` returns, and the export button comes last. */
  method CmdTournaments(ds: seq<Match>) returns (buttons: seq<Button>)
    requires ValidMatches(ds)
    ensures |buttons| == |ds| + 1
    ensures forall k :: 1 <= k <= |ds| ==>
      MatchByIndex(ds, k).Some? && HasOpponent(MatchByIndex(ds, k).value) &&
      buttons[k - 1] == MatchButton(MatchByIndex(ds, k).value, k)
    ensures buttons[|ds|] == Button(ExportLabel, ExportTableToken(EncodeTarget(AllTournaments)))
  {
    var all := MatchList(ds);
    assert all == Concat(Tournaments(ds));
    assert forall j :: 0 <= j < |all| ==> all[j] in multiset(ds);
    buttons := GroupButtons(Tournaments(ds));
    buttons := buttons + [Button(ExportLabel, ExportTableToken(EncodeTarget(AllTournaments)))];
  }

  // ---------------------------------------------------------------- /progress

  /** `'📈'`, `'📉'` or `'➡️'`. */
  datatype Arrow = Up | Down | Level

  /** One line of `/progress`: a player's first and last match Rating and the arrow between them. */
  datatype ProgressRow = ProgressRow(player: string, first: real, last: real, arrow: Arrow)

  function ArrowOf(first: real, last: real): Arrow {
    if last > first then Up else if last < first then Down else Level
  }

  function RowPlayers(rows: seq<ProgressRow>): (ns: seq<string>)
    ensures |ns| == |rows| && forall i :: 0 <= i < |rows| ==> ns[i] == rows[i].player
  {
    seq(|rows|, i requires 0 <= i < |rows| => rows[i].player)
  }

  /** A row made from the player's own records: first and last Rating of at least two. */
  ghost predicate RowOf(ds: seq<Match>, r: ProgressRow)
    requires ValidMatches(ds)
  {
    var st := PlayerStats(ds, r.player);
    && |st| >= 2
    && r.first == st[0].rating && r.last == st[|st| - 1].rating
    && r.arrow == ArrowOf(r.first, r.last)
  }

  /** The loop of `cmd_progress` over `players`: a row for each player with at
      least two records, in the players' order. */
  function ProgressOf(ds: seq<Match>, players: seq<string>): (rows: seq<ProgressRow>)
    requires ValidMatches(ds)
    ensures forall i :: 0 <= i < |rows| ==> RowOf(ds, rows[i]) && rows[i].player in players
    ensures forall p :: p in players ==> (p in RowPlayers(rows) <==> |PlayerStats(ds, p)| >= 2)
  {
    if players == [] then []
    else
      var rest := ProgressOf(ds, players[1..]);
      var st := PlayerStats(ds, players[0]);
      if |st| >= 2 then
        var row := ProgressRow(players[0], st[0].rating, st[|st| - 1].rating,
                               ArrowOf(st[0].rating, st[|st| - 1].rating));
        assert RowPlayers([row] + rest) == [players[0]] + RowPlayers(rest);
        [row] + rest
      else rest
  }

  /** The rows keep the order of `players` and name each player at most once, as
      long as `players` lists nobody twice. */
  lemma {:induction false} ProgressOf_Ordered(ds: seq<Match>, players: seq<string>)
    requires ValidMatches(ds) && NoDup(players)
    ensures OrderedIn(players, RowPlayers(ProgressOf(ds, players)))
  {
    if players != [] {
      var tail := players[1..];
      NoDup_Tail(players);
      ProgressOf_Ordered(ds, tail);
      assert RowPlayers(ProgressOf(ds, players)) == RowPlayers(ProgressOf(ds, tail))
          || RowPlayers(ProgressOf(ds, players)) == [players[0]] + RowPlayers(ProgressOf(ds, tail));
      IndexIn_OrderedCons(players, RowPlayers(ProgressOf(ds, players)), RowPlayers(ProgressOf(ds, tail)));
    }
  }

  /** `cmd_progress`: the rows over `get_players()`, in that order and each player
      at most once, and a single chart button. */
  function CmdProgress(ds: seq<Match>): (v: (seq<ProgressRow>, seq<Button>))
    requires ValidMatches(ds)
    ensures forall i :: 0 <= i < |v.0| ==> RowOf(ds, v.0[i]) && v.0[i].player in Players(ds)
    ensures forall p :: p in Players(ds) ==> (p in RowPlayers(v.0) <==> |PlayerStats(ds, p)| >= 2)
    ensures forall i, j :: 0 <= i < j < |v.0| ==>
      IndexIn(Players(ds), v.0[i].player) < IndexIn(Players(ds), v.0[j].player)
    ensures v.1 == [Button("📊 Диаграмма", ProgressChart)]
  {
    Players_Correct(ds);
    ProgressOf_Ordered(ds, Players(ds));
    (ProgressOf(ds, Players(ds)), [Button("📊 Диаграмма", ProgressChart)])
  }

  // ---------------------------------------------------------------- /graph

  /** The keys of a `get_player_stats` record. */
  const RecordKeys: seq<string> := [
    "tournament", "date", "opponent", "K", "D", "ADR", "Rating", "KAST",
    "OpK-D", "MKs", "1vsX", "HS", "A", "A_f", "D_t"
  ]

  /** The value a record holds under `key`, or None when the record has no such key. */
  function RecordField(r: StatRecord, key: string): (f: Option<Value>)
    ensures f.Some? <==> key in RecordKeys
  {
    if key == "tournament" then Some(Str(r.tournament))
    else if key == "date" then Some(Str(r.date))
    else if key == "opponent" then Some(Str(r.opponent))
    else if key == "K" then Some(r.k)
    else if key == "D" then Some(r.d)
    else if key == "ADR" then Some(r.adr)
    else if key == "Rating" then Some(Num(r.rating))
    else if key == "KAST" then Some(r.kast)
    else if key == "OpK-D" then Some(r.opkd)
    else if key == "MKs" then Some(r.mks)
    else if key == "1vsX" then Some(r.clutches)
    else if key == "HS" then Some(r.hs)
    else if key == "A" then Some(r.a)
    else if key == "A_f" then Some(r.af)
    else if key == "D_t" then Some(r.dt)
    else None
  }

  predicate EndsWithPercent(s: string) {
    s != [] && s[|s| - 1] == '%'
  }

  /** `parse_metric`: a string ending in '%' loses every '%' and must convert
      (ValueError otherwise, uncaught); any other value converts or reads as 0. */
  function ParseMetric(v: Value): (r: Result<real>)
    ensures r.Fail? <==> v.Str? && EndsWithPercent(v.s) && ParseFloat(Remove(v.s, '%')).None?
    ensures r.Fail? ==> r.error == ValueError
    ensures !Floatable(v) && !(v.Str? && EndsWithPercent(v.s)) ==> r == Ok(0.0)
  {
    match v
    case Str(s) =>
      if EndsWithPercent(s) then
        (match ParseFloat(Remove(s, '%')) case Some(x) => Ok(x) case None => Fail(ValueError))
      else Ok(ParseFloat(s).GetOr(0.0))
    case Num(x) => Ok(x)
    case Null => Ok(0.0)
  }

  /** Where `parse_metric` and `safe_float` read the same cell, they agree: on
      numbers, on null, and on space-free strings whose only '%' is a final one. */
  lemma ParseMetric_SafeFloat(v: Value)
    requires v.Str? ==> ' ' !in v.s && (EndsWithPercent(v.s) ==> '%' !in v.s[..|v.s| - 1])
    requires v.Str? && !EndsWithPercent(v.s) ==> '%' !in v.s
    requires ParseMetric(v).Ok?
    ensures ParseMetric(v).value == SafeFloat(v)
  {
    if v.Str? {
      var s := v.s;
      if EndsWithPercent(s) {
        Remove_LastPercent(s);
      }
      assert ' ' !in Remove(s, '%');
    }
  }

  lemma Remove_LastPercent(s: string)
    requires EndsWithPercent(s) && '%' !in s[..|s| - 1]
    ensures Remove(s, '%') == s[..|s| - 1]
  {
    var t := s[..|s| - 1];
    assert s == t + [s[|s| - 1]];
    assert [s[|s| - 1]] == "%";
    Remove_Append(t, "%", '%');
    Remove_Single('%');
  }

  /** One point of the graph: the parsed cell, or 0 when the record has no such key. */
  function MetricAt(r: StatRecord, metric: string): (x: Result<real>)
    ensures x.Fail? ==> x.error == ValueError
    ensures metric !in RecordKeys ==> x == Ok(0.0)
  {
    match RecordField(r, metric)
    case None => Ok(0.0)
    case Some(v) => ParseMetric(v)
  }

  /** The metric of each record in turn: its cell through `parse_metric`, or 0
      for a record without that key. */
  function Series(stats: seq<StatRecord>, metric: string): (r: Result<seq<real>>)
    ensures r.Ok? <==> forall i :: 0 <= i < |stats| ==> MetricAt(stats[i], metric).Ok?
    ensures r.Fail? ==> r.error == ValueError
    ensures r.Ok? ==> |r.value| == |stats| && forall i :: 0 <= i < |stats| ==> MetricAt(stats[i], metric) == Ok(r.value[i])
  {
    if stats == [] then Ok([])
    else
      var y :- MetricAt(stats[0], metric);
      var rest :- Series(stats[1..], metric);
      Ok([y] + rest)
  }

  /** The plotted series: dates on the x axis, metric values on the y axis. */
  datatype Plot = Plot(name: string, metric: string, dates: seq<string>, values: seq<real>)

  const PlayerUnknown: string := "Игрок не найден."

  /** The plot of `metric` over the given records, in their order. */
  function PlotOf(name: string, metric: string, st: seq<StatRecord>): (r: Result<Plot>)
    ensures r.Ok? <==> Series(st, metric).Ok?
    ensures r.Fail? ==> r.error == ValueError
    ensures r.Ok? ==>
      && r.value.name == name && r.value.metric == metric
      && |r.value.dates| == |st| == |r.value.values|
      && forall i :: 0 <= i < |st| ==> r.value.dates[i] == st[i].date && MetricAt(st[i], metric) == Ok(r.value.values[i])
  {
    var ys :- Series(st, metric);
    Ok(Plot(name, metric, seq(|st|, i requires 0 <= i < |st| => st[i].date), ys))
  }

  /** The shared body of `cmd_graph` and `graph_callback` once name and metric are known. */
  function GraphOf(ds: seq<Match>, name: string, metric: string): (r: Outcome<Plot>)
    requires ValidMatches(ds)
    ensures r.Reply? <==> PlayerStats(ds, name) == []
    ensures r.Reply? ==> r.message == PlayerUnknown
    ensures r.Crash? ==> r.error == ValueError
    ensures !r.Reply? ==> r == Lift(PlotOf(name, metric, PlayerStats(ds, name)))
  {
    var st := PlayerStats(ds, name);
    if st == [] then Reply(PlayerUnknown) else Lift(PlotOf(name, metric, st))
  }

  /** A metric that is not a record key plots a flat line of zeros, one per match. */
  lemma GraphOf_UnknownMetric(ds: seq<Match>, name: string, metric: string)
    requires ValidMatches(ds)
    requires PlayerStats(ds, name) != [] && metric !in RecordKeys
    ensures GraphOf(ds, name, metric).Shown?
    ensures GraphOf(ds, name, metric).view.values == seq(|PlayerStats(ds, name)|, i => 0.0)
  {
    var st := PlayerStats(ds, name);
    assert forall i :: 0 <= i < |st| ==> MetricAt(st[i], metric) == Ok(0.0);
    var v := GraphOf(ds, name, metric).view.values;
    assert |v| == |st|;
    assert forall i :: 0 <= i < |st| ==> v[i] == 0.0;
  }

  const GraphUsage: string := "Используйте: /graph [ник] [метрика]"

  /** `cmd_graph`: exactly three words, then the graph of the second word's records. */
  function CmdGraph(ds: seq<Match>, text: string): (r: Outcome<Plot>)
    requires ValidMatches(ds)
    ensures |Words(text)| != 3 ==> r == Reply(GraphUsage)
    ensures |Words(text)| == 3 ==> r == GraphOf(ds, Words(text)[1], Words(text)[2])
  {
    var args := Words(text);
    if |args| == 3 then GraphOf(ds, args[1], args[2]) else Reply(GraphUsage)
  }

  // ---------------------------------------------------------------- /history

  /** One logged action; `user_id` may be missing from an entry. */
  datatype HistoryEntry = HistoryEntry(userId: Option<int>, timestamp: string, action: string)

  /** The entries of the history logged for the user, in log order; an entry
      without a user id belongs to nobody. */
  function OwnEntries(history: seq<HistoryEntry>, uid: int): (r: seq<HistoryEntry>)
    ensures forall e :: e in r <==> e in history && e.userId == Some(uid)
    ensures |r| <= |history|
  {
    if history == [] then []
    else (if history[0].userId == Some(uid) then [history[0]] else []) + OwnEntries(history[1..], uid)
  }

  /** The user's entries of two logs one after the other are the entries of each. */
  lemma {:induction false} OwnEntries_Append(h: seq<HistoryEntry>, k: seq<HistoryEntry>, uid: int)
    ensures OwnEntries(h + k, uid) == OwnEntries(h, uid) + OwnEntries(k, uid)
  {
    if h != [] {
      assert (h + k)[1..] == h[1..] + k;
      OwnEntries_Append(h[1..], k, uid);
    } else {
      assert h + k == k;
    }
  }

  /** Logging one more action appends it to the user's entries exactly when it is theirs:
      the entries keep the log's order and multiplicity. */
  lemma OwnEntries_Snoc(h: seq<HistoryEntry>, e: HistoryEntry, uid: int)
    ensures OwnEntries([], uid) == []
    ensures OwnEntries(h + [e], uid) == OwnEntries(h, uid) + (if e.userId == Some(uid) then [e] else [])
  {
    OwnEntries_Append(h, [e], uid);
  }

  function Reverse<T>(s: seq<T>): (r: seq<T>)
    ensures |r| == |s| && forall i :: 0 <= i < |s| ==> r[i] == s[|s| - 1 - i]
  {
    if s == [] then [] else Reverse(s[1..]) + [s[0]]
  }

  const EmptyHistory: string := "История пуста."

  /** `cmd_history` up to the line formatting: `None` for the file stands for a
      history file that cannot be read or parsed. The user's last ten entries,
      newest first, or 'История пуста.'. */
  function CmdHistory(file: Option<seq<HistoryEntry>>, uid: int): (r: Outcome<seq<HistoryEntry>>)
    ensures !r.Crash?
    ensures r.Reply? <==> file.None? || OwnEntries(file.value, uid) == []
    ensures r.Reply? ==> r.message == EmptyHistory
    ensures r.Shown? ==>
      var own := OwnEntries(file.value, uid);
      && |r.view| == (if |own| < 10 then |own| else 10)
      && forall i :: 0 <= i < |r.view| ==> r.view[i] == own[|own| - 1 - i]
  {
    match file
    case None => Reply(EmptyHistory)
    case Some(history) =>
      var own := OwnEntries(history, uid);
      if own == [] then Reply(EmptyHistory)
      else
        var n := if |own| < 10 then |own| else 10;
        Shown(Reverse(own[|own| - n..]))
  }

  /** The user's newest action opens the history, and the history shows at most
      ten of their actions. */
  lemma CmdHistory_Newest(h: seq<HistoryEntry>, e: HistoryEntry, uid: int)
    requires e.userId == Some(uid)
    ensures CmdHistory(Some(h + [e]), uid).Shown?
    ensures CmdHistory(Some(h + [e]), uid).view[0] == e
    ensures |CmdHistory(Some(h + [e]), uid).view| <= 10
  {
    OwnEntries_Snoc(h, e, uid);
  }
}

=== FILE: keyboards.dfy ===
/** The fixed keyboards of `keyboards.py`: the reply menu and the two inline
    keyboards whose buttons carry callback tokens. */
module Keyboards {
  import opened Outcomes
  import opened Tokens

  /** An inline button: the label shown and the callback data it sends. */
  datatype Button = Button(text: string, data: string)

  /** `main_menu()`: the reply-keyboard rows, top to bottom. */
  const MainMenu: seq<seq<string>> := [
    ["👥 Игроки", "🗺\U{FE0F} Карты", "🏆 Турниры", "📈 Прогресс"],
    ["ℹ\U{FE0F} Аббревиатуры", "❓ Помощь"],
    ["🕓 История"],
    ["🔄 Перезапуск (/start)"]
  ]

  /** The labels of a keyboard, row after row. */
  function Flatten(rows: seq<seq<string>>): (ls: seq<string>)
    ensures forall r, l :: r in rows && l in r ==> l in ls
    ensures forall l :: l in ls ==> exists r :: r in rows && l in r
  {
    if rows == [] then []
    else
      var rest := Flatten(rows[1..]);
      assert forall r :: r in rows[1..] ==> r in rows;
      rows[0] + rest
  }

  /** `export_format_keyboard`: format code and label of each choice, in order. */
  const ExportFormats: seq<(string, string)> := [
    ("csv", "📄 CSV"), ("json", "🟫 JSON"), ("xlsx", "📊 Excel"), ("pdf", "📑 PDF")
  ]

  const CancelLabel: string := "❌ Отмена"

  /** One button per format sending `export_tablefmt_{cb}_{fmt}`, then a cancel
      button sending `export_cancel_{cb}`. */
  function ExportFormatKeyboard(cb: string): (kb: seq<Button>)
    ensures |kb| == |ExportFormats| + 1
    ensures forall i :: 0 <= i < |ExportFormats| ==>
      kb[i].text == ExportFormats[i].1 && kb[i].data == ExportFormatToken(cb, ExportFormats[i].0)
    ensures kb[|ExportFormats|] == Button(CancelLabel, ExportCancelToken(cb))
  {
    seq(|ExportFormats|, i requires 0 <= i < |ExportFormats| =>
          Button(ExportFormats[i].1, ExportFormatToken(cb, ExportFormats[i].0)))
    + [Button(CancelLabel, ExportCancelToken(cb))]
  }

  /** Every button of the format menu for `cb` is read back as that same `cb`, with
      the format it names; the cancel button names `cb` too. */
  lemma ExportFormatKeyboard_RoundTrip(cb: string)
    ensures forall i :: 0 <= i < |ExportFormats| ==>
      DecodeExportFormat(ExportFormatKeyboard(cb)[i].data) == Some((cb, ExportFormats[i].0))
    ensures DecodeExportCancel(ExportFormatKeyboard(cb)[|ExportFormats|].data) == cb
  {
    forall i | 0 <= i < |ExportFormats|
      ensures DecodeExportFormat(ExportFormatKeyboard(cb)[i].data) == Some((cb, ExportFormats[i].0))
    {
      assert '_' !in ExportFormats[i].0;
      DecodeExportFormat_Token(cb, ExportFormats[i].0);
    }
    DecodeExportCancel_Token(cb);
  }

  /** `players_chart_keyboard`: metric code and label of each chart, in order. */
  const ChartMetrics: seq<(string, string)> := [
    ("rating", "⭐ Рейтинг"), ("adr", "💥 ADR"), ("kast", "🎯 KAST"),
    ("kd", "⚔\U{FE0F} K/D"), ("hs", "🎯 HS%"), ("opkd", "🚀 OpK-D")
  ]

  /** One button per metric sending `players_chart_{metric}`, then the cancel button. */
  function PlayersChartKeyboard(): (kb: seq<Button>)
    ensures |kb| == |ChartMetrics| + 1
    ensures forall i :: 0 <= i < |ChartMetrics| ==>
      kb[i].text == ChartMetrics[i].1 && kb[i].data == PlayersChartToken(ChartMetrics[i].0)
    ensures kb[|ChartMetrics|] == Button(CancelLabel, PlayersChartCancel)
  {
    seq(|ChartMetrics|, i requires 0 <= i < |ChartMetrics| =>
          Button(ChartMetrics[i].1, PlayersChartToken(ChartMetrics[i].0)))
    + [Button(CancelLabel, PlayersChartCancel)]
  }
}

=== FILE: numbers.dfy ===
/** Python's `int(str)` and a decimal subset of `float(str)`, plus the
    decimal rendering of integers that f-strings such as `f"match_{k}"` use.
    Numbers are exact: `float` is modelled by `real`. */
module Numbers {
  import opened Outcomes
  import opened Text

  predicate IsDigit(c: char) {
    '0' <= c <= '9'
  }

  predicate AllDigits(s: string) {
    forall i :: 0 <= i < |s| ==> IsDigit(s[i])
  }

  function DigitChar(d: nat): (c: char)
    requires d < 10
    ensures IsDigit(c)
  {
    ('0' as int + d) as char
  }

  /** The value of a run of decimal digits; the empty run is 0. */
  function DigitsValue(s: string): nat
    requires AllDigits(s)
  {
    if s == [] then 0
    else 10 * DigitsValue(s[..|s| - 1]) + (s[|s| - 1] as int - '0' as int)
  }

  /** `str(n)` for a non-negative integer. */
  function NatToString(n: nat): (s: string)
    ensures s != [] && AllDigits(s)
  {
    if n < 10 then [DigitChar(n)] else NatToString(n / 10) + [DigitChar(n % 10)]
  }

  /** `str(i)` for any integer: a minus sign, then the digits. */
  function IntToString(i: int): (s: string)
    ensures s != [] && NoSpace(s) && '_' !in s
    ensures i >= 0 ==> AllDigits(s)
    ensures forall c :: c in s ==> IsDigit(c) || c == '-'
  {
    var digits := if i < 0 then NatToString(-i) else NatToString(i);
    assert forall k :: 0 <= k < |digits| ==> IsDigit(digits[k]);
    if i < 0 then "-" + digits else digits
  }

  lemma {:induction false} DigitsValue_NatToString(n: nat)
    ensures DigitsValue(NatToString(n)) == n
  {
    if n >= 10 {
      DigitsValue_NatToString(n / 10);
      var s := NatToString(n);
      assert s[..|s| - 1] == NatToString(n / 10);
    }
  }

  /** Decimal rendering is injective: distinct integers never print alike. */
  lemma NatToString_Injective(m: nat, n: nat)
    requires NatToString(m) == NatToString(n)
    ensures m == n
  {
    DigitsValue_NatToString(m);
    DigitsValue_NatToString(n);
  }

  /** The digit syntax `int()` accepts after the sign: digits, with single
      underscores allowed between two digits (PEP 515). */
  predicate IsDigitRun(s: string) {
    && s != []
    && IsDigit(s[0])
    && IsDigit(s[|s| - 1])
    && (forall i :: 0 <= i < |s| ==> IsDigit(s[i]) || s[i] == '_')
    && (forall i :: 0 <= i < |s| - 1 ==> s[i] == '_' ==> s[i + 1] != '_')
  }

  function DigitRunValue(s: string): nat
    requires IsDigitRun(s)
  {
    var d := Remove(s, '_');
    assert forall x :: x in d ==> IsDigit(x) by {
      forall x | x in d ensures IsDigit(x) {
        assert x in s && x != '_';
        var k :| 0 <= k < |s| && s[k] == x;
      }
    }
    assert AllDigits(d) by {
      forall k | 0 <= k < |d| ensures IsDigit(d[k]) {
        assert d[k] in d;
      }
    }
    DigitsValue(d)
  }

  /** `int(s)`: None where Python raises ValueError. Only the ASCII digits are
      digits here. What is accepted, once stripped, is an optional sign and digit
      groups; a negative value needs the minus sign. */
  function ParseInt(s: string): (r: Option<int>)
    ensures r.Some? ==> Strip(s) != []
  {
    var t := Strip(s);
    if t != [] && (t[0] == '+' || t[0] == '-') then
      var body := t[1..];
      if IsDigitRun(body) then
        var v := DigitRunValue(body);
        Some(if t[0] == '-' then -(v as int) else v as int)
      else None
    else if IsDigitRun(t) then Some(DigitRunValue(t) as int)
    else None
  }

  /** An accepted text holds, once stripped, at least one digit and nothing but a
      sign, digits and underscores; a negative value needs the minus sign. */
  lemma ParseInt_Accepted(s: string)
    requires ParseInt(s).Some?
    ensures HasDigit(Strip(s))
    ensures forall c :: c in Strip(s) ==> IsDigit(c) || c == '_' || c == '+' || c == '-'
    ensures ParseInt(s).value < 0 ==> Strip(s)[0] == '-'
  {
    var t := Strip(s);
    if t != [] && (t[0] == '+' || t[0] == '-') {
      assert t[1..][0] in t;
      assert forall c :: c in t ==> c == t[0] || c in t[1..];
    } else {
      assert t[0] in t;
    }
  }

  lemma DigitRun_NatToString(n: nat)
    ensures IsDigitRun(NatToString(n))
    ensures DigitRunValue(NatToString(n)) == n
  {
    var s := NatToString(n);
    assert forall k :: 0 <= k < |s| ==> s[k] != '_';
    assert '_' !in s;
    DigitsValue_NatToString(n);
  }

  lemma DigitRun_NoSpace(d: string)
    requires IsDigitRun(d)
    ensures NoSpace(d) && NoSpace("-" + d)
  {
    var t := "-" + d;
    assert forall i :: 1 <= i < |t| ==> t[i] == d[i - 1];
  }

  /** A digit run, underscores between digits allowed, reads as its value. */
  lemma ParseInt_Unsigned(d: string)
    requires IsDigitRun(d)
    ensures ParseInt(d) == Some(DigitRunValue(d) as int)
  {
    DigitRun_NoSpace(d);
    assert Strip(d) == d;
  }

  /** A minus sign before a digit run negates its value. */
  lemma ParseInt_Negative(d: string)
    requires IsDigitRun(d)
    ensures ParseInt("-" + d) == Some(-(DigitRunValue(d) as int))
  {
    var t := "-" + d;
    DigitRun_NoSpace(d);
    assert t[1..] == d;
    assert Strip(t) == t;
  }

  /** `int(str(i)) == i`: the decoders recover every integer the encoders print. */
  lemma {:induction false} ParseInt_IntToString(i: int)
    ensures ParseInt(IntToString(i)) == Some(i)
  {
    if i < 0 {
      ParseInt_NegString(-i);
    } else {
      ParseInt_NatString(i);
    }
  }

  lemma ParseInt_NatString(n: nat)
    ensures ParseInt(IntToString(n)) == Some(n)
  {
    var s := IntToString(n);
    assert s == NatToString(n);
    DigitRun_NatToString(n);
    ParseInt_Unsigned(s);
  }

  lemma ParseInt_NegString(n: nat)
    requires n > 0
    ensures ParseInt(IntToString(-(n as int))) == Some(-(n as int))
  {
    var i := -(n as int);
    assert -i == n;
    assert IntToString(i) == "-" + NatToString(n);
    DigitRun_NatToString(n);
    ParseInt_Negative(NatToString(n));
  }

  /** Python's `int` also accepts digit groups joined by a single underscore,
      and reads them as if the underscore were not there. */
  lemma ParseInt_Grouped(x: string, y: string)
    requires x != [] && AllDigits(x) && y != [] && AllDigits(y)
    ensures AllDigits(x + y)
    ensures ParseInt(x + "_" + y) == Some(DigitsValue(x + y) as int)
  {
    var s := x + "_" + y;
    DigitRun_Grouped(x, y);
    ParseInt_Unsigned(s);
    Remove_Grouped(x, y);
  }

  lemma DigitRun_Grouped(x: string, y: string)
    requires x != [] && AllDigits(x) && y != [] && AllDigits(y)
    ensures IsDigitRun(x + "_" + y) && NoSpace(x + "_" + y)
  {
    var s := x + "_" + y;
    assert forall i :: 0 <= i < |s| ==> (i < |x| && s[i] == x[i]) || (i == |x| && s[i] == '_') || (i > |x| && s[i] == y[i - |x| - 1]);
  }

  lemma Remove_Grouped(x: string, y: string)
    requires AllDigits(x) && AllDigits(y)
    ensures Remove(x + "_" + y, '_') == x + y
  {
    assert x + "_" + y == x + ("_" + y);
    Remove_Append(x, "_" + y, '_');
    assert Remove("_" + y, '_') == y by {
      Remove_Append("_", y, '_');
      Remove_Single('_');
      NoUnderscore(y);
    }
    NoUnderscore(x);
  }

  lemma Remove_Single(c: char)
    ensures Remove([c], c) == []
  {
    assert [c][1..] == [];
  }

  lemma NoUnderscore(d: string)
    requires AllDigits(d)
    ensures Remove(d, '_') == d
  {
    assert forall i :: 0 <= i < |d| ==> d[i] != '_';
    assert '_' !in d;
  }

  predicate IsAsciiLetter(c: char) {
    'a' <= c <= 'z' || 'A' <= c <= 'Z'
  }

  /** A text starting with a letter is rejected, whatever follows. */
  lemma ParseInt_Letter(t: string)
    requires t != [] && IsAsciiLetter(t[0])
    ensures ParseInt(t) == None
  {
    assert TrimStart(t) == t;
    TrimEnd_Shape(t);
    assert Strip(t)[0] == t[0];
  }

  function Pow10(n: nat): (r: real)
    ensures r >= 1.0
  {
    if n == 0 then 1.0 else 10.0 * Pow10(n - 1)
  }

  /** A sign-less decimal literal: digits, optionally a point and more digits,
      at least one digit in all. */
  function ParseUnsigned(s: string): Option<real> {
    var i := Find(s, '.');
    var whole := s[..i];
    var frac := if i < |s| then s[i + 1..] else [];
    if AllDigits(whole) && AllDigits(frac) && (whole != [] || frac != []) then
      Some(DigitsValue(whole) as real + DigitsValue(frac) as real / Pow10(|frac|))
    else None
  }

  /** `float(s)` restricted to decimal literals: None where Python raises ValueError. */
  function ParseFloat(s: string): (r: Option<real>)
    ensures r.Some? ==> Strip(s) != []
  {
    var t := Strip(s);
    if t != [] && (t[0] == '+' || t[0] == '-') then
      match ParseUnsigned(t[1..])
      case None => None
      case Some(v) => Some(if t[0] == '-' then -v else v)
    else ParseUnsigned(t)
  }

  lemma ParseUnsigned_Digits(s: string)
    requires s != [] && AllDigits(s)
    ensures ParseUnsigned(s) == Some(DigitsValue(s) as real)
  {
    assert forall k :: 0 <= k < |s| ==> s[k] != '.';
    assert '.' !in s;
    assert s[..|s|] == s;
  }

  /** `float(str(n)) == n` for every integer. */
  lemma {:induction false} ParseFloat_IntToString(i: int)
    ensures ParseFloat(IntToString(i)) == Some(i as real)
  {
    if i < 0 {
      ParseFloat_NegString(-i);
    } else {
      ParseFloat_NatString(i);
    }
  }

  lemma ParseFloat_NatString(n: nat)
    ensures ParseFloat(IntToString(n)) == Some(n as real)
  {
    var s := IntToString(n);
    assert s == NatToString(n);
    assert Strip(s) == s;
    ParseUnsigned_Digits(s);
    DigitsValue_NatToString(n);
  }

  lemma ParseFloat_NegString(n: nat)
    requires n > 0
    ensures ParseFloat(IntToString(-(n as int))) == Some(-(n as real))
  {
    var s := IntToString(-(n as int));
    var d := NatToString(n);
    assert s == "-" + d;
    assert Strip(s) == s;
    assert s[1..] == d;
    ParseUnsigned_Digits(d);
    DigitsValue_NatToString(n);
  }

  predicate HasDigit(s: string) {
    exists c :: c in s && IsDigit(c)
  }

  lemma ParseUnsigned_HasDigit(s: string)
    requires ParseUnsigned(s).Some?
    ensures HasDigit(s)
  {
    var i := Find(s, '.');
    if i > 0 {
      assert IsDigit(s[0]) && s[0] in s;
    } else {
      assert IsDigit(s[1]) && s[1] in s;
    }
  }

  /** Every text the modelled decimal literals accept holds an ASCII decimal digit. */
  lemma ParseFloat_HasDigit(s: string)
    requires ParseFloat(s).Some?
    ensures HasDigit(s)
  {
    var t := Strip(s);
    if t != [] && (t[0] == '+' || t[0] == '-') {
      ParseUnsigned_HasDigit(t[1..]);
      var c :| c in t[1..] && IsDigit(c);
      assert c in t;
    } else {
      ParseUnsigned_HasDigit(t);
    }
  }

  /** `r` is a whole number of hundredths. */
  predicate IsCents(r: real) {
    (r * 100.0).Floor as real == r * 100.0
  }

  /** The whole number of hundredths `round(x, 2)` picks: the nearest one, and
      the even one when `x` lies exactly half-way between two. */
  function RoundCents(x: real): (n: int)
    ensures -0.5 <= n as real - x * 100.0 <= 0.5
  {
    var f := (x * 100.0).Floor;
    var frac := x * 100.0 - f as real;
    if frac < 0.5 then f
    else if frac > 0.5 then f + 1
    else if f % 2 == 0 then f
    else f + 1
  }

  /** Python's `round(x, 2)`, on the exact value of `x`. */
  function Round2(x: real): (r: real)
    ensures IsCents(r)
    ensures -0.005 <= r - x <= 0.005
  {
    var n := RoundCents(x);
    var r := n as real / 100.0;
    assert r * 100.0 == n as real;
    assert (n as real).Floor == n;
    r
  }

  /** Rounding never reverses an order, though it can turn it into a tie. */
  lemma Round2_Monotone(x: real, y: real)
    requires x <= y
    ensures Round2(x) <= Round2(y)
  {
    var fx, fy := (x * 100.0).Floor, (y * 100.0).Floor;
    assert fx <= fy;
    assert RoundCents(x) <= RoundCents(y);
  }

  /** A value that is already a whole number of hundredths is kept. */
  lemma Round2_Cents(x: real)
    requires IsCents(x)
    ensures Round2(x) == x
  {
    assert RoundCents(x) == (x * 100.0).Floor;
  }

  /** Distinct values can round alike: 1.231 and 1.234 both give 1.23, and a
      mean of 0.004 gives 0. */
  lemma Round2_Ties()
    ensures Round2(1.231) == Round2(1.234) == 1.23
    ensures Round2(0.004) == 0.0
  {
    assert (123.1).Floor == 123;
    assert (123.4).Floor == 123;
    assert (0.4).Floor == 0;
  }

  /** Every value strictly within half a hundredth of a whole number of
      hundredths `c` rounds to `c`; only the exact halves are left to the
      half-to-even rule. */
  lemma Round2_Near(x: real, c: real)
    requires IsCents(c)
    requires c - 0.005 < x < c + 0.005
    ensures Round2(x) == c
  {
    var n := (c * 100.0).Floor;
    assert n as real == c * 100.0;
    assert n as real - 0.5 < x * 100.0 < n as real + 0.5;
    if x * 100.0 >= n as real {
      assert (x * 100.0).Floor == n;
    } else {
      assert (x * 100.0).Floor == n - 1;
    }
    assert RoundCents(x) == n;
  }
}

=== FILE: outcomes.dfy ===
/** Result shapes shared by the whole model.

    `Option` is Python's "value or None". `Outcome` is what a chat handler ends
    with: either the view it renders, a fixed user-facing reply (the soft
    "not found" paths), or an unhandled Python exception that the transport
    merely logs. */
module Outcomes {

  datatype Option<+T> = None | Some(value: T) {

    predicate IsFailure() {
      None?
    }

    function PropagateFailure<U>(): Option<U>
      requires None?
    {
      None
    }

    function Extract(): T
      requires Some?
    {
      value
    }

    function GetOr(default: T): T {
      match this
      case Some(v) => v
      case None => default
    }
  }

  /** The exception a handler would raise; only its class is modelled. */
  datatype Exception = ValueError | IndexError | KeyError | TypeError

  /** A Python computation that either yields a value or raises. */
  datatype Result<+T> = Ok(value: T) | Fail(error: Exception) {

    predicate IsFailure() {
      Fail?
    }

    function PropagateFailure<U>(): Result<U>
      requires Fail?
    {
      Fail(error)
    }

    function Extract(): T
      requires Ok?
    {
      value
    }
  }

  datatype Outcome<+T> =
    | Shown(view: T)
    | Reply(message: string)
    | Crash(error: Exception)
  {
    /** A reply or a crash ends the handler early. */
    predicate IsFailure() {
      !Shown?
    }

    function PropagateFailure<U>(): Outcome<U>
      requires !Shown?
    {
      if Reply? then Reply(message) else Crash(error)
    }

    function Extract(): T
      requires Shown?
    {
      view
    }
  }

  /** A raised exception ends the handler; a value goes on. */
  function Lift<T>(r: Result<T>): (o: Outcome<T>)
    ensures o.Shown? <==> r.Ok?
    ensures o.Shown? ==> o.view == r.value
    ensures o.Crash? <==> r.Fail?
    ensures o.Crash? ==> o.error == r.error
  {
    match r
    case Ok(v) => Shown(v)
    case Fail(e) => Crash(e)
  }
}

=== FILE: router.dfy ===
/** The dispatch tables of `bot.py`: which handler a text message or a callback
    query reaches. Handlers are tried in registration order and the first whose
    filter accepts the update handles it. */
module Router {
  import opened Outcomes
  import opened Text
  import opened Numbers
  import opened Tokens
  import opened Keyboards

  // ---------------------------------------------------------------- messages

  /** The message handlers. */
  datatype TextHandler =
    | StartCmd | HelpCmd | AbbrCmd | PlayersCmd | MapsCmd | TournamentsCmd | ProgressCmd
    | PlayerCmd | MapCmd | GraphCmd | AlertCmd | HistoryCmd | UnknownText

  /** The command filter of `commands=[...]`: the first word must start with '/';
      the rest of it up to an '@' is the command, compared in lower case; a mention
      after the '@' must name the bot `me`. */
  function CommandOf(text: string, me: string): (c: Option<string>)
    ensures c.Some? ==> Words(text) != [] && Words(text)[0][0] == '/'
  {
    var ws := Words(text);
    if ws == [] || ws[0][0] != '/' then None
    else
      var w := ws[0][1..];
      var at := Find(w, '@');
      var mention := DropPrefix(w, at + 1);
      if mention != [] && Lower(mention) != Lower(me) then None
      else Some(Lower(w[..at]))
  }

  /** The message table: commands first, then the `/map` prefix, then the menu labels. */
  function RouteText(text: string, me: string): TextHandler {
    var cmd := CommandOf(text, me);
    if cmd.Some? && CommandRoute(cmd.value).Some? then CommandRoute(cmd.value).value
    else if StartsWith(text, "/map") then MapCmd
    else if cmd.Some? && LateCommandRoute(cmd.value).Some? then LateCommandRoute(cmd.value).value
    else AliasRoute(text)
  }

  /** The commands registered before the `/map` prefix filter. */
  function CommandRoute(c: string): Option<TextHandler> {
    if c == "start" then Some(StartCmd)
    else if c == "help" then Some(HelpCmd)
    else if c == "abbr" then Some(AbbrCmd)
    else if c == "players" then Some(PlayersCmd)
    else if c == "maps" then Some(MapsCmd)
    else if c == "tournaments" then Some(TournamentsCmd)
    else if c == "progress" then Some(ProgressCmd)
    else if c == "player" then Some(PlayerCmd)
    else None
  }

  /** The commands registered after it. */
  function LateCommandRoute(c: string): Option<TextHandler> {
    if c == "graph" then Some(GraphCmd)
    else if c == "alert" then Some(AlertCmd)
    else if c == "history" then Some(HistoryCmd)
    else None
  }

  /** The exact menu texts, then the fallback. */
  function AliasRoute(text: string): TextHandler {
    if text == "👥 Игроки" then PlayersCmd
    else if text == "🗺\U{FE0F} Карты" then MapsCmd
    else if text == "🏆 Турниры" then TournamentsCmd
    else if text == "📈 Прогресс" then ProgressCmd
    else if text == "ℹ\U{FE0F} Аббревиатуры" then AbbrCmd
    else if text == "❓ Помощь" then HelpCmd
    else if text == "🔄 Перезапуск (/start)" then StartCmd
    else if text == "🕓 История" then HistoryCmd
    else UnknownText
  }

  /** A first word `w` starting with '/' and without '@' names the command `w[1..]` in lower case. */
  lemma CommandOf_Word(w: string, rest: string, me: string)
    requires w != [] && w[0] == '/' && NoSpace(w) && '@' !in w
    ensures CommandOf(w, me) == Some(Lower(w[1..]))
    ensures CommandOf(w + " " + rest, me) == Some(Lower(w[1..]))
  {
    Words_Single(w);
    Words_Cons(w, rest);
    assert '@' !in w[1..];
    assert w[1..][..|w| - 1] == w[1..];
  }

  /** A text whose first character is neither whitespace nor '/' is no command, and
      goes to the menu labels. */
  lemma RouteText_Plain(text: string, me: string)
    requires text != [] && !IsSpace(text[0]) && text[0] != '/'
    ensures RouteText(text, me) == AliasRoute(text)
  {
    Words_FirstChar(text, '/');
    StartsWith_Differs(text, "/map", 0);
  }

  /** Each label of the first row of the main menu reaches the handler of the
      command it stands for. */
  lemma RouteText_MenuTop(me: string)
    ensures RouteText(MainMenu[0][0], me) == PlayersCmd
    ensures RouteText(MainMenu[0][1], me) == MapsCmd
    ensures RouteText(MainMenu[0][2], me) == TournamentsCmd
    ensures RouteText(MainMenu[0][3], me) == ProgressCmd
  {
    assert RouteText(MainMenu[0][0], me) == PlayersCmd by { RouteText_Plain(MainMenu[0][0], me); }
    assert RouteText(MainMenu[0][1], me) == MapsCmd by { RouteText_Plain(MainMenu[0][1], me); }
    assert RouteText(MainMenu[0][2], me) == TournamentsCmd by { RouteText_Plain(MainMenu[0][2], me); }
    assert RouteText(MainMenu[0][3], me) == ProgressCmd by { RouteText_Plain(MainMenu[0][3], me); }
  }

  /** So does each label of the second row. */
  lemma RouteText_MenuHelp(me: string)
    ensures RouteText(MainMenu[1][0], me) == AbbrCmd
    ensures RouteText(MainMenu[1][1], me) == HelpCmd
  {
    assert RouteText(MainMenu[1][0], me) == AbbrCmd by { RouteText_Plain(MainMenu[1][0], me); }
    assert RouteText(MainMenu[1][1], me) == HelpCmd by { RouteText_Plain(MainMenu[1][1], me); }
  }

  /** And the single labels of the last two rows; the restart label mentions
      `/start` but is matched as plain text. */
  lemma RouteText_MenuLast(me: string)
    ensures RouteText(MainMenu[2][0], me) == HistoryCmd
    ensures RouteText(MainMenu[3][0], me) == StartCmd
  {
    assert RouteText(MainMenu[2][0], me) == HistoryCmd by { RouteText_Plain(MainMenu[2][0], me); }
    assert RouteText(MainMenu[3][0], me) == StartCmd by { RouteText_Plain(MainMenu[3][0], me); }
  }

  /** `/maps` is registered before the `/map` prefix and reaches the map list. */
  lemma RouteText_Maps(rest: string, me: string)
    ensures RouteText("/maps" + " " + rest, me) == MapsCmd
  {
    CommandOf_Maps(rest, me);
    RouteText_MapsCommand("/maps" + " " + rest, me);
  }

  lemma CommandOf_Maps(rest: string, me: string)
    ensures CommandOf("/maps" + " " + rest, me) == Some("maps")
  {
    CommandOf_Word("/maps", rest, me);
    assert Lower("maps") == "maps";
  }

  /** Any text naming the command `maps` reaches the map list. */
  lemma RouteText_MapsCommand(text: string, me: string)
    requires CommandOf(text, me) == Some("maps")
    ensures RouteText(text, me) == MapsCmd
  {
    assert CommandRoute("maps") == Some(MapsCmd);
  }

  /** Commands ignore case, so `/MAPS` reaches the map list too. */
  lemma RouteText_MapsUpper(me: string)
    ensures RouteText("/MAPS", me) == MapsCmd
  {
    CommandOf_MapsUpper(me);
    RouteText_MapsCommand("/MAPS", me);
  }

  lemma CommandOf_MapsUpper(me: string)
    ensures CommandOf("/MAPS", me) == Some("maps")
  {
    CommandOf_Word("/MAPS", "", me);
    assert Lower("MAPS") == "maps";
  }

  /** `/map <name>` reaches the single-map command. */
  lemma RouteText_Map(rest: string, me: string)
    ensures RouteText("/map" + " " + rest, me) == MapCmd
  {
    CommandOf_Map(rest, me);
    MapPrefix_Map(rest);
    RouteText_MapCommand("/map" + " " + rest, me);
  }

  lemma CommandOf_Map(rest: string, me: string)
    ensures CommandOf("/map" + " " + rest, me) == Some("map")
  {
    CommandOf_Word("/map", rest, me);
    assert Lower("map") == "map";
  }

  lemma MapPrefix_Map(rest: string)
    ensures StartsWith("/map" + " " + rest, "/map")
  {
    assert ("/map" + " " + rest)[..4] == "/map";
  }

  /** A text starting with `/map` that names the command `map` reaches the map command. */
  lemma RouteText_MapCommand(text: string, me: string)
    requires CommandOf(text, me) == Some("map") && StartsWith(text, "/map")
    ensures RouteText(text, me) == MapCmd
  {
    assert CommandRoute("map") == None;
  }

  /** No menu label starts with '/', so a slash text is never taken for one. */
  lemma AliasRoute_Slash(text: string)
    requires text != [] && text[0] == '/'
    ensures AliasRoute(text) == UnknownText
  {
    NotLabel(text, "👥 Игроки");
    NotLabel(text, "🗺\U{FE0F} Карты");
    NotLabel(text, "🏆 Турниры");
    NotLabel(text, "📈 Прогресс");
    NotLabel(text, "ℹ\U{FE0F} Аббревиатуры");
    NotLabel(text, "❓ Помощь");
    NotLabel(text, "🔄 Перезапуск (/start)");
    NotLabel(text, "🕓 История");
  }

  /** A text differs from a label whose first character differs from its own. */
  lemma NotLabel(text: string, l: string)
    requires text != [] && l != [] && text[0] != l[0]
    ensures text != l
  {
  }

  /** The `/map` prefix test does not ignore case: `/Map <name>` is read as the
      command `map`, which is not registered, and matches no handler but the fallback. */
  lemma RouteText_CapitalMap(rest: string, me: string)
    ensures RouteText("/Map" + " " + rest, me) == UnknownText
  {
    CommandOf_CapitalMap(rest, me);
    MapPrefix_CapitalMap(rest);
    RouteText_Unregistered("/Map" + " " + rest, me);
  }

  lemma CommandOf_CapitalMap(rest: string, me: string)
    ensures CommandOf("/Map" + " " + rest, me) == Some("map")
  {
    CommandOf_Word("/Map", rest, me);
    assert Lower("Map") == "map";
  }

  lemma MapPrefix_CapitalMap(rest: string)
    ensures !StartsWith("/Map" + " " + rest, "/map")
    ensures ("/Map" + " " + rest)[0] == '/'
  {
    var t := "/Map" + " " + rest;
    assert t[1] == 'M';
    StartsWith_Differs(t, "/map", 1);
  }

  /** A slash text naming `map` without the lower-case `/map` prefix reaches only the fallback. */
  lemma RouteText_Unregistered(text: string, me: string)
    requires CommandOf(text, me) == Some("map") && !StartsWith(text, "/map")
    requires text != [] && text[0] == '/'
    ensures RouteText(text, me) == UnknownText
  {
    assert CommandRoute("map") == None && LateCommandRoute("map") == None;
    RouteText_Fallback(text, me, "map");
    AliasRoute_Slash(text);
  }

  /** A command registered nowhere, outside the `/map` prefix, falls through to the menu labels. */
  lemma RouteText_Fallback(text: string, me: string, c: string)
    requires CommandOf(text, me) == Some(c) && CommandRoute(c).None? && LateCommandRoute(c).None?
    requires !StartsWith(text, "/map")
    ensures RouteText(text, me) == AliasRoute(text)
  {
  }

  // ---------------------------------------------------------------- callbacks

  /** The callback handlers; `Unhandled` when no filter accepts the data. */
  datatype CallbackHandler =
    | PlayerMatchH | PlayerStatH | BackPlayersH | ShowMapH | BackMapsH | MatchInfoH
    | BackTournamentsH | MatchMapH | MatchMapSideH | ChartMenuH | ChartBuildH | ChartCancelH
    | ProgressChartH | GraphH | ExportChooseH | ExportCancelH | ExportSendH | Unhandled

  /** The callback table, in registration order. */
  function RouteCallback(data: string): CallbackHandler {
    if StartsWith(data, "player_match_") then PlayerMatchH
    else if StartsWith(data, "playerstat_") then PlayerStatH
    else if data == BackPlayers then BackPlayersH
    else if StartsWith(data, "show_map_") then ShowMapH
    else if data == BackMaps then BackMapsH
    else if StartsWith(data, "match_") && !StartsWith(data, "matchmap_") then MatchInfoH
    else if data == BackTournaments then BackTournamentsH
    else if StartsWith(data, "matchmap_") && !StartsWith(data, "matchmap_side_") then MatchMapH
    else if StartsWith(data, "matchmap_side_") then MatchMapSideH
    else if data == PlayersChart then ChartMenuH
    else if StartsWith(data, "players_chart_") && data != PlayersChartCancel then ChartBuildH
    else if data == PlayersChartCancel then ChartCancelH
    else if data == ProgressChart then ProgressChartH
    else if StartsWith(data, "graph_") then GraphH
    else if StartsWith(data, "export_table_") then ExportChooseH
    else if data != [] && StartsWith(data, "export_cancel") then ExportCancelH
    else if StartsWith(data, "export_tablefmt_") then ExportSendH
    else Unhandled
  }

  /** The `not matchmap_` guard on `match_` can never fire: the two prefixes differ
      at their sixth character. */
  lemma MatchPrefix_ExcludesMatchMap(data: string)
    requires StartsWith(data, "match_")
    ensures !StartsWith(data, "matchmap_")
  {
    assert data[5] == '_';
    StartsWith_Differs(data, "matchmap_", 5);
  }

  /** What a first character rules out: every prefix and exact text of the table
      that starts with another character. */
  lemma Route_FirstChar(data: string)
    requires data != []
    ensures data[0] != 'p' ==>
      && !StartsWith(data, "player_match_") && !StartsWith(data, "playerstat_")
      && !StartsWith(data, "players_chart_") && data != PlayersChart && data != PlayersChartCancel
      && data != ProgressChart
    ensures data[0] != 'b' ==> data != BackPlayers && data != BackMaps && data != BackTournaments
    ensures data[0] != 's' ==> !StartsWith(data, "show_map_")
    ensures data[0] != 'm' ==>
      !StartsWith(data, "match_") && !StartsWith(data, "matchmap_") && !StartsWith(data, "matchmap_side_")
    ensures data[0] != 'g' ==> !StartsWith(data, "graph_")
    ensures data[0] != 'e' ==>
      !StartsWith(data, "export_table_") && !StartsWith(data, "export_cancel") && !StartsWith(data, "export_tablefmt_")
  {
    if data[0] != 'p' {
      StartsWith_Differs(data, "player_match_", 0);
      StartsWith_Differs(data, "playerstat_", 0);
      StartsWith_Differs(data, "players_chart_", 0);
      assert PlayersChart[0] == 'p' && PlayersChartCancel[0] == 'p' && ProgressChart[0] == 'p';
    }
    if data[0] != 'b' {
      assert BackPlayers[0] == 'b' && BackMaps[0] == 'b' && BackTournaments[0] == 'b';
    }
    if data[0] != 's' {
      StartsWith_Differs(data, "show_map_", 0);
    }
    if data[0] != 'm' {
      StartsWith_Differs(data, "match_", 0);
      StartsWith_Differs(data, "matchmap_", 0);
      StartsWith_Differs(data, "matchmap_side_", 0);
    }
    if data[0] != 'g' {
      StartsWith_Differs(data, "graph_", 0);
    }
    if data[0] != 'e' {
      StartsWith_Differs(data, "export_table_", 0);
      StartsWith_Differs(data, "export_cancel", 0);
      StartsWith_Differs(data, "export_tablefmt_", 0);
    }
  }

  /** A prefix fixes the characters it covers. */
  lemma StartsWith_At(s: string, p: string, i: nat)
    requires StartsWith(s, p) && i < |p|
    ensures s[i] == p[i]
  {
    assert s[..|p|][i] == s[i];
  }

  // Each prefix registered in the table reaches its own handler: no filter before
  // it accepts the same data.

  lemma Route_PlayerStat(data: string)
    requires StartsWith(data, "playerstat_")
    ensures RouteCallback(data) == PlayerStatH
  {
    StartsWith_At(data, "playerstat_", 6);
    StartsWith_Differs(data, "player_match_", 6);
  }

  lemma Route_ShowMap(data: string)
    requires StartsWith(data, "show_map_")
    ensures RouteCallback(data) == ShowMapH
  {
    StartsWith_At(data, "show_map_", 0);
    Route_FirstChar(data);
  }

  lemma Route_MatchInfo(data: string)
    requires StartsWith(data, "match_")
    ensures RouteCallback(data) == MatchInfoH
  {
    StartsWith_At(data, "match_", 0);
    Route_FirstChar(data);
    MatchPrefix_ExcludesMatchMap(data);
  }

  lemma Route_MatchMap(data: string)
    requires StartsWith(data, "matchmap_") && !StartsWith(data, "matchmap_side_")
    ensures RouteCallback(data) == MatchMapH
  {
    StartsWith_At(data, "matchmap_", 0);
    StartsWith_At(data, "matchmap_", 5);
    Route_FirstChar(data);
    StartsWith_Differs(data, "match_", 5);
  }

  lemma Route_MatchMapSide(data: string)
    requires StartsWith(data, "matchmap_side_")
    ensures RouteCallback(data) == MatchMapSideH
  {
    StartsWith_At(data, "matchmap_side_", 0);
    StartsWith_At(data, "matchmap_side_", 5);
    Route_FirstChar(data);
    StartsWith_Differs(data, "match_", 5);
    assert data[..9] == data[..14][..9];
  }

  lemma Route_ChartBuild(data: string)
    requires StartsWith(data, "players_chart_") && data != PlayersChartCancel
    ensures RouteCallback(data) == ChartBuildH
  {
    StartsWith_At(data, "players_chart_", 0);
    StartsWith_At(data, "players_chart_", 6);
    StartsWith_At(data, "players_chart_", 7);
    Route_FirstChar(data);
    StartsWith_Differs(data, "player_match_", 6);
    StartsWith_Differs(data, "playerstat_", 7);
    assert |PlayersChart| < |data|;
  }

  lemma Route_Graph(data: string)
    requires StartsWith(data, "graph_")
    ensures RouteCallback(data) == GraphH
  {
    StartsWith_At(data, "graph_", 0);
    Route_FirstChar(data);
  }

  lemma Route_ExportChoose(data: string)
    requires StartsWith(data, "export_table_")
    ensures RouteCallback(data) == ExportChooseH
  {
    StartsWith_At(data, "export_table_", 0);
    Route_FirstChar(data);
  }

  /** The export-cancel filter tests `export_cancel` without the trailing
      underscore. */
  lemma Route_ExportCancel(data: string)
    requires StartsWith(data, "export_cancel")
    ensures RouteCallback(data) == ExportCancelH
  {
    StartsWith_At(data, "export_cancel", 0);
    StartsWith_At(data, "export_cancel", 7);
    Route_FirstChar(data);
    StartsWith_Differs(data, "export_table_", 7);
  }

  lemma Route_ExportSend(data: string)
    requires StartsWith(data, "export_tablefmt_")
    ensures RouteCallback(data) == ExportSendH
  {
    StartsWith_At(data, "export_tablefmt_", 0);
    StartsWith_At(data, "export_tablefmt_", 7);
    StartsWith_At(data, "export_tablefmt_", 12);
    Route_FirstChar(data);
    StartsWith_Differs(data, "export_table_", 12);
    StartsWith_Differs(data, "export_cancel", 7);
  }

  /** The buttons of each view reach their own handlers. */
  lemma RouteCallback_PlayerTokens(name: string, idx: int)
    ensures RouteCallback(PlayerMatchToken(name, idx)) == PlayerMatchH
    ensures RouteCallback(PlayerStatToken(name)) == PlayerStatH
    ensures RouteCallback(ShowMapToken(name)) == ShowMapH
  {
    assert StartsWith(PlayerMatchToken(name, idx), "player_match_") by {
      var rest := [name, IntToString(idx)];
      assert ["player", "match", name, IntToString(idx)] == ["player", "match"] + rest;
      Join_Front2("player", "match", rest);
      assert "player" + "_" + "match" + "_" == "player_match_";
      DropPrefix_Concat("player_match_", Join(rest, '_'));
    }
    DropPrefix_Concat("playerstat_", name);
    Route_PlayerStat(PlayerStatToken(name));
    DropPrefix_Concat("show_map_", name);
    Route_ShowMap(ShowMapToken(name));
  }

  lemma RouteCallback_MatchTokens(k: int, i: int, side: string)
    ensures RouteCallback(MatchToken(k)) == MatchInfoH
    ensures RouteCallback(MatchMapToken(k, i)) == MatchMapH
    ensures RouteCallback(MatchMapSideToken(k, i, side)) == MatchMapSideH
  {
    RouteCallback_MatchToken(k);
    RouteCallback_MatchMapToken(k, i);
    RouteCallback_MatchMapSideToken(k, i, side);
  }

  lemma RouteCallback_MatchToken(k: int)
    ensures RouteCallback(MatchToken(k)) == MatchInfoH
  {
    var dk := IntToString(k);
    assert StartsWith(MatchToken(k), "match_") by {
      Join_Front1("match", [dk]);
      assert ["match"] + [dk] == ["match", dk];
      assert "match" + "_" == "match_";
      DropPrefix_Concat("match_", Join([dk], '_'));
    }
    Route_MatchInfo(MatchToken(k));
  }

  lemma RouteCallback_MatchMapToken(k: int, i: int)
    ensures RouteCallback(MatchMapToken(k, i)) == MatchMapH
  {
    var dk := IntToString(k);
    var di := IntToString(i);
    var b := MatchMapToken(k, i);
    assert StartsWith(b, "matchmap_") && b[9] == dk[0] by {
      Join_Front1("matchmap", [dk, di]);
      assert ["matchmap"] + [dk, di] == ["matchmap", dk, di];
      Join_Cons(dk, [di], '_');
      assert [dk] + [di] == [dk, di];
      assert Join([dk, di], '_')[0] == dk[0];
      assert "matchmap" + "_" == "matchmap_";
      DropPrefix_Concat("matchmap_", Join([dk, di], '_'));
    }
    assert !StartsWith(b, "matchmap_side_") by {
      assert dk[0] in dk;
      StartsWith_Differs(b, "matchmap_side_", 9);
    }
    Route_MatchMap(b);
  }

  lemma RouteCallback_MatchMapSideToken(k: int, i: int, side: string)
    ensures RouteCallback(MatchMapSideToken(k, i, side)) == MatchMapSideH
  {
    var dk := IntToString(k);
    var di := IntToString(i);
    assert StartsWith(MatchMapSideToken(k, i, side), "matchmap_side_") by {
      var rest := [dk, di, side];
      assert ["matchmap", "side", dk, di, side] == ["matchmap", "side"] + rest;
      Join_Front2("matchmap", "side", rest);
      assert "matchmap" + "_" + "side" + "_" == "matchmap_side_";
      DropPrefix_Concat("matchmap_side_", Join(rest, '_'));
    }
    Route_MatchMapSide(MatchMapSideToken(k, i, side));
  }

  lemma RouteCallback_ChartTokens(metric: string, name: string)
    requires metric != "cancel"
    ensures RouteCallback(PlayersChartToken(metric)) == ChartBuildH
    ensures RouteCallback(GraphToken(name, metric)) == GraphH
  {
    var a := PlayersChartToken(metric);
    DropPrefix_Concat("players_chart_", metric);
    DropPrefix_Concat("players_chart_", "cancel");
    assert PlayersChartCancel == "players_chart_" + "cancel";
    Route_ChartBuild(a);
    assert StartsWith(GraphToken(name, metric), "graph_") by {
      Join_Front1("graph", [name, metric]);
      assert ["graph"] + [name, metric] == ["graph", name, metric];
      assert "graph" + "_" == "graph_";
      DropPrefix_Concat("graph_", Join([name, metric], '_'));
    }
    Route_Graph(GraphToken(name, metric));
  }

  /** The fixed chart buttons reach their handlers; the cancel button of the chart
      menu is caught by its exact-text filter, not by the `players_chart_` prefix. */
  lemma RouteCallback_Charts()
    ensures RouteCallback(PlayersChart) == ChartMenuH
    ensures RouteCallback(PlayersChartCancel) == ChartCancelH
    ensures RouteCallback(ProgressChart) == ProgressChartH
  {
    RouteCallback_PlayersChart();
    RouteCallback_PlayersChartCancel();
    RouteCallback_ProgressChart();
  }

  lemma RouteCallback_PlayersChart()
    ensures RouteCallback(PlayersChart) == ChartMenuH
  {
    var a := PlayersChart;
    assert a[0] == 'p' && a[6] == 's' && a[7] == '_';
    Route_FirstChar(a);
    StartsWith_Differs(a, "player_match_", 6);
    StartsWith_Differs(a, "playerstat_", 7);
  }

  lemma RouteCallback_PlayersChartCancel()
    ensures RouteCallback(PlayersChartCancel) == ChartCancelH
  {
    var b := PlayersChartCancel;
    assert b[0] == 'p' && b[6] == 's' && b[7] == '_';
    Route_FirstChar(b);
    StartsWith_Differs(b, "player_match_", 6);
    StartsWith_Differs(b, "playerstat_", 7);
  }

  lemma RouteCallback_ProgressChart()
    ensures RouteCallback(ProgressChart) == ProgressChartH
  {
    var c := ProgressChart;
    assert c[0] == 'p' && c[1] == 'r';
    Route_FirstChar(c);
    StartsWith_Differs(c, "player_match_", 1);
    StartsWith_Differs(c, "playerstat_", 1);
    StartsWith_Differs(c, "players_chart_", 1);
  }

  lemma RouteCallback_ExportTokens(cb: string, fmt: string)
    ensures RouteCallback(ExportTableToken(cb)) == ExportChooseH
    ensures RouteCallback(ExportCancelToken(cb)) == ExportCancelH
    ensures RouteCallback(ExportFormatToken(cb, fmt)) == ExportSendH
  {
    assert RouteCallback(ExportTableToken(cb)) == ExportChooseH by {
      DropPrefix_Concat("export_table_", cb);
      Route_ExportChoose(ExportTableToken(cb));
    }
    assert RouteCallback(ExportCancelToken(cb)) == ExportCancelH by {
      assert StartsWith(ExportCancelToken(cb), "export_cancel") by {
        DropPrefix_Concat("export_cancel_", cb);
        assert ExportCancelToken(cb)[..13] == "export_cancel";
      }
      Route_ExportCancel(ExportCancelToken(cb));
    }
    assert RouteCallback(ExportFormatToken(cb, fmt)) == ExportSendH by {
      assert StartsWith(ExportFormatToken(cb, fmt), "export_tablefmt_") by {
        assert ExportFormatToken(cb, fmt) == "export_tablefmt_" + (cb + "_" + fmt);
        DropPrefix_Concat("export_tablefmt_", cb + "_" + fmt);
      }
      Route_ExportSend(ExportFormatToken(cb, fmt));
    }
  }

  /** Every button of the export-format keyboard reaches the export handlers: the
      formats the sender, the last one the cancel handler. */
  lemma RouteCallback_ExportKeyboard(cb: string)
    ensures forall j :: 0 <= j < |ExportFormats| ==> RouteCallback(ExportFormatKeyboard(cb)[j].data) == ExportSendH
    ensures RouteCallback(ExportFormatKeyboard(cb)[|ExportFormats|].data) == ExportCancelH
  {
    var kb := ExportFormatKeyboard(cb);
    forall j | 0 <= j < |ExportFormats|
      ensures RouteCallback(kb[j].data) == ExportSendH
    {
      assert kb[j].data == ExportFormatToken(cb, ExportFormats[j].0);
      RouteCallback_ExportTokens(cb, ExportFormats[j].0);
    }
    assert kb[|ExportFormats|].data == ExportCancelToken(cb);
    RouteCallback_ExportTokens(cb, "");
  }

  /** Every button of the players-chart keyboard reaches the chart builder, and its
      cancel button the chart-cancel handler. */
  lemma RouteCallback_ChartKeyboard()
    ensures forall j :: 0 <= j < |ChartMetrics| ==> RouteCallback(PlayersChartKeyboard()[j].data) == ChartBuildH
    ensures RouteCallback(PlayersChartKeyboard()[|ChartMetrics|].data) == ChartCancelH
  {
    var kb := PlayersChartKeyboard();
    forall j | 0 <= j < |ChartMetrics|
      ensures RouteCallback(kb[j].data) == ChartBuildH
    {
      assert kb[j].data == PlayersChartToken(ChartMetrics[j].0);
      RouteCallback_ChartTokens(ChartMetrics[j].0, "");
    }
    RouteCallback_Charts();
  }

  /** The export-cancel filter tests `export_cancel` without the underscore, so the
      bare text reaches the cancel handler too. */
  lemma RouteCallback_BareCancel()
    ensures RouteCallback("export_cancel") == ExportCancelH
  {
    Route_ExportCancel("export_cancel");
  }

  // ---------------------------------------------------------------- filters

  /** The filter of each callback registration, read on its own. */
  predicate Accepts(h: CallbackHandler, data: string) {
    match h
    case PlayerMatchH => StartsWith(data, "player_match_")
    case PlayerStatH => StartsWith(data, "playerstat_")
    case BackPlayersH => data == BackPlayers
    case ShowMapH => StartsWith(data, "show_map_")
    case BackMapsH => data == BackMaps
    case MatchInfoH => StartsWith(data, "match_") && !StartsWith(data, "matchmap_")
    case BackTournamentsH => data == BackTournaments
    case MatchMapH => StartsWith(data, "matchmap_") && !StartsWith(data, "matchmap_side_")
    case MatchMapSideH => StartsWith(data, "matchmap_side_")
    case ChartMenuH => data == PlayersChart
    case ChartBuildH => StartsWith(data, "players_chart_") && data != PlayersChartCancel
    case ChartCancelH => data == PlayersChartCancel
    case ProgressChartH => data == ProgressChart
    case GraphH => StartsWith(data, "graph_")
    case ExportChooseH => StartsWith(data, "export_table_")
    case ExportCancelH => data != [] && StartsWith(data, "export_cancel")
    case ExportSendH => StartsWith(data, "export_tablefmt_")
    case Unhandled => false
  }

  /** The registrations of the callback table, in order. */
  const Registrations: seq<CallbackHandler> := [
    PlayerMatchH, PlayerStatH, BackPlayersH, ShowMapH, BackMapsH, MatchInfoH,
    BackTournamentsH, MatchMapH, MatchMapSideH, ChartMenuH, ChartBuildH, ChartCancelH,
    ProgressChartH, GraphH, ExportChooseH, ExportCancelH, ExportSendH
  ]

  /** First-match dispatch over any list of registrations. */
  function FirstAccepting(order: seq<CallbackHandler>, data: string): (h: CallbackHandler)
    ensures h != Unhandled ==> h in order && Accepts(h, data)
    ensures h == Unhandled ==> forall k :: 0 <= k < |order| ==> !Accepts(order[k], data)
  {
    if order == [] then Unhandled
    else if Accepts(order[0], data) then order[0]
    else
      var h := FirstAccepting(order[1..], data);
      assert forall k :: 1 <= k < |order| ==> order[k] == order[1..][k - 1];
      h
  }

  /** The length and the characters each filter pins down. */
  predicate Fingerprint(h: CallbackHandler, data: string) {
    match h
    case PlayerMatchH => |data| >= 13 && data[0] == 'p' && data[1] == 'l' && data[6] == '_'
    case PlayerStatH => |data| >= 11 && data[0] == 'p' && data[1] == 'l' && data[6] == 's' && data[7] == 't'
    case BackPlayersH => |data| == 12 && data[0] == 'b'
    case ShowMapH => |data| >= 9 && data[0] == 's'
    case BackMapsH => |data| == 9 && data[0] == 'b'
    case MatchInfoH => |data| >= 6 && data[0] == 'm' && data[5] == '_'
    case BackTournamentsH => |data| == 16 && data[0] == 'b'
    case MatchMapH => |data| >= 9 && data[0] == 'm' && data[5] == 'm' && !StartsWith(data, "matchmap_side_")
    case MatchMapSideH => |data| >= 14 && data[0] == 'm' && data[5] == 'm' && StartsWith(data, "matchmap_side_")
    case ChartMenuH => |data| == 13 && data[0] == 'p' && data[1] == 'l' && data[6] == 's' && data[7] == '_'
    case ChartBuildH =>
      |data| >= 14 && data[0] == 'p' && data[1] == 'l' && data[6] == 's' && data[7] == '_' && data != PlayersChartCancel
    case ChartCancelH =>
      |data| == 20 && data[0] == 'p' && data[1] == 'l' && data[6] == 's' && data[7] == '_' && data == PlayersChartCancel
    case ProgressChartH => |data| == 14 && data[0] == 'p' && data[1] == 'r'
    case GraphH => |data| >= 6 && data[0] == 'g'
    case ExportChooseH => |data| >= 13 && data[0] == 'e' && data[7] == 't' && data[12] == '_'
    case ExportCancelH => |data| >= 13 && data[0] == 'e' && data[7] == 'c'
    case ExportSendH => |data| >= 16 && data[0] == 'e' && data[7] == 't' && data[12] == 'f'
    case Unhandled => false
  }

  lemma Accepts_Fingerprint(h: CallbackHandler, data: string)
    requires Accepts(h, data)
    ensures Fingerprint(h, data)
  {
    match h
    case PlayerMatchH =>
      StartsWith_At(data, "player_match_", 0); StartsWith_At(data, "player_match_", 1);
      StartsWith_At(data, "player_match_", 6);
    case PlayerStatH =>
      StartsWith_At(data, "playerstat_", 0); StartsWith_At(data, "playerstat_", 1);
      StartsWith_At(data, "playerstat_", 6); StartsWith_At(data, "playerstat_", 7);
    case ShowMapH => StartsWith_At(data, "show_map_", 0);
    case MatchInfoH => StartsWith_At(data, "match_", 0); StartsWith_At(data, "match_", 5);
    case MatchMapH => StartsWith_At(data, "matchmap_", 0); StartsWith_At(data, "matchmap_", 5);
    case MatchMapSideH => StartsWith_At(data, "matchmap_side_", 0); StartsWith_At(data, "matchmap_side_", 5);
    case ChartBuildH =>
      StartsWith_At(data, "players_chart_", 0); StartsWith_At(data, "players_chart_", 1);
      StartsWith_At(data, "players_chart_", 6); StartsWith_At(data, "players_chart_", 7);
    case GraphH => StartsWith_At(data, "graph_", 0);
    case ExportChooseH =>
      StartsWith_At(data, "export_table_", 0); StartsWith_At(data, "export_table_", 7);
      StartsWith_At(data, "export_table_", 12);
    case ExportCancelH => StartsWith_At(data, "export_cancel", 0); StartsWith_At(data, "export_cancel", 7);
    case ExportSendH =>
      StartsWith_At(data, "export_tablefmt_", 0); StartsWith_At(data, "export_tablefmt_", 7);
      StartsWith_At(data, "export_tablefmt_", 12);
    case _ =>
  }

  /** No callback data is accepted by two filters of the table, so first-match
      dispatch never depends on the order of registration. */
  lemma Accepts_Unique(data: string, h1: CallbackHandler, h2: CallbackHandler)
    requires Accepts(h1, data) && Accepts(h2, data)
    ensures h1 == h2
  {
    Accepts_Fingerprint(h1, data);
    Accepts_Fingerprint(h2, data);
  }

  /** The table dispatches to the filter that accepts the data, and to none when
      no filter does. */
  lemma RouteCallback_Accepts(data: string, h: CallbackHandler)
    ensures Accepts(h, data) <==> h != Unhandled && RouteCallback(data) == h
  {
    var r := RouteCallback(data);
    assert r != Unhandled ==> Accepts(r, data);
    if Accepts(h, data) && r != Unhandled {
      Accepts_Unique(data, h, r);
    }
  }

  /** Any list that registers every handler, in any order, dispatches every data
      exactly as the table does. */
  lemma RouteCallback_AnyOrder(order: seq<CallbackHandler>, data: string)
    requires forall h :: h != Unhandled ==> h in order
    ensures FirstAccepting(order, data) == RouteCallback(data)
  {
    var f := FirstAccepting(order, data);
    var r := RouteCallback(data);
    RouteCallback_Accepts(data, r);
    if r != Unhandled {
      assert r in order;
      var k :| 0 <= k < |order| && order[k] == r;
      RouteCallback_Accepts(data, f);
    } else if f != Unhandled {
      RouteCallback_Accepts(data, f);
    }
  }

  /** In particular, the table is first-match dispatch over its own registrations. */
  lemma RouteCallback_Registrations(data: string)
    ensures RouteCallback(data) == FirstAccepting(Registrations, data)
  {
    RouteCallback_AnyOrder(Registrations, data);
  }
}

=== FILE: text.dfy ===
/** The handful of Python `str` operations the bot's logic relies on:
    `lower`, `capitalize`, `startswith`, slicing past a prefix,
    `split(sep, maxsplit)`, `rsplit(sep, 1)`, `split()` on whitespace,
    `replace(c, '')` and `strip()`. */
module Text {

  /** Python's `str.isspace` set. */
  predicate IsSpace(c: char) {
    || c == ' '
    || '\t' <= c <= '\r'
    || '\U{1C}' <= c <= '\U{1F}'
    || c == '\U{85}' || c == '\U{A0}' || c == '\U{1680}'
    || '\U{2000}' <= c <= '\U{200A}'
    || c == '\U{2028}' || c == '\U{2029}' || c == '\U{202F}' || c == '\U{205F}' || c == '\U{3000}'
  }

  predicate NoSpace(s: string) {
    forall i :: 0 <= i < |s| ==> !IsSpace(s[i])
  }

  /** Case mapping restricted to the Latin and basic Cyrillic letters used in nicknames. */
  function LowerChar(c: char): char {
    if 'A' <= c <= 'Z' then (c as int + 32) as char
    else if '\U{410}' <= c <= '\U{42F}' then (c as int + 32) as char
    else if '\U{400}' <= c <= '\U{40F}' then (c as int + 80) as char
    else c
  }

  function UpperChar(c: char): char {
    if 'a' <= c <= 'z' then (c as int - 32) as char
    else if '\U{430}' <= c <= '\U{44F}' then (c as int - 32) as char
    else if '\U{450}' <= c <= '\U{45F}' then (c as int - 80) as char
    else c
  }

  lemma {:induction false} LowerChar_Idempotent(c: char)
    ensures LowerChar(LowerChar(c)) == LowerChar(c)
  {
  }

  /** `s.lower()` */
  function Lower(s: string): (r: string)
    ensures |r| == |s|
    ensures forall i :: 0 <= i < |s| ==> r[i] == LowerChar(s[i])
  {
    seq(|s|, i requires 0 <= i < |s| => LowerChar(s[i]))
  }

  /** `s.capitalize()`: first character upper-cased, all the others lower-cased. */
  function Capitalize(s: string): (r: string)
    ensures |r| == |s|
  {
    if s == [] then [] else [UpperChar(s[0])] + Lower(s[1..])
  }

  /** Capitalizing twice changes nothing more: `x.capitalize()` is always a fixed point. */
  lemma Capitalize_Idempotent(s: string)
    ensures Capitalize(Capitalize(s)) == Capitalize(s)
  {
    if s != [] {
      var c := Capitalize(s);
      assert c[1..] == Lower(s[1..]);
      forall i | 0 <= i < |s| - 1
        ensures LowerChar(LowerChar(s[1..][i])) == LowerChar(s[1..][i])
      {
        LowerChar_Idempotent(s[1..][i]);
      }
      assert Lower(c[1..]) == c[1..];
    }
  }

  predicate StartsWith(s: string, prefix: string) {
    |prefix| <= |s| && s[..|prefix|] == prefix
  }

  /** One differing character rules a prefix out. */
  lemma StartsWith_Differs(s: string, p: string, i: nat)
    requires i < |p| && i < |s| && s[i] != p[i]
    ensures !StartsWith(s, p)
  {
    if |p| <= |s| {
      assert s[..|p|][i] != p[i];
    }
  }

  /** `s[n:]` — empty when `n` is past the end. */
  function DropPrefix(s: string, n: nat): (r: string)
    ensures n <= |s| ==> r == s[n..]
    ensures n > |s| ==> r == []
  {
    if n <= |s| then s[n..] else []
  }

  /** Index of the first `c` in `s`, or `|s|` when there is none. */
  function Find(s: string, c: char): (i: nat)
    ensures i <= |s|
    ensures i < |s| ==> s[i] == c
  {
    if s == [] then 0
    else if s[0] == c then 0
    else 1 + Find(s[1..], c)
  }

  /** No `c` comes before the one `Find` reports. */
  lemma {:induction false} Find_First(s: string, c: char)
    ensures forall j :: 0 <= j < Find(s, c) ==> s[j] != c
  {
    if s != [] && s[0] != c {
      Find_First(s[1..], c);
    }
  }

  /** Index of the last `c` in `s`, or -1 when there is none. */
  function FindLast(s: string, c: char): (i: int)
    ensures -1 <= i < |s|
    ensures 0 <= i ==> s[i] == c
    ensures forall j :: i < j < |s| ==> s[j] != c
  {
    if s == [] then -1
    else if s[|s| - 1] == c then |s| - 1
    else FindLast(s[..|s| - 1], c)
  }

  /** The parts joined back with `sep` — the inverse every split below satisfies. */
  function Join(parts: seq<string>, sep: char): string {
    if parts == [] then []
    else if |parts| == 1 then parts[0]
    else parts[0] + [sep] + Join(parts[1..], sep)
  }

  /** `s.split(sep, maxsplit)`: cut at the first `maxsplit` separators only. */
  function SplitN(s: string, sep: char, maxsplit: nat): (parts: seq<string>)
    ensures 1 <= |parts| <= maxsplit + 1
    decreases maxsplit
  {
    var i := Find(s, sep);
    if maxsplit == 0 || i == |s| then [s]
    else [s[..i]] + SplitN(s[i + 1..], sep, maxsplit - 1)
  }

  /** `s.split(sep)` without a limit. */
  function Split(s: string, sep: char): (parts: seq<string>)
    ensures |parts| >= 1
    decreases |s|
  {
    var i := Find(s, sep);
    if i == |s| then [s] else [s[..i]] + Split(s[i + 1..], sep)
  }

  /** `s.rsplit(sep, 1)`: cut at the last separator only. */
  function RSplit1(s: string, sep: char): (parts: seq<string>)
    ensures 1 <= |parts| <= 2
    ensures Join(parts, sep) == s
    ensures |parts| == 2 ==> sep !in parts[1]
    ensures |parts| == 1 <==> sep !in s
  {
    var j := FindLast(s, sep);
    if j < 0 then [s]
    else
      assert s == s[..j] + [sep] + s[j + 1..];
      [s[..j], s[j + 1..]]
  }

  /** Joining the pieces of `split(sep, maxsplit)` gives back the text. */
  lemma {:induction false} SplitN_Inverse(s: string, sep: char, maxsplit: nat)
    ensures Join(SplitN(s, sep, maxsplit), sep) == s
    decreases maxsplit
  {
    var i := Find(s, sep);
    if maxsplit == 0 || i == |s| {
      assert SplitN(s, sep, maxsplit) == [s];
    } else {
      var head := s[..i];
      var tail := s[i + 1..];
      assert s == head + [sep] + tail;
      var rest := SplitN(tail, sep, maxsplit - 1);
      assert SplitN(s, sep, maxsplit) == [head] + rest;
      SplitN_Inverse(tail, sep, maxsplit - 1);
      Join_Cons(head, rest, sep);
    }
  }

  /** Only the last piece of `split(sep, maxsplit)` may still hold a separator. */
  lemma {:induction false} SplitN_Clean(s: string, sep: char, maxsplit: nat)
    ensures forall k :: 0 <= k < |SplitN(s, sep, maxsplit)| - 1 ==> sep !in SplitN(s, sep, maxsplit)[k]
    decreases maxsplit
  {
    var i := Find(s, sep);
    if maxsplit != 0 && i != |s| {
      var head := s[..i];
      var rest := SplitN(s[i + 1..], sep, maxsplit - 1);
      var parts := [head] + rest;
      assert SplitN(s, sep, maxsplit) == parts;
      SplitN_Clean(s[i + 1..], sep, maxsplit - 1);
      Find_First(s, sep);
      assert sep !in head;
      assert forall k :: 1 <= k < |parts| ==> parts[k] == rest[k - 1];
    }
  }

  /** Joining the pieces of `split(sep)` gives back the text. */
  lemma {:induction false} Split_Inverse(s: string, sep: char)
    ensures Join(Split(s, sep), sep) == s
    decreases |s|
  {
    var i := Find(s, sep);
    if i != |s| {
      var head := s[..i];
      var tail := s[i + 1..];
      var rest := Split(tail, sep);
      assert Split(s, sep) == [head] + rest;
      Split_Inverse(tail, sep);
      Join_Cons(head, rest, sep);
      assert s == head + [sep] + tail;
    }
  }

  /** No piece of `split(sep)` holds a separator. */
  lemma {:induction false} Split_Clean(s: string, sep: char)
    ensures forall k :: 0 <= k < |Split(s, sep)| ==> sep !in Split(s, sep)[k]
    decreases |s|
  {
    var i := Find(s, sep);
    Find_First(s, sep);
    if i != |s| {
      var head := s[..i];
      var rest := Split(s[i + 1..], sep);
      var parts := [head] + rest;
      assert Split(s, sep) == parts;
      Split_Clean(s[i + 1..], sep);
      assert sep !in head;
      assert forall k :: 1 <= k < |parts| ==> parts[k] == rest[k - 1];
    } else {
      assert sep !in s;
    }
  }

  lemma {:induction false} Find_Prefix(a: string, sep: char, b: string)
    requires sep !in a
    ensures Find(a + [sep] + b, sep) == |a|
  {
    var s := a + [sep] + b;
    assert s[|a|] == sep;
    assert forall j :: 0 <= j < |a| ==> s[j] == a[j];
    Find_First(s, sep);
  }

  /** Splitting a string built as `a + sep + b` peels off exactly `a`. */
  lemma SplitN_Cons(a: string, sep: char, b: string, maxsplit: nat)
    requires sep !in a
    ensures SplitN(a + [sep] + b, sep, maxsplit + 1) == [a] + SplitN(b, sep, maxsplit)
  {
    var s := a + [sep] + b;
    Find_Prefix(a, sep, b);
    assert s[..|a|] == a;
    assert s[|a| + 1..] == b;
  }

  lemma SplitN_NoSep(s: string, sep: char, maxsplit: nat)
    requires sep !in s
    ensures SplitN(s, sep, maxsplit) == [s]
  {
  }

  lemma Split_Cons(a: string, sep: char, b: string)
    requires sep !in a
    ensures Split(a + [sep] + b, sep) == [a] + Split(b, sep)
  {
    var s := a + [sep] + b;
    Find_Prefix(a, sep, b);
    assert s[..|a|] == a;
    assert s[|a| + 1..] == b;
  }

  lemma Split_NoSep(s: string, sep: char)
    requires sep !in s
    ensures Split(s, sep) == [s]
  {
  }

  /** Cutting `a + sep + b` at its last separator gives back `a` and `b` whenever `b` has none. */
  lemma {:induction false} RSplit1_Snoc(a: string, sep: char, b: string)
    requires sep !in b
    ensures RSplit1(a + [sep] + b, sep) == [a, b]
  {
    var s := a + [sep] + b;
    var j := FindLast(s, sep);
    assert s[|a|] == sep;
    assert forall k :: |a| < k < |s| ==> s[k] == b[k - |a| - 1];
    assert j == |a|;
    assert s[..j] == a;
    assert s[j + 1..] == b;
  }

  /** Putting one more piece in front of a non-empty list. */
  lemma Join_Cons(a: string, rest: seq<string>, sep: char)
    requires rest != []
    ensures Join([a] + rest, sep) == a + [sep] + Join(rest, sep)
  {
    assert ([a] + rest)[1..] == rest;
  }

  lemma Clean_Cons(a: string, rest: seq<string>, sep: char)
    requires rest != []
    ensures CleanButLast([a] + rest, sep) <==> sep !in a && CleanButLast(rest, sep)
    ensures CleanAll([a] + rest, sep) <==> sep !in a && CleanAll(rest, sep)
  {
    assert ([a] + rest)[1..] == rest;
  }

  /** Joined lists that agree after a common front agree when the front is put back. */
  lemma {:induction false} Join_SameFront(x: seq<string>, p: seq<string>, q: seq<string>, sep: char)
    requires p != [] && q != [] && Join(p, sep) == Join(q, sep)
    ensures Join(x + p, sep) == Join(x + q, sep)
  {
    if x != [] {
      Join_SameFront(x[1..], p, q, sep);
      assert x + p == [x[0]] + (x[1..] + p);
      assert x + q == [x[0]] + (x[1..] + q);
      Join_Cons(x[0], x[1..] + p, sep);
      Join_Cons(x[0], x[1..] + q, sep);
    } else {
      assert x + p == p && x + q == q;
    }
  }

  /** No piece before the last holds `sep`. */
  predicate CleanButLast(parts: seq<string>, sep: char) {
    |parts| <= 1 || (sep !in parts[0] && CleanButLast(parts[1..], sep))
  }

  /** No piece holds `sep`. */
  predicate CleanAll(parts: seq<string>, sep: char) {
    parts == [] || (sep !in parts[0] && CleanAll(parts[1..], sep))
  }

  lemma Seq_Cons(parts: seq<string>)
    requires parts != []
    ensures parts == [parts[0]] + parts[1..]
  {
  }

  /** Splitting joined pieces with as many cuts as there are separators between them
      gives the pieces back, provided none but the last holds a separator. */
  lemma {:induction false} SplitN_Join(parts: seq<string>, sep: char)
    requires |parts| >= 1 && CleanButLast(parts, sep)
    ensures SplitN(Join(parts, sep), sep, |parts| - 1) == parts
  {
    if |parts| > 1 {
      var a := parts[0];
      var tail := parts[1..];
      SplitN_Join(tail, sep);
      var j := Join(tail, sep);
      assert Join(parts, sep) == a + [sep] + j;
      SplitN_Cons(a, sep, j, |tail| - 1);
      Seq_Cons(parts);
    }
  }

  /** Splitting joined separator-free pieces gives the pieces back. */
  lemma {:induction false} Split_Join(parts: seq<string>, sep: char)
    requires |parts| >= 1 && CleanAll(parts, sep)
    ensures Split(Join(parts, sep), sep) == parts
  {
    if |parts| == 1 {
      Split_NoSep(parts[0], sep);
    } else {
      var a := parts[0];
      var tail := parts[1..];
      Split_Join(tail, sep);
      var j := Join(tail, sep);
      assert Join(parts, sep) == a + [sep] + j;
      Split_Cons(a, sep, j);
      Seq_Cons(parts);
    }
  }

  /** `s.replace(c, '')` */
  function Remove(s: string, c: char): (r: string)
    ensures c !in r
    ensures |r| <= |s|
    ensures forall x :: x in r ==> x in s
    ensures c !in s ==> r == s
  {
    if s == [] then []
    else (if s[0] == c then [] else [s[0]]) + Remove(s[1..], c)
  }

  lemma {:induction false} Remove_Append(a: string, b: string, c: char)
    ensures Remove(a + b, c) == Remove(a, c) + Remove(b, c)
  {
    if a != [] {
      assert (a + b)[1..] == a[1..] + b;
      Remove_Append(a[1..], b, c);
    } else {
      assert a + b == b;
    }
  }

  predicate AllSpace(s: string) {
    forall i :: 0 <= i < |s| ==> IsSpace(s[i])
  }

  /** `s.lstrip()` */
  function TrimStart(s: string): (r: string)
    ensures |r| <= |s|
    ensures r == [] || !IsSpace(r[0])
    ensures NoSpace(s) ==> r == s
    ensures forall x :: x in r ==> x in s
  {
    if s != [] && IsSpace(s[0]) then TrimStart(s[1..]) else s
  }

  /** `s.rstrip()` */
  function TrimEnd(s: string): (r: string)
    ensures |r| <= |s|
    ensures r == [] || !IsSpace(r[|r| - 1])
    ensures NoSpace(s) ==> r == s
    ensures forall x :: x in r ==> x in s
  {
    if s != [] && IsSpace(s[|s| - 1]) then TrimEnd(s[..|s| - 1]) else s
  }

  /** What `lstrip` removes is a whitespace prefix: the rest is a suffix of the text. */
  lemma {:induction false} TrimStart_Shape(s: string)
    ensures s == s[..|s| - |TrimStart(s)|] + TrimStart(s)
    ensures AllSpace(s[..|s| - |TrimStart(s)|])
  {
    if s != [] && IsSpace(s[0]) {
      var t := s[1..];
      TrimStart_Shape(t);
      var r := TrimStart(t);
      var k := |t| - |r|;
      assert TrimStart(s) == r;
      assert s[..k + 1] == [s[0]] + t[..k];
      assert s == [s[0]] + t;
    }
  }

  /** What `rstrip` removes is a whitespace suffix: the rest is a prefix of the text. */
  lemma {:induction false} TrimEnd_Shape(s: string)
    ensures s == TrimEnd(s) + s[|TrimEnd(s)|..]
    ensures AllSpace(s[|TrimEnd(s)|..])
  {
    if s != [] && IsSpace(s[|s| - 1]) {
      TrimEnd_Shape(s[..|s| - 1]);
      var r := TrimEnd(s);
      assert s[|r|..] == s[..|s| - 1][|r|..] + [s[|s| - 1]];
    }
  }

  /** `s.strip()` */
  function Strip(s: string): (r: string)
    ensures NoSpace(s) ==> r == s
    ensures forall x :: x in r ==> x in s
  {
    TrimEnd(TrimStart(s))
  }

  /** `strip` cuts all the whitespace at both ends: the stripped text neither
      starts nor ends with whitespace. */
  lemma Strip_Ends(s: string)
    ensures Strip(s) == [] || (!IsSpace(Strip(s)[0]) && !IsSpace(Strip(s)[|Strip(s)| - 1]))
  {
    TrimEnd_Shape(TrimStart(s));
  }

  /** `strip` cuts whitespace only: the text is some whitespace, the stripped
      text, and some more whitespace. */
  lemma Strip_Shape(s: string)
    ensures exists k ::
      && 0 <= k <= k + |Strip(s)| <= |s|
      && s == s[..k] + Strip(s) + s[k + |Strip(s)|..]
      && AllSpace(s[..k]) && AllSpace(s[k + |Strip(s)|..])
  {
    var t := TrimStart(s);
    var r := TrimEnd(t);
    TrimStart_Shape(s);
    TrimEnd_Shape(t);
    var k := |s| - |t|;
    assert s[k..] == t;
    assert s[k + |r|..] == t[|r|..];
    assert s == s[..k] + r + s[k + |r|..];
  }

  /** Index of the first whitespace character, or `|s|`. */
  function FindSpace(s: string): (i: nat)
    ensures i <= |s|
    ensures i < |s| ==> IsSpace(s[i])
    ensures forall j :: 0 <= j < i ==> !IsSpace(s[j])
  {
    if s == [] then 0
    else if IsSpace(s[0]) then 0
    else 1 + FindSpace(s[1..])
  }

  /** `s.split()`: the maximal runs of non-whitespace characters, in order;
      no word at all exactly when the text is whitespace only. */
  function Words(s: string): (ws: seq<string>)
    ensures forall k :: 0 <= k < |ws| ==> ws[k] != [] && NoSpace(ws[k])
    decreases |s|
  {
    var t := TrimStart(s);
    if t == [] then []
    else
      var i := FindSpace(t);
      [t[..i]] + Words(t[i..])
  }

  /** There is no word at all exactly when the text is whitespace only. */
  lemma Words_Empty(s: string)
    ensures Words(s) == [] <==> AllSpace(s)
  {
    var t := TrimStart(s);
    TrimStart_Shape(s);
    if t != [] {
      assert s[|s| - |t|] == t[0];
    }
  }

  /** A string with no whitespace is a single word. */
  lemma Words_Single(s: string)
    requires s != [] && NoSpace(s)
    ensures Words(s) == [s]
  {
    assert TrimStart(s) == s;
    assert FindSpace(s) == |s|;
    assert s[..|s|] == s;
    assert s[|s|..] == [];
    assert Words([]) == [];
  }

  /** A text whose first character is neither whitespace nor `c` has a first word that does not start with `c`. */
  lemma Words_FirstChar(s: string, c: char)
    requires s != [] && !IsSpace(s[0]) && s[0] != c
    ensures Words(s) != [] && Words(s)[0][0] == s[0]
  {
    assert TrimStart(s) == s;
  }

  /** Leading whitespace does not change `lstrip`'s result. */
  lemma {:induction false} TrimStart_Spaces(sp: string, rest: string)
    requires AllSpace(sp)
    ensures TrimStart(sp + rest) == TrimStart(rest)
  {
    if sp != [] {
      assert (sp + rest)[1..] == sp[1..] + rest;
      TrimStart_Spaces(sp[1..], rest);
    } else {
      assert sp + rest == rest;
    }
  }

  /** Whitespace in front of a text adds no word. */
  lemma Words_LeadingSpace(sp: string, rest: string)
    requires AllSpace(sp)
    ensures Words(sp + rest) == Words(rest)
  {
    TrimStart_Spaces(sp, rest);
  }

  lemma {:induction false} FindSpace_Word(a: string, c: char, rest: string)
    requires NoSpace(a) && IsSpace(c)
    ensures FindSpace(a + [c] + rest) == |a|
  {
    if a != [] {
      assert (a + [c] + rest)[1..] == a[1..] + [c] + rest;
      FindSpace_Word(a[1..], c, rest);
    } else {
      assert (a + [c] + rest)[0] == c;
    }
  }

  /** A word ended by any whitespace character comes first, then the words of the rest:
      with `Words_LeadingSpace` and `Words_Single`, this fixes `split()` on every text. */
  lemma Words_ConsAny(a: string, c: char, rest: string)
    requires a != [] && NoSpace(a) && IsSpace(c)
    ensures Words(a + [c] + rest) == [a] + Words(rest)
  {
    var t := a + [c] + rest;
    assert TrimStart(t) == t;
    FindSpace_Word(a, c, rest);
    assert t[..|a|] == a;
    assert t[|a|..] == [c] + rest;
    Words_LeadingSpace([c], rest);
  }

  /** A word and a space in front of a text add that word in front of its words. */
  lemma Words_Cons(a: string, rest: string)
    requires a != [] && NoSpace(a)
    ensures Words(a + " " + rest) == [a] + Words(rest)
  {
    Words_ConsAny(a, ' ', rest);
  }
}

=== FILE: tokens.dfy ===
/** The callback-token protocol. The bot keeps no session: every button carries
    its navigation state in its `callback_data` string, built by an f-string and
    taken apart again with `split`, `rsplit` or a prefix slice. This module holds
    both halves and the round trips between them; what the handlers then do with
    the decoded fields is in `Callbacks`. */
module Tokens {
  import opened Outcomes
  import opened Text
  import opened Numbers

  // ---------------------------------------------------------------- encoders

  /** `f"player_match_{name}_{idx}"`: the fields joined by '_', like every
      token that is later taken apart with `split('_')`. */
  function PlayerMatchToken(name: string, idx: int): string {
    Join(["player", "match", name, IntToString(idx)], '_')
  }

  function PlayerStatToken(name: string): string {
    "playerstat_" + name
  }

  function ShowMapToken(name: string): string {
    "show_map_" + name
  }

  function MatchToken(k: int): string {
    Join(["match", IntToString(k)], '_')
  }

  function MatchMapToken(k: int, i: int): string {
    Join(["matchmap", IntToString(k), IntToString(i)], '_')
  }

  function MatchMapSideToken(k: int, i: int, side: string): string {
    Join(["matchmap", "side", IntToString(k), IntToString(i), side], '_')
  }

  function GraphToken(name: string, metric: string): string {
    Join(["graph", name, metric], '_')
  }

  function PlayersChartToken(metric: string): string {
    "players_chart_" + metric
  }

  function ExportTableToken(cb: string): string {
    "export_table_" + cb
  }

  function ExportFormatToken(cb: string, fmt: string): string {
    "export_tablefmt_" + cb + "_" + fmt
  }

  function ExportCancelToken(cb: string): string {
    "export_cancel_" + cb
  }

  const BackPlayers: string := "back_players"
  const BackMaps: string := "back_maps"
  const BackTournaments: string := "back_tournaments"
  const PlayersChart: string := "players_chart"
  const PlayersChartCancel: string := "players_chart_cancel"
  const ProgressChart: string := "progress_chart"

  /** Slicing off a literal prefix gives back exactly what followed it. */
  lemma DropPrefix_Concat(p: string, x: string)
    ensures DropPrefix(p + x, |p|) == x
    ensures StartsWith(p + x, p)
  {
    assert (p + x)[..|p|] == p;
    assert (p + x)[|p|..] == x;
  }

  // ---------------------------------------------------------------- python helpers

  /** `parts[i]`, raising IndexError past the end. */
  function At(parts: seq<string>, i: nat): (r: Result<string>)
    ensures r.Ok? <==> i < |parts|
    ensures r.Ok? ==> r.value == parts[i]
    ensures r.Fail? ==> r.error == IndexError
  {
    if i < |parts| then Ok(parts[i]) else Fail(IndexError)
  }

  /** `int(s)`, raising ValueError on a malformed literal. */
  function Int(s: string): (r: Result<int>)
    ensures r.Ok? <==> ParseInt(s).Some?
    ensures r.Ok? ==> r.value == ParseInt(s).value
    ensures r.Fail? ==> r.error == ValueError
  {
    match ParseInt(s)
    case Some(v) => Ok(v)
    case None => Fail(ValueError)
  }

  /** `int(parts[i])` */
  function IntAt(parts: seq<string>, i: nat): Result<int> {
    var s :- At(parts, i);
    Int(s)
  }

  // ---------------------------------------------------------------- decoders

  /** `player_match_callback`: `split('_', maxsplit=3)`, then `int` of the fourth
      part. None where the handler answers 'Матч не найден.' before any lookup. */
  function DecodePlayerMatch(data: string): (r: Option<(string, int)>)
    ensures r.Some? ==> |SplitN(data, '_', 3)| == 4 && r.value.0 == SplitN(data, '_', 3)[2]
  {
    var parts := SplitN(data, '_', 3);
    if |parts| < 4 then None
    else
      match ParseInt(parts[3])
      case None => None
      case Some(i) => Some((parts[2], i))
  }

  /** `match_info_callback`: the second underscore-separated field as an integer,
      unguarded. */
  function DecodeMatch(data: string): Result<int> {
    IntAt(Split(data, '_'), 1)
  }

  /** `match_map_callback`: a three-way unpacking of `split('_', maxsplit=2)`
      (ValueError unless exactly three parts), then two `int`s. */
  function DecodeMatchMap(data: string): Result<(int, int)> {
    var parts := SplitN(data, '_', 2);
    if |parts| != 3 then Fail(ValueError)
    else
      var k :- Int(parts[1]);
      var i :- Int(parts[2]);
      Ok((k, i))
  }

  /** `match_map_side_callback`: a five-way unpacking of `split('_', maxsplit=4)`. */
  function DecodeMatchMapSide(data: string): Result<(int, int, string)> {
    var parts := SplitN(data, '_', 4);
    if |parts| != 5 then Fail(ValueError)
    else
      var k :- Int(parts[2]);
      var i :- Int(parts[3]);
      Ok((k, i, parts[4]))
  }

  /** `graph_callback`: a three-way unpacking of `split('_', maxsplit=2)`. */
  function DecodeGraph(data: string): Result<(string, string)> {
    var parts := SplitN(data, '_', 2);
    if |parts| != 3 then Fail(ValueError) else Ok((parts[1], parts[2]))
  }

  /** `export_table_send`: the text after `export_tablefmt_`, cut at its last '_'
      into (callback data, format). None where it answers 'Ошибка формата callback.'. */
  function DecodeExportFormat(data: string): (r: Option<(string, string)>)
    ensures r.Some? ==> '_' !in r.value.1
  {
    var parts := RSplit1(DropPrefix(data, |"export_tablefmt_"|), '_');
    if |parts| != 2 then None else Some((parts[0], parts[1]))
  }

  /** `export_cancel_callback`: the text after `export_cancel_`, or '' without that prefix. */
  function DecodeExportCancel(data: string): (cb: string)
    ensures !StartsWith(data, "export_cancel_") ==> cb == []
    ensures |cb| <= |data|
  {
    if StartsWith(data, "export_cancel_") then DropPrefix(data, |"export_cancel_"|) else []
  }

  // ---------------------------------------------------------------- round trips

  // Which short field lists are free of '_', stated once per length.

  lemma Clean2(a: string, b: string)
    ensures CleanButLast([a, b], '_') <==> '_' !in a
    ensures CleanAll([a, b], '_') <==> '_' !in a && '_' !in b
  {
    var p1 := [b];
    assert CleanAll(p1, '_') <==> '_' !in b;
    Clean_Cons(a, p1, '_');
    assert [a] + p1 == [a, b];
  }

  lemma Clean3(a: string, b: string, c: string)
    ensures CleanButLast([a, b, c], '_') <==> '_' !in a && '_' !in b
    ensures CleanAll([a, b, c], '_') <==> '_' !in a && '_' !in b && '_' !in c
  {
    var p2 := [b, c];
    Clean2(b, c);
    Clean_Cons(a, p2, '_');
    assert [a] + p2 == [a, b, c];
  }

  lemma Clean4(a: string, b: string, c: string, d: string)
    ensures CleanButLast([a, b, c, d], '_') <==> '_' !in a && '_' !in b && '_' !in c
    ensures CleanAll([a, b, c, d], '_') <==> '_' !in a && '_' !in b && '_' !in c && '_' !in d
  {
    var p3 := [b, c, d];
    Clean3(b, c, d);
    Clean_Cons(a, p3, '_');
    assert [a] + p3 == [a, b, c, d];
  }

  lemma Clean5(a: string, b: string, c: string, d: string, e: string)
    ensures CleanButLast([a, b, c, d, e], '_') <==> '_' !in a && '_' !in b && '_' !in c && '_' !in d
    ensures CleanAll([a, b, c, d, e], '_') <==> '_' !in a && '_' !in b && '_' !in c && '_' !in d && '_' !in e
  {
    var p4 := [b, c, d, e];
    Clean4(b, c, d, e);
    Clean_Cons(a, p4, '_');
    assert [a] + p4 == [a, b, c, d, e];
  }

  /** The text of a joined list: its first field, '_', then the rest joined. */
  lemma Join_Front1(a: string, rest: seq<string>)
    requires rest != []
    ensures Join([a] + rest, '_') == (a + "_") + Join(rest, '_')
  {
    Join_Cons(a, rest, '_');
  }

  /** The same with two fields in front. */
  lemma Join_Front2(a: string, b: string, rest: seq<string>)
    requires rest != []
    ensures Join([a, b] + rest, '_') == (a + "_" + b + "_") + Join(rest, '_')
  {
    var j := Join(rest, '_');
    Join_Cons(b, rest, '_');
    Join_Cons(a, [b] + rest, '_');
    assert [a] + ([b] + rest) == [a, b] + rest;
    assert (a + "_") + ((b + "_") + j) == (a + "_" + b + "_") + j;
  }

  /** `x_y` as one field followed by `z` joins to the same text as `x` followed by `y_z`. */
  lemma Join_Shift(front: seq<string>, x: string, y: string, z: string)
    ensures Join(front + [x + "_" + y, z], '_') == Join(front + [x, y + "_" + z], '_')
  {
    Join_Cons(x + "_" + y, [z], '_');
    Join_Cons(x, [y + "_" + z], '_');
    assert [x + "_" + y] + [z] == [x + "_" + y, z];
    assert [x] + [y + "_" + z] == [x, y + "_" + z];
    assert (x + "_" + y) + "_" + z == x + "_" + (y + "_" + z);
    Join_SameFront(front, [x + "_" + y, z], [x, y + "_" + z], '_');
  }

  /** An underscore-free name and any index come back exactly. */
  lemma DecodePlayerMatch_Token(name: string, idx: int)
    requires '_' !in name
    ensures DecodePlayerMatch(PlayerMatchToken(name, idx)) == Some((name, idx))
  {
    var d := IntToString(idx);
    Clean4("player", "match", name, d);
    SplitN_Join(["player", "match", name, d], '_');
    ParseInt_IntToString(idx);
  }

  /** A name with an underscore is cut at its first one: the decoded name is never
      the full name, and the index is read from the rest of the name glued to it. */
  lemma DecodePlayerMatch_Underscore(a: string, b: string, idx: int)
    requires '_' !in a
    ensures DecodePlayerMatch(PlayerMatchToken(a + "_" + b, idx)) ==
      match ParseInt(b + "_" + IntToString(idx))
      case None => None
      case Some(v) => Some((a, v))
  {
    PlayerMatchToken_SplitUnderscore(a, b, idx);
  }

  lemma PlayerMatchToken_SplitUnderscore(a: string, b: string, idx: int)
    requires '_' !in a
    ensures SplitN(PlayerMatchToken(a + "_" + b, idx), '_', 3) == ["player", "match", a, b + "_" + IntToString(idx)]
  {
    var d := IntToString(idx);
    var fields := ["player", "match", a, b + "_" + d];
    Join_Shift(["player", "match"], a, b, d);
    assert ["player", "match"] + [a + "_" + b, d] == ["player", "match", a + "_" + b, d];
    assert ["player", "match"] + [a, b + "_" + d] == fields;
    Clean4("player", "match", a, b + "_" + d);
    SplitN_Join(fields, '_');
  }

  /** So a name whose second piece starts with a letter is never found ... */
  lemma DecodePlayerMatch_LetterTail(a: string, b: string, idx: int)
    requires '_' !in a
    requires b != [] && IsAsciiLetter(b[0])
    ensures DecodePlayerMatch(PlayerMatchToken(a + "_" + b, idx)) == None
  {
    DecodePlayerMatch_Underscore(a, b, idx);
    var t := b + "_" + IntToString(idx);
    assert t[0] == b[0];
    ParseInt_Letter(t);
  }

  /** ... while a second piece of digits is read together with the index: the
      card of `a_1` sends index 2 as player `a`, index 12. */
  lemma DecodePlayerMatch_DigitTail(a: string, b: string, idx: nat)
    requires '_' !in a
    requires b != [] && AllDigits(b)
    ensures AllDigits(b + NatToString(idx))
    ensures DecodePlayerMatch(PlayerMatchToken(a + "_" + b, idx)) == Some((a, DigitsValue(b + NatToString(idx)) as int))
  {
    DecodePlayerMatch_Underscore(a, b, idx);
    assert IntToString(idx) == NatToString(idx);
    ParseInt_Grouped(b, NatToString(idx));
  }

  lemma DecodeMatch_Token(k: int)
    ensures DecodeMatch(MatchToken(k)) == Ok(k)
  {
    var d := IntToString(k);
    Clean2("match", d);
    Split_Join(["match", d], '_');
    ParseInt_IntToString(k);
  }

  lemma DecodeMatchMap_Token(k: int, i: int)
    ensures DecodeMatchMap(MatchMapToken(k, i)) == Ok((k, i))
  {
    var dk := IntToString(k);
    var di := IntToString(i);
    Clean3("matchmap", dk, di);
    SplitN_Join(["matchmap", dk, di], '_');
    ParseInt_IntToString(k);
    ParseInt_IntToString(i);
  }

  /** The side is the untouched remainder, so every side comes back, underscores and all. */
  lemma DecodeMatchMapSide_Token(k: int, i: int, side: string)
    ensures DecodeMatchMapSide(MatchMapSideToken(k, i, side)) == Ok((k, i, side))
  {
    var dk := IntToString(k);
    var di := IntToString(i);
    Clean5("matchmap", "side", dk, di, side);
    SplitN_Join(["matchmap", "side", dk, di, side], '_');
    ParseInt_IntToString(k);
    ParseInt_IntToString(i);
  }

  /** With an underscore-free name every metric comes back exactly, `A_f` and `D_t` included. */
  lemma DecodeGraph_Token(name: string, metric: string)
    requires '_' !in name
    ensures DecodeGraph(GraphToken(name, metric)) == Ok((name, metric))
  {
    Clean3("graph", name, metric);
    SplitN_Join(["graph", name, metric], '_');
  }

  /** A name with an underscore loses its tail to the metric. */
  lemma DecodeGraph_Underscore(a: string, b: string, metric: string)
    requires '_' !in a
    ensures DecodeGraph(GraphToken(a + "_" + b, metric)) == Ok((a, b + "_" + metric))
  {
    var fields := ["graph", a, b + "_" + metric];
    Join_Shift(["graph"], a, b, metric);
    assert ["graph"] + [a + "_" + b, metric] == ["graph", a + "_" + b, metric];
    assert ["graph"] + [a, b + "_" + metric] == fields;
    Clean3("graph", a, b + "_" + metric);
    SplitN_Join(fields, '_');
  }

  /** Any callback data, underscores included, and any underscore-free format come back. */
  lemma DecodeExportFormat_Token(cb: string, fmt: string)
    requires '_' !in fmt
    ensures DecodeExportFormat(ExportFormatToken(cb, fmt)) == Some((cb, fmt))
  {
    var body := cb + "_" + fmt;
    assert ExportFormatToken(cb, fmt) == "export_tablefmt_" + body;
    DropPrefix_Concat("export_tablefmt_", body);
    RSplit1_Snoc(cb, '_', fmt);
  }

  lemma DecodeExportCancel_Token(cb: string)
    ensures DecodeExportCancel(ExportCancelToken(cb)) == cb
  {
    DropPrefix_Concat("export_cancel_", cb);
  }

  // ---------------------------------------------------------------- export targets

  /** What an `export_table_…` button asks to export, as `export_table_send` reads it. */
  datatype Target =
    | AllPlayers
    | AllMaps
    | PlayerMatchT(name: string, idx: int)
    | MatchT(k: int)
    | MatchMapSideT(k: int, i: int, side: string)
    | MatchMapT(k: int, i: int)
    | PlayerT(name: string)
    | MapT(name: string)
    | AllTournaments

  /** The callback data each view embeds after `export_table_`. */
  function EncodeTarget(t: Target): string {
    match t
    case AllPlayers => "players"
    case AllMaps => "maps"
    case PlayerMatchT(name, idx) => PlayerMatchToken(name, idx)
    case MatchT(k) => MatchToken(k)
    case MatchMapSideT(k, i, side) => MatchMapSideToken(k, i, side)
    case MatchMapT(k, i) => MatchMapToken(k, i)
    case PlayerT(name) => Join(["player", name], '_')
    case MapT(name) => Join(["map", name], '_')
    case AllTournaments => "tournaments"
  }

  /** The if/elif chain of `export_table_send` on `cb_data.split('_')`, up to but not
      including the data lookups. `Ok(None)` is the 'not implemented' branch; a
      failure is an unguarded `int()` or index. */
  function DecodeTarget(cb: string): Result<Option<Target>> {
    TargetOfParts(Split(cb, '_'))
  }

  function TargetOfParts(ps: seq<string>): Result<Option<Target>>
    requires ps != []
  {
    if ps[0] == "players" then Ok(Some(AllPlayers))
    else if ps[0] == "maps" then Ok(Some(AllMaps))
    else if ps[0] == "player" && |ps| < 2 then Fail(IndexError)
    else if ps[0] == "player" && ps[1] == "match" then
      var name :- At(ps, 2);
      var idx :- IntAt(ps, 3);
      Ok(Some(PlayerMatchT(name, idx)))
    else if ps[0] == "match" then
      var k :- IntAt(ps, 1);
      Ok(Some(MatchT(k)))
    else if ps[0] == "matchmap" && |ps| < 2 then Fail(IndexError)
    else if ps[0] == "matchmap" && ps[1] == "side" then
      var k :- IntAt(ps, 2);
      var i :- IntAt(ps, 3);
      var side :- At(ps, 4);
      Ok(Some(MatchMapSideT(k, i, side)))
    else if ps[0] == "matchmap" then
      var k :- IntAt(ps, 1);
      var i :- IntAt(ps, 2);
      Ok(Some(MatchMapT(k, i)))
    else if ps[0] == "player" then Ok(Some(PlayerT(ps[1])))
    else if ps[0] == "map" then
      var name :- At(ps, 1);
      Ok(Some(MapT(name)))
    else if ps[0] == "tournaments" then Ok(Some(AllTournaments))
    else Ok(None)
  }

  /** The free-text fields a target can carry without being misread: no '_' in any
      of them, and no player literally named `match`. */
  predicate WellFormed(t: Target) {
    match t
    case PlayerMatchT(name, _) => '_' !in name
    case MatchMapSideT(_, _, side) => '_' !in side
    case PlayerT(name) => '_' !in name && name != "match"
    case MapT(name) => '_' !in name
    case _ => true
  }

  /** Every well-formed target is read back as itself. */
  lemma DecodeTarget_Encode(t: Target)
    requires WellFormed(t)
    ensures DecodeTarget(EncodeTarget(t)) == Ok(Some(t))
  {
    match t
    case AllPlayers =>
      DecodeTarget_Whole(t);
    case AllMaps =>
      DecodeTarget_Whole(t);
    case PlayerMatchT(name, idx) =>
      DecodeTarget_PlayerMatch(name, idx);
    case MatchT(k) =>
      DecodeTarget_Match(k);
    case MatchMapSideT(k, i, side) =>
      DecodeTarget_MatchMapSide(k, i, side);
    case MatchMapT(k, i) =>
      DecodeTarget_MatchMap(k, i);
    case PlayerT(name) =>
      DecodeTarget_Player(name);
    case MapT(name) =>
      DecodeTarget_Map(name);
    case AllTournaments =>
      DecodeTarget_Whole(t);
  }

  lemma DecodeTarget_Whole(t: Target)
    requires t.AllPlayers? || t.AllMaps? || t.AllTournaments?
    ensures DecodeTarget(EncodeTarget(t)) == Ok(Some(t))
  {
    Split_NoSep(EncodeTarget(t), '_');
  }

  lemma DecodeTarget_PlayerMatch(name: string, idx: int)
    requires '_' !in name
    ensures DecodeTarget(EncodeTarget(PlayerMatchT(name, idx))) == Ok(Some(PlayerMatchT(name, idx)))
  {
    PlayerMatchT_Split(name, idx);
    ParseInt_IntToString(idx);
    TargetOfParts_PlayerMatch(name, IntToString(idx), idx);
  }

  lemma TargetOfParts_PlayerMatch(name: string, d: string, idx: int)
    requires ParseInt(d) == Some(idx)
    ensures TargetOfParts(["player", "match", name, d]) == Ok(Some(PlayerMatchT(name, idx)))
  {
    var ps := ["player", "match", name, d];
    assert IntAt(ps, 3) == Ok(idx);
  }

  lemma PlayerMatchT_Split(name: string, idx: int)
    requires '_' !in name
    ensures Split(EncodeTarget(PlayerMatchT(name, idx)), '_') == ["player", "match", name, IntToString(idx)]
  {
    var d := IntToString(idx);
    Clean4("player", "match", name, d);
    Split_Join(["player", "match", name, d], '_');
  }

  lemma DecodeTarget_Match(k: int)
    ensures DecodeTarget(EncodeTarget(MatchT(k))) == Ok(Some(MatchT(k)))
  {
    var d := IntToString(k);
    Clean2("match", d);
    Split_Join(["match", d], '_');
    ParseInt_IntToString(k);
    assert TargetOfParts(["match", d]) == Ok(Some(MatchT(k)));
  }

  lemma DecodeTarget_MatchMapSide(k: int, i: int, side: string)
    requires '_' !in side
    ensures DecodeTarget(EncodeTarget(MatchMapSideT(k, i, side))) == Ok(Some(MatchMapSideT(k, i, side)))
  {
    MatchMapSideT_Split(k, i, side);
    ParseInt_IntToString(k);
    ParseInt_IntToString(i);
    TargetOfParts_MatchMapSide(IntToString(k), IntToString(i), k, i, side);
  }

  lemma TargetOfParts_MatchMapSide(dk: string, di: string, k: int, i: int, side: string)
    requires ParseInt(dk) == Some(k) && ParseInt(di) == Some(i)
    ensures TargetOfParts(["matchmap", "side", dk, di, side]) == Ok(Some(MatchMapSideT(k, i, side)))
  {
    var ps := ["matchmap", "side", dk, di, side];
    IntAt_Parsed(ps, 2, k);
    IntAt_Parsed(ps, 3, i);
  }

  lemma IntAt_Parsed(ps: seq<string>, j: nat, v: int)
    requires j < |ps| && ParseInt(ps[j]) == Some(v)
    ensures IntAt(ps, j) == Ok(v)
  {
  }

  lemma MatchMapSideT_Split(k: int, i: int, side: string)
    requires '_' !in side
    ensures Split(EncodeTarget(MatchMapSideT(k, i, side)), '_') == ["matchmap", "side", IntToString(k), IntToString(i), side]
  {
    var dk := IntToString(k);
    var di := IntToString(i);
    Clean5("matchmap", "side", dk, di, side);
    Split_Join(["matchmap", "side", dk, di, side], '_');
  }

  lemma DecodeTarget_MatchMap(k: int, i: int)
    ensures DecodeTarget(EncodeTarget(MatchMapT(k, i))) == Ok(Some(MatchMapT(k, i)))
  {
    var dk := IntToString(k);
    MatchMapT_Split(k, i);
    ParseInt_IntToString(k);
    ParseInt_IntToString(i);
    assert dk != "side" by {
      assert dk[0] != 's';
    }
    TargetOfParts_MatchMap(dk, IntToString(i), k, i);
  }

  lemma TargetOfParts_MatchMap(dk: string, di: string, k: int, i: int)
    requires dk != "side" && ParseInt(dk) == Some(k) && ParseInt(di) == Some(i)
    ensures TargetOfParts(["matchmap", dk, di]) == Ok(Some(MatchMapT(k, i)))
  {
    var ps := ["matchmap", dk, di];
    assert IntAt(ps, 1) == Ok(k);
    assert IntAt(ps, 2) == Ok(i);
  }

  lemma MatchMapT_Split(k: int, i: int)
    ensures Split(EncodeTarget(MatchMapT(k, i)), '_') == ["matchmap", IntToString(k), IntToString(i)]
  {
    var dk := IntToString(k);
    var di := IntToString(i);
    Clean3("matchmap", dk, di);
    Split_Join(["matchmap", dk, di], '_');
  }

  lemma DecodeTarget_Player(name: string)
    requires '_' !in name && name != "match"
    ensures DecodeTarget(EncodeTarget(PlayerT(name))) == Ok(Some(PlayerT(name)))
  {
    Clean2("player", name);
    Split_Join(["player", name], '_');
    assert TargetOfParts(["player", name]) == Ok(Some(PlayerT(name)));
  }

  lemma DecodeTarget_Map(name: string)
    requires '_' !in name
    ensures DecodeTarget(EncodeTarget(MapT(name))) == Ok(Some(MapT(name)))
  {
    Clean2("map", name);
    Split_Join(["map", name], '_');
    assert TargetOfParts(["map", name]) == Ok(Some(MapT(name)));
  }

  /** A player literally named `match` makes the export crash: `player_match`
      is taken for a per-match export and its missing third field raises IndexError. */
  lemma DecodeTarget_PlayerNamedMatch(name: string)
    requires name == "match"
    ensures DecodeTarget(EncodeTarget(PlayerT(name))) == Fail(IndexError)
  {
    Clean2("player", name);
    Split_Join(["player", name], '_');
    assert TargetOfParts(["player", name]) == Fail(IndexError);
  }

  /** A map name with an underscore exports the map named by its first piece. */
  lemma DecodeTarget_MapUnderscore(a: string, b: string)
    requires '_' !in a
    ensures DecodeTarget(EncodeTarget(MapT(a + "_" + b))) == Ok(Some(MapT(a)))
  {
    var cb := EncodeTarget(MapT(a + "_" + b));
    MapT_SplitUnderscore(a, b);
    TargetOfParts_Map(Split(cb, '_'));
  }

  lemma MapT_SplitUnderscore(a: string, b: string)
    requires '_' !in a
    ensures |Split(EncodeTarget(MapT(a + "_" + b)), '_')| >= 2
    ensures Split(EncodeTarget(MapT(a + "_" + b)), '_')[..2] == ["map", a]
  {
    var rest := a + ['_'] + b;
    Join_Cons("map", [rest], '_');
    assert ["map"] + [rest] == ["map", rest];
    Split_Cons("map", '_', rest);
    Split_Cons(a, '_', b);
  }

  lemma TargetOfParts_Map(ps: seq<string>)
    requires |ps| >= 2 && ps[..2] == ["map", ps[1]]
    ensures TargetOfParts(ps) == Ok(Some(MapT(ps[1])))
  {
    assert ps[0] == "map";
  }

  // ---------------------------------------------------------------- cancel

  /** The view `export_cancel_callback` goes back to. */
  datatype CancelAction =
    | ToPlayers
    | ToMaps
    | ToShowMap(name: string)
    | ToMatchMapSide(k: int, i: int, side: string)
    | ToMatchMap(k: int, i: int)
    | ToTournaments
    | ToMatch(k: int)
    | ToPlayerCard(name: string)
    | ToStart

  /** The prefix chain of `export_cancel_callback`, in its order. */
  function DecodeCancel(cb: string): Result<CancelAction> {
    if StartsWith(cb, "players") then Ok(ToPlayers)
    else if StartsWith(cb, "maps") then Ok(ToMaps)
    else if StartsWith(cb, "map_") then Ok(ToShowMap(DropPrefix(cb, 4)))
    else if StartsWith(cb, "matchmap_side_") then CancelMatchMapSide(Split(cb, '_'))
    else if StartsWith(cb, "matchmap_") then CancelMatchMap(Split(cb, '_'))
    else if StartsWith(cb, "tournaments") then Ok(ToTournaments)
    else if StartsWith(cb, "match_") then
      var k :- Int(DropPrefix(cb, |"match_"|));
      Ok(ToMatch(k))
    else if StartsWith(cb, "player_match_") then
      var parts := Split(cb, '_');
      if |parts| >= 3 then Ok(ToPlayerCard(parts[2])) else Ok(ToPlayers)
    else if StartsWith(cb, "playerstat_") then Ok(ToPlayerCard(DropPrefix(cb, |"playerstat_"|)))
    else if StartsWith(cb, "player_") then Ok(ToPlayerCard(DropPrefix(cb, |"player_"|)))
    else Ok(ToStart)
  }

  /** `matchmap_side_…`: five or more pieces name a side view, fewer fall back to the tournaments. */
  function CancelMatchMapSide(parts: seq<string>): Result<CancelAction> {
    if |parts| >= 5 then
      var k :- Int(parts[2]);
      var i :- Int(parts[3]);
      Ok(ToMatchMapSide(k, i, parts[4]))
    else Ok(ToTournaments)
  }

  /** `matchmap_…`: three or more pieces name a map view, fewer fall back to the tournaments. */
  function CancelMatchMap(parts: seq<string>): Result<CancelAction> {
    if |parts| >= 3 then
      var k :- Int(parts[1]);
      var i :- Int(parts[2]);
      Ok(ToMatchMap(k, i))
    else Ok(ToTournaments)
  }

  lemma CancelMatchMapSide_Parts(dk: string, di: string, k: int, i: int, side: string)
    requires ParseInt(dk) == Some(k) && ParseInt(di) == Some(i)
    ensures CancelMatchMapSide(["matchmap", "side", dk, di, side]) == Ok(ToMatchMapSide(k, i, side))
  {
    assert Int(dk) == Ok(k) && Int(di) == Ok(i);
  }

  lemma CancelMatchMap_Parts(dk: string, di: string, k: int, i: int)
    requires ParseInt(dk) == Some(k) && ParseInt(di) == Some(i)
    ensures CancelMatchMap(["matchmap", dk, di]) == Ok(ToMatchMap(k, i))
  {
    assert Int(dk) == Ok(k) && Int(di) == Ok(i);
  }

  /** Where cancelling the export of a target returns to: the view that offered it. */
  function CancelOf(t: Target): CancelAction {
    match t
    case AllPlayers => ToPlayers
    case AllMaps => ToMaps
    case PlayerMatchT(name, _) => ToPlayerCard(name)
    case MatchT(k) => ToMatch(k)
    case MatchMapSideT(k, i, side) => ToMatchMapSide(k, i, side)
    case MatchMapT(k, i) => ToMatchMap(k, i)
    case PlayerT(name) => ToPlayerCard(name)
    case MapT(name) => ToShowMap(name)
    case AllTournaments => ToTournaments
  }

  /** Cancelling from the format menu of a target returns to that target's own view.
      Map and whole-player names are taken whole here, so only the per-match player
      name and the side must be free of '_', and a player name must not itself
      start with `match_`. */
  lemma DecodeCancel_Encode(t: Target)
    requires t.PlayerMatchT? ==> '_' !in t.name
    requires t.MatchMapSideT? ==> '_' !in t.side
    requires t.PlayerT? ==> !StartsWith(t.name, "match_")
    ensures DecodeCancel(EncodeTarget(t)) == Ok(CancelOf(t))
  {
    match t
    case AllPlayers =>
      DecodeCancel_Whole(t);
    case AllMaps =>
      DecodeCancel_Whole(t);
    case PlayerMatchT(name, idx) =>
      DecodeCancel_PlayerMatch(name, idx);
    case MatchT(k) =>
      DecodeCancel_Match(k);
    case MatchMapSideT(k, i, side) =>
      DecodeCancel_MatchMapSide(k, i, side);
    case MatchMapT(k, i) =>
      DecodeCancel_MatchMap(k, i);
    case PlayerT(name) =>
      DecodeCancel_Player(name);
    case MapT(name) =>
      DecodeCancel_Map(name);
    case AllTournaments =>
      DecodeCancel_Whole(t);
  }

  lemma DecodeCancel_Whole(t: Target)
    requires t.AllPlayers? || t.AllMaps? || t.AllTournaments?
    ensures DecodeCancel(EncodeTarget(t)) == Ok(CancelOf(t))
  {
    var cb := EncodeTarget(t);
    if t.AllMaps? {
      StartsWith_Differs(cb, "players", 1);
    } else if t.AllTournaments? {
      StartsWith_Differs(cb, "players", 0);
      StartsWith_Differs(cb, "maps", 0);
      StartsWith_Differs(cb, "map_", 0);
      StartsWith_Differs(cb, "matchmap_side_", 0);
      StartsWith_Differs(cb, "matchmap_", 0);
    }
  }

  /** The branch for `player_match_…`, read from what the text starts with and how it splits. */
  lemma Cancel_PlayerMatchBranch(cb: string, name: string)
    requires StartsWith(cb, "player_match_")
    requires |Split(cb, '_')| >= 3 && Split(cb, '_')[2] == name
    ensures DecodeCancel(cb) == Ok(ToPlayerCard(name))
  {
    assert cb[..13] == "player_match_";
    assert cb[0] == 'p' && cb[6] == '_';
    StartsWith_Differs(cb, "players", 6);
    StartsWith_Differs(cb, "maps", 0);
    StartsWith_Differs(cb, "map_", 0);
    StartsWith_Differs(cb, "matchmap_side_", 0);
    StartsWith_Differs(cb, "matchmap_", 0);
    StartsWith_Differs(cb, "tournaments", 0);
    StartsWith_Differs(cb, "match_", 0);
  }

  lemma DecodeCancel_PlayerMatch(name: string, idx: int)
    requires '_' !in name
    ensures DecodeCancel(EncodeTarget(PlayerMatchT(name, idx))) == Ok(ToPlayerCard(name))
  {
    var cb := EncodeTarget(PlayerMatchT(name, idx));
    var rest := [name, IntToString(idx)];
    assert ["player", "match", name, IntToString(idx)] == ["player", "match"] + rest;
    Join_Front2("player", "match", rest);
    assert "player" + "_" + "match" + "_" == "player_match_";
    DropPrefix_Concat("player_match_", Join(rest, '_'));
    PlayerMatchT_Split(name, idx);
    Cancel_PlayerMatchBranch(cb, name);
  }

  /** The branch for `match_…`. */
  lemma Cancel_MatchBranch(cb: string)
    requires StartsWith(cb, "match_")
    ensures DecodeCancel(cb) == (var k :- Int(DropPrefix(cb, 6)); Ok(ToMatch(k)))
  {
    assert cb[..6] == "match_";
    assert cb[0] == 'm' && cb[2] == 't' && cb[5] == '_';
    StartsWith_Differs(cb, "players", 0);
    StartsWith_Differs(cb, "maps", 2);
    StartsWith_Differs(cb, "map_", 2);
    StartsWith_Differs(cb, "matchmap_side_", 5);
    StartsWith_Differs(cb, "matchmap_", 5);
    StartsWith_Differs(cb, "tournaments", 0);
  }

  lemma DecodeCancel_Match(k: int)
    ensures DecodeCancel(EncodeTarget(MatchT(k))) == Ok(ToMatch(k))
  {
    var cb := EncodeTarget(MatchT(k));
    var d := IntToString(k);
    Join_Front1("match", [d]);
    assert ["match"] + [d] == ["match", d];
    assert Join([d], '_') == d;
    assert "match" + "_" == "match_";
    DropPrefix_Concat("match_", d);
    Cancel_MatchBranch(cb);
    ParseInt_IntToString(k);
  }

  /** The branch for `matchmap_side_…`. */
  lemma Cancel_MatchMapSideBranch(cb: string)
    requires StartsWith(cb, "matchmap_side_")
    ensures DecodeCancel(cb) == CancelMatchMapSide(Split(cb, '_'))
  {
    assert cb[..14] == "matchmap_side_";
    assert cb[0] == 'm' && cb[2] == 't';
    StartsWith_Differs(cb, "players", 0);
    StartsWith_Differs(cb, "maps", 2);
    StartsWith_Differs(cb, "map_", 2);
  }

  lemma DecodeCancel_MatchMapSide(k: int, i: int, side: string)
    requires '_' !in side
    ensures DecodeCancel(EncodeTarget(MatchMapSideT(k, i, side))) == Ok(ToMatchMapSide(k, i, side))
  {
    var dk := IntToString(k);
    var di := IntToString(i);
    var cb := EncodeTarget(MatchMapSideT(k, i, side));
    var rest := [dk, di, side];
    assert ["matchmap", "side", dk, di, side] == ["matchmap", "side"] + rest;
    Join_Front2("matchmap", "side", rest);
    assert "matchmap" + "_" + "side" + "_" == "matchmap_side_";
    DropPrefix_Concat("matchmap_side_", Join(rest, '_'));
    Cancel_MatchMapSideBranch(cb);
    MatchMapSideT_Split(k, i, side);
    ParseInt_IntToString(k);
    ParseInt_IntToString(i);
    CancelMatchMapSide_Parts(dk, di, k, i, side);
  }

  /** The branch for `matchmap_…` when the field after `matchmap_` does not start with `s`. */
  lemma Cancel_MatchMapBranch(cb: string)
    requires StartsWith(cb, "matchmap_") && |cb| > 9 && cb[9] != 's'
    ensures DecodeCancel(cb) == CancelMatchMap(Split(cb, '_'))
  {
    Cancel_NotMapsNorSide(cb);
  }

  /** What `matchmap_x…` with `x` other than `s` does not start with. */
  lemma Cancel_NotMapsNorSide(cb: string)
    requires StartsWith(cb, "matchmap_") && |cb| > 9 && cb[9] != 's'
    ensures !StartsWith(cb, "players") && !StartsWith(cb, "maps")
    ensures !StartsWith(cb, "map_") && !StartsWith(cb, "matchmap_side_")
  {
    assert cb[..9] == "matchmap_";
    assert cb[0] == 'm' && cb[2] == 't';
    StartsWith_Differs(cb, "players", 0);
    StartsWith_Differs(cb, "maps", 2);
    StartsWith_Differs(cb, "map_", 2);
    StartsWith_Differs(cb, "matchmap_side_", 9);
  }

  lemma DecodeCancel_MatchMap(k: int, i: int)
    ensures DecodeCancel(EncodeTarget(MatchMapT(k, i))) == Ok(ToMatchMap(k, i))
  {
    var dk := IntToString(k);
    var di := IntToString(i);
    var cb := EncodeTarget(MatchMapT(k, i));
    var rest := [dk, di];
    Join_Front1("matchmap", rest);
    assert ["matchmap"] + rest == ["matchmap", dk, di];
    Join_Cons(dk, [di], '_');
    assert [dk] + [di] == rest;
    assert Join(rest, '_')[0] == dk[0];
    assert "matchmap" + "_" == "matchmap_";
    DropPrefix_Concat("matchmap_", Join(rest, '_'));
    assert cb[9] == dk[0];
    Cancel_MatchMapBranch(cb);
    MatchMapT_Split(k, i);
    ParseInt_IntToString(k);
    ParseInt_IntToString(i);
    CancelMatchMap_Parts(dk, di, k, i);
  }

  lemma DecodeCancel_Player(name: string)
    requires !StartsWith(name, "match_")
    ensures DecodeCancel(EncodeTarget(PlayerT(name))) == Ok(ToPlayerCard(name))
  {
    var cb := EncodeTarget(PlayerT(name));
    Join_Front1("player", [name]);
    assert ["player"] + [name] == ["player", name];
    assert Join([name], '_') == name;
    assert "player" + "_" == "player_";
    DropPrefix_Concat("player_", name);
    assert cb[..7] == "player_";
    assert cb[0] == 'p' && cb[6] == '_';
    StartsWith_Differs(cb, "players", 6);
    StartsWith_Differs(cb, "maps", 0);
    StartsWith_Differs(cb, "map_", 0);
    StartsWith_Differs(cb, "matchmap_side_", 0);
    StartsWith_Differs(cb, "matchmap_", 0);
    StartsWith_Differs(cb, "tournaments", 0);
    StartsWith_Differs(cb, "match_", 0);
    StartsWith_Differs(cb, "playerstat_", 6);
    assert !StartsWith(cb, "player_match_") by {
      if |name| >= 6 {
        assert cb[7..13] == name[..6];
        assert name[..6] != "match_";
      }
    }
  }

  lemma DecodeCancel_Map(name: string)
    ensures DecodeCancel(EncodeTarget(MapT(name))) == Ok(ToShowMap(name))
  {
    var cb := EncodeTarget(MapT(name));
    Join_Front1("map", [name]);
    assert ["map"] + [name] == ["map", name];
    assert Join([name], '_') == name;
    assert "map" + "_" == "map_";
    DropPrefix_Concat("map_", name);
    assert cb[..4] == "map_";
    assert cb[0] == 'm' && cb[3] == '_';
    StartsWith_Differs(cb, "players", 0);
    StartsWith_Differs(cb, "maps", 3);
  }

  /** The `players` test comes first and matches by prefix, so `playerstat_…`
      never reaches its own branch: it returns to the player list. */
  lemma DecodeCancel_PlayerStatShadowed(name: string)
    ensures DecodeCancel("playerstat_" + name) == Ok(ToPlayers)
  {
    assert ("playerstat_" + name)[..7] == "players";
  }

  /** A player named `match_x` cancels to the card of player `x`. */
  lemma DecodeCancel_PlayerNamedMatch(x: string)
    requires '_' !in x
    ensures DecodeCancel(EncodeTarget(PlayerT("match_" + x))) == Ok(ToPlayerCard(x))
  {
    var cb := EncodeTarget(PlayerT("match_" + x));
    PlayerNamedMatch_Fields(x);
    Clean3("player", "match", x);
    Split_Join(["player", "match", x], '_');
    Join_Front2("player", "match", [x]);
    assert ["player", "match"] + [x] == ["player", "match", x];
    assert Join([x], '_') == x;
    assert "player" + "_" + "match" + "_" == "player_match_";
    DropPrefix_Concat("player_match_", x);
    Cancel_PlayerMatchBranch(cb, x);
  }

  /** The data for player `match_x` is the same text as three fields `player`, `match`, `x`. */
  lemma PlayerNamedMatch_Fields(x: string)
    ensures EncodeTarget(PlayerT("match_" + x)) == Join(["player", "match", x], '_')
  {
    assert "match_" == "match" + "_";
    Join_Cons("match", [x], '_');
    assert ["match"] + [x] == ["match", x];
    Join_SameFront(["player"], ["match_" + x], ["match", x], '_');
    assert ["player"] + ["match_" + x] == ["player", "match_" + x];
    assert ["player"] + ["match", x] == ["player", "match", x];
  }
}
